=== FILE: README.md ===
# Chronos, modelled in Dafny

Chronos is a small timeline and schedule application. An Express server
(`server/index.js`) keeps timetables and timeline entries in a Prisma
database behind a JWT gate. A React client talks to it through two entity
classes, `TimelineEntry` and `Timetable`. The pages and components covered
here are:

- the schedule page, with a virtualised list and a search box;
- the admin page and its entry form;
- the JSON import card;
- the timetable selector;
- the timeline card, which formats an entry's date at its precision;
- the settings context, which holds dark mode and the 12/24-hour clock;
- the translation hook `t(key)`.

This project models that core as pure Dafny functions over immutable data.
It proves what each piece promises:

- **Server:** every handler keeps the database invariants, and the gate
  refuses requests without a token.
- **Client entities:** each request carries exactly its arguments, and they
  round-trip through the server's `Number(...)` parsing.
- **Entry form:** its date normalisation gives the instant that was typed.
- **Timeline card:** its text shows only the fields its precision names.
- **Schedule:** the virtual window covers every visible row.
- **Admin page:** it keeps the five newest entries.
- **Translations:** the two translation tables have the same keys.

The files, one module each:

| file | module | models |
|---|---|---|
| common.dfy | Common | optional values, JavaScript truthiness, `trim`, `split`/`join`, decimal text, `Number(...)` |
| seqs.dfy | Seqs | order-preserving filters and the id invariants they keep |
| sorting.dfy | Sorting | a stable sort by an integer key (`orderBy`, `Array.prototype.sort`) |
| dates.dfy | Dates | the precision tag, calendar instants, `new Date(s)` on the shapes the app writes, `toISOString` |
| http.dfy | Http | URLs, query parameters, headers, a settled `fetch` |
| server.dfy | Server | the store, each route handler, the `/api` gate, dispatch |
| entry_api.dfy | EntryApi | `TimelineEntry.list/search/create/bulkCreate/delete` |
| timetable_api.dfy | TimetableApi | `Timetable.list/create/delete` with the bearer header |
| wire.dfy | Wire | client requests routed into the server |
| settings.dfy | Settings | `SettingsProvider`, its storage, `useSettings` |
| entry_form.dfy | EntryForm | `EntryForm.handleSubmit`, input type and step |
| entry_card.dfy | EntryCard | `formatEntryDate` and the card's placement |
| schedule.dfy | Schedule | the schedule page |
| admin.dfy | Admin | the admin page |
| import_entries.dfy | ImportEntries | `handleImport` |
| timetable_manager.dfy | TimetableManager | `load`, `handleCreate`, `handleDelete`, the Delete button |
| i18n.dfy | I18n | the translation tables, `t(key)`, `dateLocales` |

**Conventions.**
- **I/O as parameters.** Each handler takes the replies of its network calls
  as parameters (`Result<T>`, `Ok` or `Failed(message)`). A step function
  returns the requests it sent, in order, and the state afterwards.
- **`Rejected` server replies.** A server handler whose Prisma call throws
  is modelled as `Rejected`: the handler's promise rejects before it writes a
  reply. What Express or Node does next is not modelled.
  That covers a NaN id, a missing row, a foreign-key violation or an invalid
  date. Whatever was already written stays written.
- **date-fns patterns.** The patterns `formatEntryDate` passes to date-fns
  are modelled as a date part plus a time part plus the clock, not as raw
  token lists. `EntryCard.PatternSpelling` states the exact pattern string
  for each case.

One more consequence of the code as written: the admin page calls
`TimelineEntry.list()` with no timetable. The request therefore carries
`timetableId=undefined`, which the server reads as NaN, so that list is never
answered (`Admin.RecentListNamesNoTimetable`, `Wire.AuthorizedListAnswers`).
Its submit likewise sends no `timetableId`, which the server refuses with 400
"Missing fields", so the admin page cannot add an entry
(`Admin.SubmittedData`, `Wire.AdminCreateRefused`).

## Model

| member | source | states |
|---|---|---|
| Common.Trim | components/admin/TimetableManager.tsx:27 | `trim()` yields the infix of the input with only white space cut from either end, and neither end of the result is white space |
| Common.TrimEmptyIffAllSpace | pages/schedule.tsx:58 | `search.trim() === ''` holds exactly when the input is all white space |
| Common.SplitJoin | src/i18n.ts:184 | a key joined from dot-free segments splits back into exactly those segments |
| Common.JoinSplit | src/i18n.ts:184 | splitting on a character and joining again gives back the original string |
| Common.NumberOfString | server/index.js:69 | `Number(String(id))` returns the same integer, so an id sent as text reaches the server unchanged |
| Sorting.SortBy | server/index.js:101 | the result is a permutation of the input whose keys never decrease (`orderBy: { date: 'asc' }`, also the admin page's sort) |
| Sorting.InsertKeepsTies | pages/admin.tsx:20 | an inserted element goes after every element that has its key, so the order among equal keys is kept |
| Sorting.SortByStable | pages/admin.tsx:20 | the sort is stable: the elements of any one key come out in their input order (`Array.prototype.sort` is stable) |
| Dates.PrecisionRoundTrip | entities/TimelineEntry.ts:6 | each of the five precisions is read back from its name, and exactly the five names are precisions |
| Dates.RankIsChronological | server/index.js:101 | ordering by rank is chronological order of the date fields, and equal ranks mean equal instants |
| Dates.Parse | components/admin/EntryForm.tsx:25 | `new Date(s)` yields only valid calendar instants, and None stands for "Invalid Date" |
| Dates.ParseToIso | components/admin/EntryForm.tsx:25 | parsing the `toISOString` text of an instant gives back the same instant |
| Dates.ParseIsoShape | components/timeline/TimelineEntry.tsx:12 | a well-shaped ISO timestamp parses to the instant its fields spell |
| Dates.ParseDateShape | components/admin/EntryForm.tsx:25 | a `YYYY-MM-DD` input parses to midnight of that day |
| Dates.YearInputParse | components/admin/EntryForm.tsx:23 | a year input completed with `-01-01` parses exactly when it is four digits, to January 1 of that year |
| Dates.MonthInputParse | components/admin/EntryForm.tsx:24 | a `YYYY-MM` input completed with `-01` parses to day 1 of that month |
| Http.ParamGet | entities/TimelineEntry.ts:16 | `URLSearchParams.get` answers a value exactly when some pair carries the name |
| Http.ParamSet | entities/TimelineEntry.ts:36 | `params.set(name, v)` makes `v` the value under `name` and leaves every other name's value alone |
| Http.DropKeepsOthers | entities/TimelineEntry.ts:36 | removing one name from the parameters leaves every other name's value as it was |
| Http.Settle | entities/Timetable.ts:14-15 | a non-ok reply throws the given message, and an ok one resolves to its body |
| Server.HandleLogin | server/index.js:14-32 | a missing field gives 400; with both fields present, anything short of success (an unknown user or a wrong password) is the same 401 "Invalid credentials"; a 200 happens exactly for a known user whose password matches, with a token signed over the user's id and name |
| Server.Gate | server/index.js:34-48 | `/login` always passes; a missing or empty header is "Unauthorized"; any other path passes exactly when the second space-separated piece of the header verifies |
| Server.BearerTokenOfHeader | server/index.js:41 | `"Bearer " + token` splits back to the token when it holds no space |
| Server.GoodIdsAreKeys | server/index.js:60-64 | the empty database meets the invariants, and under them ids are keys in both tables |
| Server.IndexOfName | server/index.js:61 | a found position holds a timetable of that name |
| Server.ListTimetablesReply | server/index.js:49-52 | answers 200 with exactly the stored timetables, and changes nothing |
| Server.CreateTimetableReply | server/index.js:54-66 | a falsy name gives 400; an existing name returns the existing row and changes nothing; a new name appends a row of that name; entries are untouched; invariants are kept |
| Server.CreateTwiceIsIdempotent | server/index.js:60-64 | a second create under the same name returns the same timetable and leaves the store as the first create left it |
| Server.EntriesNotOf | server/index.js:70 | keeps exactly the entries of other timetables, in id order |
| Server.TimetablesWithout | server/index.js:71 | keeps exactly the timetables with other ids, with names still unique and ids still increasing |
| Server.DeleteTimetableReply | server/index.js:68-73 | a NaN id rejects before any write; otherwise that timetable's entries go; the reply is 200 exactly when the timetable existed, and the timetable is gone either way |
| Server.DeleteAllReply | server/index.js:75-79 | answers 200 with both tables empty |
| Server.EntriesOf | server/index.js:100 | keeps exactly the entries of the timetable |
| Server.MatchingEntries | server/index.js:84-91 | keeps exactly the timetable's entries whose title or description contains the query |
| Server.ListEntriesReply | server/index.js:97-104 | a NaN `timetableId` is never answered; otherwise 200 with exactly that timetable's entries, oldest date first; no write |
| Server.SearchEntriesReply | server/index.js:81-95 | a NaN `timetableId` is never answered; otherwise 200 with exactly the timetable's entries matching `q`, each as often as the filter keeps it, oldest first; the date range and tags are ignored |
| Server.MatchingCounts | server/index.js:84-91 | the filter keeps each matching entry as often as it is stored, and no other entry |
| Server.MatchingEmptyIsEntriesOf | server/index.js:82 | an empty query matches every entry of the timetable |
| Server.EmptySearchIsList | server/index.js:82 | a search with no or empty `q` answers exactly what the list route answers |
| Server.AppendEntry | server/index.js:112-114 | the new row is appended under the next id; the timetables are unchanged; the invariants hold when its timetable exists |
| Server.CreateEntryReply | server/index.js:106-116 | a missing title, date, precision or timetable gives 400 and writes nothing; a complete record is never refused with 400, and it is answered 200, adding exactly one row with those fields, exactly when the date is readable and the timetable exists; otherwise the call rejects with nothing written |
| Server.DeleteEntryReply | server/index.js:141-145 | a 200 happens exactly when a row with the numeric id exists, and only that row goes; otherwise nothing changes |
| Server.CompleteRows | server/index.js:126 | the rows kept are exactly those with a title, date and precision |
| Server.BulkCreatesAllRows | server/index.js:118-139 | a bulk import into an existing timetable whose rows are all complete and readable answers 200 and creates every row, in order |
| Server.AllCompleteKept | server/index.js:126 | when every row has a title, date and precision, the loop skips none of them |
| Server.InsertRows | server/index.js:124-137 | the created rows are appended to the store and nothing else changes; every complete row is created unless the loop stops part-way, keeping what was created, which happens exactly when the timetable is missing or a date is unreadable |
| Server.InsertRowsMaterializes | server/index.js:124-137 | the created rows are, in order, the complete input rows with title, date and precision as given, the description defaulted to `''` and the body's timetable |
| Server.BulkCreateReply | server/index.js:118-139 | a non-array or missing timetable gives 400; otherwise the call either rejects, keeping the rows already created, exactly when some complete row meets a missing timetable or an unreadable date, or answers 200 with one created entry per complete row, in input order |
| Server.Dispatch | server/index.js:14-48 | login bypasses the gate; a denied request gets 401 with the store untouched; every request keeps the database invariants |
| Server.NoHeaderNoAccess | server/index.js:37-40 | without an Authorization header every path but `/login` gets 401 "Unauthorized" and nothing changes |
| Server.Run | server/index.js:49-145 | any sequence of requests keeps the database invariants |
| EntryApi.IdText | entities/TimelineEntry.ts:16 | `String(timetableId)` converts back by `Number` to the same id, and "undefined" to NaN |
| EntryApi.List | entities/TimelineEntry.ts:15-20 | a GET on the entries path whose only parameter is the timetable id's text |
| EntryApi.SetIfTruthy | entities/TimelineEntry.ts:36-38 | a parameter is set only for a non-empty value, and no other parameter changes |
| EntryApi.QueryParams | entities/TimelineEntry.ts:35-36 | always `timetableId`, then `q` exactly when the query is non-empty |
| EntryApi.RangeParams | entities/TimelineEntry.ts:37-38 | adds `startDate` and `endDate` exactly when each is non-empty |
| EntryApi.WithTags | entities/TimelineEntry.ts:39 | `tags` is sent, comma-joined, exactly for a non-empty tag list, and every other parameter is left as it was |
| EntryApi.SearchParams | entities/TimelineEntry.ts:35-39 | each of the five parameters is present exactly under its condition, with its value, and no other name is sent |
| EntryApi.Search | entities/TimelineEntry.ts:22-43 | a GET on `/search` carrying exactly those parameters and no headers |
| EntryApi.TagsRoundTrip | entities/TimelineEntry.ts:39 | tags joined with ',' split back into the same tags when none holds a comma |
| EntryApi.CreateBody | entities/TimelineEntry.ts:49 | the body is the argument with `tags` defaulted to `[]` |
| EntryApi.CreateBodyKeepsData | entities/TimelineEntry.ts:49 | an argument that has tags is sent unchanged; otherwise only an empty tag list is added |
| EntryApi.Create | entities/TimelineEntry.ts:45-53 | a JSON POST on the entries path whose body reads back as the argument with tags defaulted |
| EntryApi.BulkCreate | entities/TimelineEntry.ts:55-63 | a JSON POST on `/bulk` carrying the rows as given and the timetable id |
| EntryApi.Delete | entities/TimelineEntry.ts:65-68 | a DELETE whose last path segment converts by `Number` to the id |
| EntryApi.Settle | entities/TimelineEntry.ts:18 | a non-ok reply throws the method's own message, and an ok one resolves to the body |
| EntryApi.FailureMessagesDistinct | entities/TimelineEntry.ts:18-67 | the five methods fail with five different messages |
| TimetableApi.AuthHeaders | entities/Timetable.ts:12 | an Authorization header is present exactly for a truthy token, and it reads `Bearer <token>` |
| TimetableApi.List | entities/Timetable.ts:9-16 | a GET on the collection whose Authorization header is `Bearer <token>` exactly when a token is stored, and absent otherwise |
| TimetableApi.Create | entities/Timetable.ts:18-29 | a JSON POST of exactly `{ name }` with the same Authorization as the other calls |
| TimetableApi.DeletePath | entities/Timetable.ts:32 | a falsy id (absent or 0) targets the whole collection; a truthy id gives a path whose last segment converts back to that id |
| TimetableApi.Delete | entities/Timetable.ts:31-39 | a DELETE on that path whose Authorization header is `Bearer <token>` exactly when a token is stored, and absent otherwise |
| TimetableApi.Settle | entities/Timetable.ts:14-15 | a non-ok reply throws the method's message, and an ok one resolves to the body |
| Wire.TimetableRoute | server/index.js:49-79 | no timetable request is routed to `/login`, so each one meets the gate |
| Wire.FieldsOf | entities/TimelineEntry.ts:49 | the server reads the row's title, description, date and timetable as sent, and its precision name back to the same precision |
| Wire.EntryRoute | server/index.js:81-145 | a path no entry route declares stays unrouted under its own path; no entry request is routed to `/login`, so each one meets the gate |
| Wire.EntryRouteKeepsPath | server/index.js:81-145 | the verb and the path choose the handler: a routed request reaches the handler declared for its own path under `/api` |
| Wire.CreateFieldsOf | server/index.js:107 | the create handler reads the sent fields; an absent body reads as `{}`, so every field is missing |
| Wire.BulkOf | server/index.js:119-120 | the bulk handler sees an array of rows exactly when a bulk body was sent |
| Wire.UsableTokenPasses | server/index.js:41-44 | the bearer header built from a signed, space-free token passes the gate |
| Wire.GatePassed | server/index.js:34-48 | once the gate passes, each non-login route's own handler answers, and an unrouted path gets the 404 page with the store untouched |
| Wire.TimetableCallsReachHandlers | entities/Timetable.ts:9-39 | with a usable token, list, create and delete reach their handlers with the name or id the caller gave |
| Wire.DeleteZeroDeletesEverything | entities/Timetable.ts:32 | `delete(0)` and `delete()` empty both tables; a truthy id removes only that timetable and its entries |
| Wire.EntryCallsUnauthorized | entities/TimelineEntry.ts:17 | as written, every entry request is refused with 401 "Unauthorized" and the store is unchanged |
| Wire.WithAuth | entities/Timetable.ts:12 | attaching the stored token gives `Bearer <token>` as the Authorization header and changes nothing else the server reads |
| Wire.AuthorizedEntryCallsPass | server/index.js:34-48 | an entry request carrying a usable token is routed as without it, passes the gate, and list, search, create, bulk create and delete each reach their own handler |
| Wire.ListQueryRoundTrip | server/index.js:98 | the server reads back exactly the timetable id the list request named, and NaN for none |
| Wire.AuthorizedListAnswers | pages/admin.tsx:19 | an authorized list returns exactly that timetable's entries; the id-less list of the admin page is never answered |
| Wire.PositionalSearchRejected | pages/schedule.tsx:49 | the schedule's search as written is never answered, whatever is typed |
| Wire.CorrectedSearchAnswers | pages/schedule.tsx:45-55 | with arguments passed by name, the search returns exactly the timetable's entries containing the trimmed text, each as often as it is stored |
| Wire.AuthorizedCreateAddsEntry | server/index.js:106-116 | an authorized create missing its title, date or timetable gets 400 and writes nothing; a complete one with a readable date and an existing timetable gets 200 and exactly one new row carrying its fields |
| Wire.AdminCreateRefused | pages/admin.tsx:30 | the admin page's create, even with a token attached, gets 400 "Missing fields" and stores nothing |
| Wire.AuthorizedBulkCreatesAll | server/index.js:118-139 | an authorized bulk import of titled rows with readable dates into an existing timetable gets 200 with one new row per input row, in order, each in that timetable |
| Wire.AuthorizedDeleteRemovesEntry | entities/TimelineEntry.ts:65-68 | an authorized delete succeeds exactly when the entry exists, and removes only it |
| Settings.DecodeDarkMode | src/SettingsContext.tsx:16-17 | dark mode is on exactly when the stored text is "true", and off when nothing is stored |
| Settings.EncodeDarkMode | src/SettingsContext.tsx:31 | the stored dark-mode text is never empty |
| Settings.DarkModeRoundTrip | src/SettingsContext.tsx:31 | storing `String(darkMode)` and reading it back gives the same flag |
| Settings.DecodeTimeFormat | src/SettingsContext.tsx:24-25 | the clock is 12-hour exactly when "12h" is stored, and otherwise 24-hour |
| Settings.TimeFormatRoundTrip | src/SettingsContext.tsx:40 | storing a time format and reading it back gives the same format |
| Settings.Initial | src/SettingsContext.tsx:14-28 | without `window` both settings default; otherwise each is decoded from its own storage key |
| Settings.Persist | src/SettingsContext.tsx:30-41 | the effects write both keys and leave every other key alone |
| Settings.ReloadRoundTrip | src/SettingsContext.tsx:14-41 | what one provider persisted is exactly what the next provider starts with |
| Settings.SetDarkMode | src/SettingsContext.tsx:43 | only dark mode changes |
| Settings.SetTimeFormat | src/SettingsContext.tsx:44 | only the time format changes |
| Settings.SettersCommute | src/SettingsContext.tsx:43-44 | the two setters commute |
| Settings.UseSettings | src/SettingsContext.tsx:53-57 | inside a provider it returns the context value; outside one it throws its message |
| EntryForm.DateSource | components/admin/EntryForm.tsx:23-25 | a year input gets `-01-01`, a month input `-01`, and any other precision is read as typed |
| EntryForm.NormalizeDate | components/admin/EntryForm.tsx:23-25 | an ISO text exists exactly when the completed input parses, and it denotes the same instant |
| EntryForm.HandleSubmit | components/admin/EntryForm.tsx:19-28 | submits the form with only `date` replaced by an ISO text of the same instant, then resets; when the date throws, nothing is submitted and the form stays |
| EntryForm.YearSubmitsJanuaryFirst | components/admin/EntryForm.tsx:23 | a year form submits exactly for four digits, at midnight January 1 of that year |
| EntryForm.MonthSubmitsFirstDay | components/admin/EntryForm.tsx:24 | a month form submits midnight on day 1 of that month |
| EntryForm.FinePrecisionReadsInput | components/admin/EntryForm.tsx:25 | day, hour and minute forms submit exactly when the input parses, at that instant |
| EntryForm.InputType | components/admin/EntryForm.tsx:34-36 | each precision has its own input type: datetime-local for hour and minute, date, month, number for year |
| EntryForm.Step | components/admin/EntryForm.tsx:38-39 | a step is set only for hour (3600 s) and minute (60 s) |
| EntryForm.InputTypeFitsPrecision | components/admin/EntryForm.tsx:23-36 | a year input, which may hold any number text, submits exactly when it holds four digits; a month input submits exactly for months 1 to 12; the other inputs submit exactly when the typed text names a real date |
| EntryCard.PatternFor | components/timeline/TimelineEntry.tsx:13-26 | the pattern uses the reader's clock; it is year-only, month-year, whole-hour or hour-minute exactly for those precision names |
| EntryCard.PatternSpelling | components/timeline/TimelineEntry.tsx:14-25 | the exact date-fns pattern for each precision and clock, with "MMMM d, yyyy" for day and anything else |
| EntryCard.ClockHour | components/timeline/TimelineEntry.tsx:21 | `hh` shows an hour from 1 to 12 |
| EntryCard.ClockRoundTrip | components/timeline/TimelineEntry.tsx:21 | the 12-hour face plus AM/PM gives back the 24-hour hour |
| EntryCard.HourText | components/timeline/TimelineEntry.tsx:21 | `hh` and `HH` are always two digits |
| EntryCard.ClockText | components/timeline/TimelineEntry.tsx:23 | the 12-hour time text has 8 characters and the 24-hour one has 5 |
| EntryCard.ClockTextReadsBack | components/timeline/TimelineEntry.tsx:23 | the hour and minute can be read back off the time text |
| EntryCard.FormatEntryDate | components/timeline/TimelineEntry.tsx:11-27 | there is a text exactly when the date parses, and it is that instant rendered in the precision's pattern |
| EntryCard.RenderReadsOnlyFields | components/timeline/TimelineEntry.tsx:13-26 | instants that agree on the fields a pattern reads render the same |
| EntryCard.YearShowsOnlyYear | components/timeline/TimelineEntry.tsx:14-15 | a year card shows the same text for any two instants of the same year |
| EntryCard.MonthShowsOnlyMonth | components/timeline/TimelineEntry.tsx:16-17 | a month card shows the same text for any two instants of the same month |
| EntryCard.HourIgnoresMinutes | components/timeline/TimelineEntry.tsx:20-21 | an hour card shows the same text for instants that differ only in minutes |
| EntryCard.TimeFormatOnlyAffectsTime | components/timeline/TimelineEntry.tsx:14-25 | the clock setting changes only the hour and minute patterns |
| EntryCard.UnknownPrecisionIsDay | components/timeline/TimelineEntry.tsx:24-25 | any other precision renders like "day" |
| EntryCard.EraYear | components/timeline/TimelineEntry.tsx:15 | `yyyy` writes the year of the era: the year itself from year 1 on, and 1 for the year 0 (1 BC) |
| EntryCard.YearTextReadsBack | components/timeline/TimelineEntry.tsx:15 | a year card's text is four digits that read back as the year of the era: the year itself from year 1 on, and "0001" for the year 0 |
| EntryCard.MinuteTextEndsWithClock | components/timeline/TimelineEntry.tsx:23 | a minute card's text ends with its clock text |
| EntryCard.MinuteTextDeterminesTime | components/timeline/TimelineEntry.tsx:22-23 | two minute cards with the same text show the same hour and minute |
| EntryCard.Place | components/timeline/TimelineEntry.tsx:30-39 | a card's top is `position * 180 + 60`; it is in the left half exactly when `isLeft`, and then slides in from the left |
| EntryCard.PlacesAreSpaced | components/timeline/TimelineEntry.tsx:39 | cards are 180 px apart per position, and none starts above 60 px |
| Schedule.ScheduleHeight | pages/schedule.tsx:65 | 400 px for no entries, otherwise 180 px per entry plus 120 px |
| Schedule.HeightHoldsEveryCard | pages/schedule.tsx:65 | every card's 180-px band ends inside the timeline |
| Schedule.StartIndex | pages/schedule.tsx:67 | the first mounted row starts at or above the viewport, and it is row 0 or a whole buffer above the top row |
| Schedule.CeilRows | pages/schedule.tsx:70 | the least number of rows that covers the given pixels |
| Schedule.EndIndex | pages/schedule.tsx:68-71 | the window never passes the list, and short of its end it reaches a whole buffer below the viewport |
| Schedule.Slice | pages/schedule.tsx:72 | `slice` clamps the end to the length, gives nothing for an empty range, and otherwise the elements in place |
| Schedule.VisibleCoversViewport | pages/schedule.tsx:67-72 | every row that meets the viewport is mounted, at its own index |
| Schedule.Items | pages/schedule.tsx:166-172 | the k-th mounted card is entry `startIndex + k`, drawn at that position, on the left exactly for even positions |
| Schedule.PlacementIgnoresScroll | pages/schedule.tsx:166-172 | wherever the window is, a row is drawn at the same position and on the same side |
| Schedule.SearchArgsFor | entities/TimelineEntry.ts:22-34 | the named arguments carry the query and the timetable, and nothing else |
| Schedule.PositionalSearchArgs | pages/schedule.tsx:49 | called positionally, `search` sees neither a query nor a timetable |
| Schedule.SearchRequest | pages/schedule.tsx:57-63 | the corrected page, with `search({ query, timetableId })` (Findings row for pages/schedule.tsx:49): a request is sent exactly when a timetable is selected: the plain list for a blank query, otherwise a search for the trimmed text in that timetable |
| Schedule.SearchRequestAsWritten | pages/schedule.tsx:45-63 | as written, a request is sent exactly when a timetable is selected |
| Schedule.PositionalSearchLosesArguments | pages/schedule.tsx:49 | the positional call sends no `q` and `timetableId=undefined`, where the named call sends the trimmed text |
| Schedule.Settled | pages/schedule.tsx:36-42 | loading ends; a reply replaces the list; a failure keeps the old one |
| Schedule.HandleSearch | pages/schedule.tsx:57-63 | the corrected page: sends the named-argument search request; with no timetable nothing is sent and the page is untouched |
| Schedule.HandleSearchAsWritten | pages/schedule.tsx:45-63 | the page as written: sends the positional search request; with no timetable nothing is sent and the page is untouched |
| Schedule.AsWrittenDiffersOnlyInSearch | pages/schedule.tsx:49 | the page as written and the corrected one act alike on a blank search, and send different requests for a non-blank one in a selected timetable |
| Schedule.SelectTimetable | pages/schedule.tsx:20-31 | a timetable loads its list; none empties the list; loading ends either way |
| Schedule.BlankSearchIsReload | pages/schedule.tsx:58-59 | a blank search sends and settles exactly what reselecting the timetable does |
| Admin.Recent | pages/admin.tsx:20 | at most five entries, newest first, drawn from the loaded list, and none left out is newer than one kept |
| Admin.KeptPrefix | pages/admin.tsx:20 | cutting a newest-first ordering of the loaded entries keeps some of them, newest first |
| Admin.KeptAndOmitted | pages/admin.tsx:20 | what that cut keeps is at least as new as every entry it drops |
| Admin.RecentIsTopFive | pages/admin.tsx:20 | a loaded entry left off the list is no newer than any entry on it |
| Admin.LoadRecent | pages/admin.tsx:17-25 | a reply replaces the list with its five newest; a failure leaves the list alone |
| Admin.SubmittedData | pages/admin.tsx:30 | `create` receives the form's four fields, with no timetable and no tags |
| Admin.HandleSubmit | pages/admin.tsx:27-38 | creates; on success reloads the list and shows the note; on failure neither; loading ends either way |
| Admin.RecentListNamesNoTimetable | pages/admin.tsx:19 | the admin list is sent with `timetableId=undefined` |
| ImportEntries.HandleImport | components/admin/ImportEntries.tsx:18-38 | with no file nothing happens; otherwise loading ends, and `onImported` runs and the file is cleared exactly when the document parses, its `entries` is an array, a timetable id resolves and `bulkCreate` succeeds; on every other path the file is kept |
| ImportEntries.NotAnArrayMakesNoCall | components/admin/ImportEntries.tsx:24 | a document whose `entries` is not an array fails before any call |
| ImportEntries.ExplicitIdWins | components/admin/ImportEntries.tsx:25-31 | a truthy `timetableId` sends the rows, unchanged, to that id and creates no timetable |
| ImportEntries.NameUsedOnlyWithoutId | components/admin/ImportEntries.tsx:26-28 | a timetable is created only without an id, under the document's name, and the rows then go to the new id |
| ImportEntries.NeitherIdNorNameFails | components/admin/ImportEntries.tsx:30 | with neither an id nor a name the import fails and nothing is sent |
| ImportEntries.BulkForwardsRows | components/admin/ImportEntries.tsx:31 | the bulk call is the last one, made once, with the document's rows and a truthy id |
| TimetableManager.Load | components/admin/TimetableManager.tsx:20-24 | a reply replaces the list, and the first timetable is selected exactly when nothing was selected and the list is non-empty |
| TimetableManager.Mount | components/admin/TimetableManager.tsx:16-18 | on mount the list is requested once and loaded with the current selection |
| TimetableManager.HandleCreate | components/admin/TimetableManager.tsx:26-32 | a blank name does nothing; otherwise the trimmed name is created, the input is cleared, the list reloads and the new timetable is selected |
| TimetableManager.HandleDelete | components/admin/TimetableManager.tsx:34-40 | deletes, then reloads; the selection is cleared exactly when the deleted id was the selected one; any other selection stays |
| TimetableManager.DeleteAllKeepsSelection | components/admin/TimetableManager.tsx:62 | Delete All targets the whole collection and leaves a set selection in place |
| TimetableManager.DeleteButtonTargetsSelection | components/admin/TimetableManager.tsx:61 | when the Delete button is enabled, it deletes exactly the selected timetable and never the collection |
| I18n.FindKey | src/i18n.ts:187 | the first position of the key among an object's keys, and None exactly when the key is absent |
| I18n.Child | src/i18n.ts:187 | `result?.[p]` is found exactly for an object having that key |
| I18n.WalkFromNothing | src/i18n.ts:186-188 | once the loop reaches `undefined` it stays `undefined` |
| I18n.WalkIsLookup | src/i18n.ts:185-188 | the loop finds exactly the node the path names |
| I18n.TranslateIn | src/i18n.ts:183-190 | `t(key)` is the node the dotted key names, or the key itself when none is found |
| I18n.TranslatePath | src/i18n.ts:184-189 | a key of dot-free segments descends one level per segment, with the key as fallback |
| I18n.InnerKeyGivesSubtree | src/i18n.ts:189 | `??` does not fall back for a key that names a sub-table |
| I18n.TranslateWithoutLanguage | src/i18n.ts:182 | with no language in the settings, every key comes back unchanged |
| I18n.SameKidsEach | src/i18n.ts:9-176 | matching children agree in key and shape one by one |
| I18n.FindKeyByKeys | src/i18n.ts:187 | where a key is found depends only on the keys |
| I18n.SameShapeSamePaths | src/i18n.ts:9-176 | tables of the same shape name the same paths, with strings at the same paths |
| I18n.SettingsSameShape | src/i18n.ts:94-103 | the French `settings` group has the keys of the English one (lines 10-19) |
| I18n.ScheduleSameShape | src/i18n.ts:104-117 | the French `schedule` group has the keys of the English one (lines 20-33) |
| I18n.AdminSameShape | src/i18n.ts:118-127 | the French `admin` group has the keys of the English one (lines 34-43) |
| I18n.EntryFormSameShape | src/i18n.ts:128-148 | the French `entryForm` group has the keys of the English one (lines 44-64) |
| I18n.ImportEntriesSameShape | src/i18n.ts:149-153 | the French `importEntries` group has the keys of the English one (lines 65-69) |
| I18n.TimetableManagerSameShape | src/i18n.ts:154-165 | the French `timetableManager` group has the keys of the English one (lines 70-81) |
| I18n.CalendarEditorSameShape | src/i18n.ts:166-169 | the French `calendarEditor` group has the keys of the English one (lines 82-85) |
| I18n.NavSameShape | src/i18n.ts:170-175 | the French `nav` group has the keys of the English one (lines 86-91) |
| I18n.TablesSameShape | src/i18n.ts:9-176 | the English and French tables have the same keys in the same order at every level |
| I18n.LanguagesShareKeys | src/i18n.ts:183-190 | a key names a string in English exactly when it names one in French |
| I18n.SettingsTitle | src/i18n.ts:11 | `settings.title` is "Settings" in English and "Paramètres" in French |
| I18n.LookupSettingsTitle | src/i18n.ts:95 | the two-step descent to `settings.title` finds the title string |
| I18n.LocaleOf | src/i18n.ts:179 | English uses the enUS locale and French the French one |

## Left out

- Network, JSON, `localStorage` and the file picker are not modelled. Replies, parsed documents and stored values are parameters, and a step returns the requests it sends.
- JWT signing and verification, bcrypt and the user table are not modelled. They are oracle parameters, and token expiry is not modelled.
- CORS, `app.listen`, Express's 404 page body and the process environment (`JWT_SECRET`, `PORT`) are not modelled.
- React rendering, animations, the `position * 0.1` animation delay, the success note's three-second timer, and the DOM's `dark` class are not modelled.
- The scroll listener and the container height measurement are left out. The schedule's scroll offset and height are whole-pixel parameters.
- Time zones are not modelled: every date is read as UTC, and seconds and milliseconds are dropped.
- `new Date` and `parseISO` fallback formats are left out. Only the shapes the application writes are read.
- Dates.Parse: accepts only the ISO-like shapes the forms produce. Other strings a browser would accept count as unreadable.
- EntryCard.FormatEntryDate: `parseISO` is modelled by the same reader as `new Date`, on the shapes the application writes.
- Common.NumberOfString: `Number(...)` is modelled on decimal integers only. Whitespace, hexadecimal, exponents, fractions and "Infinity" are not covered.
- JSON values of the wrong type are not modelled. Examples: a `timetableId` that is a string, or a bulk row whose fields are not strings.
- ImportEntries.HandleImport: an imported row always has string title, description and date fields, possibly empty, and a known precision. A JSON row missing a field outright is not modelled on the client side. The server's skip of incomplete rows is modelled on its own (`Server.CompleteRows`).
- What Express or Node does after a handler's promise rejects is not modelled: Express 4 leaves the rejection unhandled, and Express 5 answers with its default 500 page.
- Prisma's order is not fully pinned. `findMany` without `orderBy` is modelled as storage order, and ties under `orderBy: { date: 'asc' }` as insertion order (`Sorting.SortByStable`), which the database does not promise.
- I18n.Child: a string leaf is modelled as having no properties. In JavaScript, `'abc'.length` or `'abc'[0]` would be found.
- I18n.Child: inherited object properties such as `constructor` are not modelled either.
- The parent's `value`/`onChange` pair is modelled as the manager's `selected` field.
- The entry form's `handleChange` and input bindings are not modelled. The form state is a parameter.
- Other pages and components are not part of this model: the timeline page, layout, login, signup, settings page and calendar editor.
- The older `Components/` copies of the entry form and the timeline card are not part of this model. The routed pages import the lower-case `components/` files.
- Prisma's `contains` is modelled as a plain, case-sensitive substring test. Its case handling depends on the database provider.
- The Prisma schema is not part of this model. The store assumes the following about it.
- `TimelineEntry.description` is nullable. A create without a description stores `None`, a create with an empty one stores `""`, and a bulk row stores `description || ''`.
- `TimelineEntry.timetableId` is a foreign key to `Timetable.id`: a create or bulk create naming an unknown timetable fails in Prisma, which `Server.CreateEntryReply` and `Server.InsertRows` model as `Rejected`.
- Both ids autoincrement and are never reused: they come from `nextTimetableId` and `nextEntryId`.
- `TimelineEntry.createdAt` defaults to the moment of the insert, which is the `now` parameter.
- Prisma throws on a NaN filter value, which `Server.ListEntriesReply`, `Server.SearchEntriesReply`, `Server.DeleteTimetableReply` and `Server.DeleteEntryReply` model as `Rejected`.
- Wire.EntryRoute: Express also matches a path that differs in letter case or ends in a slash; the model matches only the exact path, which is the one the entities send.
- Server.QueryText: a repeated query parameter is not modelled. Express parses one into an array; the model reads the first value. The same holds for `Server.QueryTimetable`. The client never repeats a parameter.

## Findings

| source | as written | input that shows it | evidently intended | confidence | as-written member | corrected member |
|---|---|---|---|---|---|---|
| pages/schedule.tsx:49 | `TimelineEntry.search(query, timetableId)` passes two positional values to a method that destructures one object, so the query is dropped and the timetable is `undefined`; the server reads `timetableId` as NaN and never answers (`Wire.PositionalSearchRejected`) | any non-blank search with a timetable selected, e.g. "meeting" in timetable 1 | `search({ query, timetableId })`, answered with the timetable's entries containing the text (`Wire.CorrectedSearchAnswers`) | high, not executed | Schedule.SearchRequestAsWritten | Schedule.SearchRequest |
| entities/TimelineEntry.ts:17 | no entry method sends an Authorization header, while the server refuses every `/api` path but `/login` without one (`Wire.EntryCallsUnauthorized`) | `TimelineEntry.list(1)` with a valid token stored | attach the stored bearer token as `Timetable` does, so the request reaches its handler (`Wire.AuthorizedEntryCallsPass`) | high, not executed | Wire.EntryCallsUnauthorized | Wire.WithAuth |
| src/i18n.ts:182 | `t` reads `language` from `useSettings()`, whose context holds only `darkMode` and `timeFormat`, so every lookup starts from `undefined` and returns the key | `t('settings.title')` returns "settings.title" | the key's string in the chosen language, e.g. "Settings" (`I18n.SettingsTitle`) | medium (`src/SettingsContext.tsx` declares no `language`; a type check would flag it), not executed | I18n.TranslateWithoutLanguage | I18n.TranslateIn |

=== FILE: admin.dfy ===
/** The admin page: the five most recently created entries it lists, and what
    a submit of the entry form does. Replies to its requests are passed in. */
module Admin {
  import opened Common
  import Sorting
  import EntryApi
  import EntryForm
  import Http

  /** How many recent entries the page shows. */
  const RecentCount: nat := 5

  /** The sort key of `(a, b) => b.createdAt - a.createdAt`: newest first. */
  function NewestFirst(e: EntryApi.EntryRecord): int {
    -e.createdAt
  }

  /** `sort(...).slice(0, 5)`. */
  function Recent(data: seq<EntryApi.EntryRecord>): (r: seq<EntryApi.EntryRecord>)
    ensures |r| == if |data| < RecentCount then |data| else RecentCount
    ensures forall i, j :: 0 <= i < j < |r| ==> r[i].createdAt >= r[j].createdAt
    ensures multiset(r) <= multiset(data)
    ensures forall x, y :: x in multiset(data) - multiset(r) && y in r ==> x.createdAt <= y.createdAt
  {
    var sorted := Sorting.SortBy(data, NewestFirst);
    var k := if |data| < RecentCount then |data| else RecentCount;
    KeptPrefix(data, sorted, k);
    KeptAndOmitted(sorted, k);
    sorted[..k]
  }

  /** Cutting a newest-first ordering of `data` after `k` keeps a newest-first
      selection of `data`'s entries. */
  lemma KeptPrefix(data: seq<EntryApi.EntryRecord>, sorted: seq<EntryApi.EntryRecord>, k: nat)
    requires multiset(sorted) == multiset(data) && k <= |data|
    requires Sorting.SortedBy(sorted, NewestFirst)
    ensures |sorted| == |data|
    ensures forall i, j :: 0 <= i < j < |sorted[..k]| ==> sorted[..k][i].createdAt >= sorted[..k][j].createdAt
    ensures multiset(sorted[..k]) <= multiset(data)
  {
    assert |sorted| == |data| by {
      assert |multiset(sorted)| == |multiset(data)|;
    }
    assert sorted == sorted[..k] + sorted[k..];
    forall i, j | 0 <= i < j < |sorted[..k]|
      ensures sorted[..k][i].createdAt >= sorted[..k][j].createdAt
    {
      assert NewestFirst(sorted[i]) <= NewestFirst(sorted[j]);
    }
  }

  /** What that cut keeps is at least as new as every entry it drops. */
  lemma KeptAndOmitted(sorted: seq<EntryApi.EntryRecord>, k: nat)
    requires k <= |sorted| && Sorting.SortedBy(sorted, NewestFirst)
    ensures multiset(sorted) - multiset(sorted[..k]) == multiset(sorted[k..])
    ensures forall x, y :: x in sorted[k..] && y in sorted[..k] ==> x.createdAt <= y.createdAt
  {
    assert sorted == sorted[..k] + sorted[k..];
    forall x, y | x in sorted[k..] && y in sorted[..k]
      ensures x.createdAt <= y.createdAt
    {
      var i :| 0 <= i < k && sorted[..k][i] == y;
      var j :| 0 <= j < |sorted| - k && sorted[k..][j] == x;
      assert NewestFirst(sorted[i]) <= NewestFirst(sorted[k + j]);
    }
  }

  /** A loaded entry left off the list is no newer than any entry on it. */
  lemma RecentIsTopFive(data: seq<EntryApi.EntryRecord>, x: EntryApi.EntryRecord)
    requires x in data && x !in Recent(data)
    ensures forall y :: y in Recent(data) ==> x.createdAt <= y.createdAt
  {
    var r := Recent(data);
    assert x in multiset(data) - multiset(r) by {
      assert multiset(r)[x] == 0;
    }
  }

  // ---------------------------------------------------------------------------
  // Submitting the entry form

  datatype Page = Page(isLoading: bool, recent: seq<EntryApi.EntryRecord>, showSuccess: bool)

  /** `loadRecentEntries`: a failed load is logged and leaves the list alone. */
  function LoadRecent(p: Page, listed: Result<seq<EntryApi.EntryRecord>>): (p': Page)
    ensures listed.Ok? ==> p' == p.(recent := Recent(listed.value))
    ensures listed.Failed? ==> p' == p
  {
    match listed
    case Ok(rows) => p.(recent := Recent(rows))
    case Failed(_) => p
  }

  /** The record the entry form hands over, as `create` receives it: the four
      form fields, no timetable and no tags. */
  function SubmittedData(f: EntryForm.FormData): (d: EntryApi.EntryData)
    ensures d.title == f.title && d.description == f.description && d.date == f.date && d.precision == f.precision
    ensures d.timetableId.None? && d.tags.None?
  {
    EntryApi.EntryData(f.title, f.description, f.date, f.precision, None, None)
  }

  /** What a submit does: the requests sent, in order, and the page after. */
  datatype Submit = Submit(requests: seq<EntryApi.Request>, page: Page)

  /** `handleSubmit(formData)`: create; on success reload the recent list and
      show the success note; on failure neither. Loading ends either way.
      The note's timed hide is not modelled. */
  function HandleSubmit(p: Page, f: EntryForm.FormData, created: Result<EntryApi.EntryRecord>,
                        listed: Result<seq<EntryApi.EntryRecord>>): (s: Submit)
    ensures !s.page.isLoading
    ensures |s.requests| >= 1 && s.requests[0] == EntryApi.Create(SubmittedData(f))
    ensures created.Ok? ==>
              && s.requests == [EntryApi.Create(SubmittedData(f)), EntryApi.List(None)]
              && s.page.showSuccess
              && s.page.recent == LoadRecent(p, listed).recent
    ensures created.Failed? ==>
              && s.requests == [EntryApi.Create(SubmittedData(f))]
              && s.page == p.(isLoading := false)
  {
    var create := EntryApi.Create(SubmittedData(f));
    match created
    case Failed(_) => Submit([create], p.(isLoading := false))
    case Ok(_) =>
      var loaded := LoadRecent(p.(isLoading := true), listed);
      Submit([create, EntryApi.List(None)], loaded.(showSuccess := true, isLoading := false))
  }

  /** The admin page lists entries with no timetable: the request carries
      `timetableId=undefined`. */
  lemma RecentListNamesNoTimetable()
    ensures Http.ParamGet(EntryApi.List(None).url.query, "timetableId") == Some("undefined")
  {
  }
}

=== FILE: common.dfy ===
/** Helpers shared by every module: an optional value, JavaScript truthiness
    of optional fields, and the string operations the application relies on
    (substring test, `trim`, `split`/`join` on one character, decimal digits
    and `Number(...)`). */
module Common {

  /** `undefined`/`null` versus a present value. */
  datatype Option<+T> = None | Some(value: T) {
    /** `x || fallback` for a present value that is not itself falsy. */
    function GetOr(fallback: T): T {
      match this
      case Some(v) => v
      case None => fallback
    }
  }

  /** A settled call: its value, or the message of the `Error` it threw. */
  datatype Result<T> = Ok(value: T) | Failed(message: string)

  /** JavaScript truthiness of an optional string: `undefined`, `null` and `''` are falsy. */
  predicate Truthy(o: Option<string>) {
    o.Some? && o.value != ""
  }

  /** JavaScript truthiness of an optional number: `undefined`, `null` and `0` are falsy. */
  predicate NumTruthy(o: Option<int>) {
    o.Some? && o.value != 0
  }

  // ---------------------------------------------------------------------------
  // Substrings

  /** `sub` occurs in `s` starting at index `i`. */
  predicate OccursAt(s: string, sub: string, i: int) {
    0 <= i <= |s| - |sub| && s[i..i + |sub|] == sub
  }

  /** `s.includes(sub)`, and the plain-substring reading of Prisma's `contains`. */
  predicate Contains(s: string, sub: string) {
    exists i :: 0 <= i <= |s| && OccursAt(s, sub, i)
  }

  /** Every string contains the empty string. */
  lemma ContainsEmpty(s: string)
    ensures Contains(s, "")
  {
    assert OccursAt(s, "", 0);
  }

  // ---------------------------------------------------------------------------
  // trim()

  /** The characters `String.prototype.trim` removes: ECMAScript WhiteSpace and LineTerminator. */
  predicate IsSpace(c: char) {
    || c == ' ' || c == '\t' || c == '\n' || c == '\r' || c == '\U{000B}' || c == '\U{000C}'
    || c == '\U{00A0}' || c == '\U{FEFF}' || c == '\U{1680}' || ('\U{2000}' <= c <= '\U{200A}')
    || c == '\U{2028}' || c == '\U{2029}' || c == '\U{202F}' || c == '\U{205F}' || c == '\U{3000}'
  }

  predicate AllSpace(s: string) {
    forall i :: 0 <= i < |s| ==> IsSpace(s[i])
  }

  /** How many white-space characters `s` starts with. */
  function LeadingSpaces(s: string): (k: nat)
    ensures k <= |s| && AllSpace(s[..k])
    ensures k == |s| || !IsSpace(s[k])
  {
    if |s| > 0 && IsSpace(s[0]) then
      var k := LeadingSpaces(s[1..]);
      assert s[..k + 1] == [s[0]] + s[1..][..k];
      k + 1
    else
      0
  }

  /** `s.trimStart()`: a suffix of `s`, what was dropped being white space. */
  function TrimStart(s: string): (r: string)
    ensures |r| <= |s| && r == s[|s| - |r|..] && AllSpace(s[..|s| - |r|])
    ensures r == [] || !IsSpace(r[0])
  {
    s[LeadingSpaces(s)..]
  }

  /** `s.trimEnd()`: a prefix of `s`, what was dropped being white space. */
  function TrimEnd(s: string): (r: string)
    ensures |r| <= |s| && r == s[..|r|] && AllSpace(s[|r|..])
    ensures r == [] || !IsSpace(r[|r| - 1])
  {
    if |s| > 0 && IsSpace(s[|s| - 1]) then
      var r := TrimEnd(s[..|s| - 1]);
      assert s[..|s| - 1][..|r|] == s[..|r|];
      assert s[|r|..] == s[..|s| - 1][|r|..] + [s[|s| - 1]];
      r
    else
      s
  }

  /** `r` is the infix of `s` at `i` with only white space around it. */
  predicate TrimmedAt(s: string, r: string, i: int) {
    0 <= i <= |s| - |r| && r == s[i..i + |r|] && AllSpace(s[..i]) && AllSpace(s[i + |r|..])
  }

  /** `s.trim()`: the infix of `s` that neither starts nor ends with white space. */
  function Trim(s: string): (r: string)
    ensures exists i :: TrimmedAt(s, r, i)
    ensures r == [] || (!IsSpace(r[0]) && !IsSpace(r[|r| - 1]))
  {
    var a := TrimStart(s);
    var r := TrimEnd(a);
    var i := |s| - |a|;
    assert r == s[i..i + |r|];
    assert s[i + |r|..] == a[|r|..];
    assert TrimmedAt(s, r, i);
    r
  }

  /** A trimmed string is empty exactly when the input was all white space. */
  lemma TrimEmptyIffAllSpace(s: string)
    ensures Trim(s) == "" <==> AllSpace(s)
  {
    var i :| TrimmedAt(s, Trim(s), i);
    var j := i + |Trim(s)|;
    if Trim(s) == "" {
      forall k | 0 <= k < |s|
        ensures IsSpace(s[k])
      {
        if k < i {
          assert s[k] == s[..i][k];
        } else {
          assert s[k] == s[j..][k - j];
        }
      }
    } else {
      assert Trim(s)[0] == s[i];
    }
  }

  // ---------------------------------------------------------------------------
  // split / join on one separator character

  /** `s.split(sep)` for a one-character separator: the maximal pieces between separators. */
  function Split(s: string, sep: char): (parts: seq<string>)
    ensures |parts| >= 1
    ensures forall i :: 0 <= i < |parts| ==> sep !in parts[i]
  {
    if |s| == 0 then [""]
    else
      var rest := Split(s[1..], sep);
      if s[0] == sep then [""] + rest
      else [[s[0]] + rest[0]] + rest[1..]
  }

  /** `parts.join(sep)`. */
  function Join(parts: seq<string>, sep: char): string
    requires |parts| >= 1
  {
    if |parts| == 1 then parts[0] else parts[0] + [sep] + Join(parts[1..], sep)
  }

  /** Splitting and re-joining gives back the original string. */
  lemma {:induction false} JoinSplit(s: string, sep: char)
    ensures Join(Split(s, sep), sep) == s
  {
    if |s| > 0 {
      var rest := Split(s[1..], sep);
      JoinSplit(s[1..], sep);
      if s[0] != sep {
        if |rest| == 1 {
          assert Join(Split(s, sep), sep) == [s[0]] + rest[0];
        } else {
          assert Join(rest, sep) == rest[0] + [sep] + Join(rest[1..], sep);
          assert Split(s, sep)[1..] == rest[1..];
        }
        assert s == [s[0]] + s[1..];
      } else {
        assert Split(s, sep)[1..] == rest;
        assert s == [s[0]] + s[1..];
      }
    }
  }

  /** Joining pieces that hold no separator and splitting again gives back the pieces. */
  lemma {:induction false} SplitJoin(parts: seq<string>, sep: char)
    requires |parts| >= 1
    requires forall i :: 0 <= i < |parts| ==> sep !in parts[i]
    ensures Split(Join(parts, sep), sep) == parts
    decreases |parts|, |parts[0]|
  {
    var p := parts[0];
    if |p| == 0 {
      if |parts| > 1 {
        var tail := Join(parts[1..], sep);
        assert Join(parts, sep) == [sep] + tail;
        assert ([sep] + tail)[1..] == tail;
        SplitJoin(parts[1..], sep);
        assert parts == [""] + parts[1..];
      }
    } else {
      var shorter := [p[1..]] + parts[1..];
      assert sep !in p[1..] by {
        assert forall c :: c in p[1..] ==> c in p;
      }
      assert forall i :: 0 <= i < |shorter| ==> sep !in shorter[i] by {
        forall i | 0 <= i < |shorter|
          ensures sep !in shorter[i]
        {
          if i > 0 {
            assert shorter[i] == parts[i];
          }
        }
      }
      SplitJoin(shorter, sep);
      assert shorter[1..] == parts[1..];
      assert Join(parts, sep) == [p[0]] + Join(shorter, sep);
      assert ([p[0]] + Join(shorter, sep))[1..] == Join(shorter, sep);
      assert p[0] != sep by {
        assert p[0] in p;
      }
      assert p == [p[0]] + p[1..];
    }
  }

  // ---------------------------------------------------------------------------
  // Decimal digits and Number(...)

  predicate IsDigit(c: char) {
    '0' <= c <= '9'
  }

  predicate AllDigits(s: string) {
    forall i :: 0 <= i < |s| ==> IsDigit(s[i])
  }

  function DigitChar(d: nat): (c: char)
    requires d < 10
    ensures IsDigit(c) && c as int - '0' as int == d
  {
    (('0' as int) + d) as char
  }

  /** The number a string of decimal digits denotes. */
  function DigitsValue(s: string): nat
    requires AllDigits(s)
  {
    if |s| == 0 then 0 else DigitsValue(s[..|s| - 1]) * 10 + (s[|s| - 1] as int - '0' as int)
  }

  function Pow10(w: nat): nat {
    if w == 0 then 1 else 10 * Pow10(w - 1)
  }

  lemma Pow10Values()
    ensures Pow10(1) == 10 && Pow10(2) == 100 && Pow10(3) == 1000 && Pow10(4) == 10000
  {
  }

  /** `w` digits denote a number below `10^w`. */
  lemma {:induction false} DigitsValueBound(s: string)
    requires AllDigits(s)
    ensures DigitsValue(s) < Pow10(|s|)
  {
    if |s| > 0 {
      DigitsValueBound(s[..|s| - 1]);
    }
  }

  /** `n` written in exactly `w` digits, zero-padded on the left (the low `w` digits of `n`). */
  function FixedDigits(n: nat, w: nat): (r: string)
    ensures |r| == w && AllDigits(r)
  {
    if w == 0 then "" else FixedDigits(n / 10, w - 1) + [DigitChar(n % 10)]
  }

  /** Reading back a zero-padded field gives the number when it fits in `w` digits. */
  lemma {:induction false} FixedDigitsValue(n: nat, w: nat)
    requires n < Pow10(w)
    ensures DigitsValue(FixedDigits(n, w)) == n
  {
    if w > 0 {
      var r := FixedDigits(n, w);
      assert r[..|r| - 1] == FixedDigits(n / 10, w - 1);
      FixedDigitsValue(n / 10, w - 1);
    }
  }

  /** `String(n)` for a natural number: decimal digits with no leading zero. */
  function NatToString(n: nat): (r: string)
    ensures |r| >= 1 && AllDigits(r)
    ensures |r| > 1 ==> r[0] != '0'
  {
    if n < 10 then [DigitChar(n)] else NatToString(n / 10) + [DigitChar(n % 10)]
  }

  lemma {:induction false} NatToStringValue(n: nat)
    ensures DigitsValue(NatToString(n)) == n
  {
    if n >= 10 {
      var r := NatToString(n);
      assert r[..|r| - 1] == NatToString(n / 10);
      NatToStringValue(n / 10);
    }
  }

  /** `String(i)` for an integer. */
  function IntToString(i: int): (r: string)
    ensures |r| >= 1
  {
    if i < 0 then "-" + NatToString(-i) else NatToString(i)
  }

  /** JavaScript `Number(s)` on the strings this application produces: an optional
      minus sign before decimal digits, and `''` (which is 0). Every other string,
      and `undefined`, is NaN, written `None`. */
  function ToNumber(s: string): Option<int> {
    if s == "" then Some(0)
    else if s[0] == '-' && |s| > 1 && AllDigits(s[1..]) then Some(0 - DigitsValue(s[1..]))
    else if AllDigits(s) then Some(DigitsValue(s))
    else None
  }

  /** `Number(undefined)` is NaN; a present string is converted by `ToNumber`. */
  function OptToNumber(o: Option<string>): Option<int> {
    if o.None? then None else ToNumber(o.value)
  }

  /** `Number(String(i)) === i`: a number sent as text comes back unchanged. */
  lemma NumberOfString(i: int)
    ensures ToNumber(IntToString(i)) == Some(i)
  {
    if i < 0 {
      var d := NatToString(-i);
      assert IntToString(i)[1..] == d;
      NatToStringValue(-i);
    } else {
      NatToStringValue(i);
      assert IntToString(i)[0] != '-' by {
        assert IsDigit(IntToString(i)[0]);
      }
    }
  }
}

=== FILE: dates.dfy ===
/** Dates as the application handles them: a precision tag, a calendar
    date-time `(year, month, day, hour, minute)`, the JavaScript `Date`
    parse as a partial function on the string shapes the application
    produces, and `toISOString` as its inverse. Time zones are not modelled:
    every shape is read as UTC. */
module Dates {
  import opened Common

  /** `TimelineEntryType.precision`: 'year' | 'month' | 'day' | 'hour' | 'minute'. */
  datatype Precision = Year | Month | Day | Hour | Minute

  function PrecisionName(p: Precision): string {
    match p
    case Year => "year"
    case Month => "month"
    case Day => "day"
    case Hour => "hour"
    case Minute => "minute"
  }

  /** Reads a precision string; anything but the five names is not a precision. */
  function ParsePrecision(s: string): (r: Option<Precision>)
    ensures r.Some? ==> PrecisionName(r.value) == s
  {
    if s == "year" then Some(Year)
    else if s == "month" then Some(Month)
    else if s == "day" then Some(Day)
    else if s == "hour" then Some(Hour)
    else if s == "minute" then Some(Minute)
    else None
  }

  /** Every precision survives being written as its name and read back,
      so the five names are exactly the precision domain. */
  lemma PrecisionRoundTrip(p: Precision, s: string)
    ensures ParsePrecision(PrecisionName(p)) == Some(p)
    ensures ParsePrecision(s).Some? <==> s in {"year", "month", "day", "hour", "minute"}
  {
  }

  // ---------------------------------------------------------------------------
  // Calendar date-times

  datatype DateTime = DateTime(year: int, month: int, day: int, hour: int, minute: int)

  predicate IsLeap(y: int) {
    y % 4 == 0 && (y % 100 != 0 || y % 400 == 0)
  }

  function DaysInMonth(y: int, m: int): int
    requires 1 <= m <= 12
  {
    if m == 2 then (if IsLeap(y) then 29 else 28)
    else if m == 4 || m == 6 || m == 9 || m == 11 then 30
    else 31
  }

  /** A real calendar instant with a four-digit year. */
  predicate Valid(dt: DateTime) {
    && 0 <= dt.year <= 9999
    && 1 <= dt.month <= 12
    && 1 <= dt.day <= DaysInMonth(dt.year, dt.month)
    && 0 <= dt.hour < 24
    && 0 <= dt.minute < 60
  }

  /** Lexicographic order of the five fields: `a` is not later than `b`. */
  predicate NotLater(a: DateTime, b: DateTime) {
    || a.year < b.year
    || (a.year == b.year && a.month < b.month)
    || (a.year == b.year && a.month == b.month && a.day < b.day)
    || (a.year == b.year && a.month == b.month && a.day == b.day && a.hour < b.hour)
    || (a.year == b.year && a.month == b.month && a.day == b.day && a.hour == b.hour && a.minute <= b.minute)
  }

  /** Minutes from 0000-01-01 00:00 on a calendar of 31-day months: an integer
      key that orders valid instants as time does. */
  function Rank(dt: DateTime): int {
    (((dt.year * 12 + (dt.month - 1)) * 31 + (dt.day - 1)) * 24 + dt.hour) * 60 + dt.minute
  }

  /** Ordering by `Rank` is chronological ordering, so sorting by it is `orderBy: { date: 'asc' }`. */
  lemma RankIsChronological(a: DateTime, b: DateTime)
    requires Valid(a) && Valid(b)
    ensures Rank(a) <= Rank(b) <==> NotLater(a, b)
    ensures Rank(a) == Rank(b) <==> a == b
  {
  }

  // ---------------------------------------------------------------------------
  // Parsing: `new Date(s)` / `parseISO(s)` on the shapes the application builds

  predicate DigitsAt(s: string, i: int, w: int) {
    0 <= i && 0 <= w && i + w <= |s| && AllDigits(s[i..i + w])
  }

  function NumAt(s: string, i: int, w: int): nat
    requires DigitsAt(s, i, w)
  {
    DigitsValue(s[i..i + w])
  }

  /** "YYYY-MM-DD" at the start of `s`. */
  predicate DateShape(s: string) {
    |s| >= 10 && DigitsAt(s, 0, 4) && s[4] == '-' && DigitsAt(s, 5, 2) && s[7] == '-' && DigitsAt(s, 8, 2)
  }

  /** "YYYY-MM-DDTHH:MM" at the start of `s` (what a datetime-local input yields). */
  predicate MinuteShape(s: string) {
    |s| >= 16 && DateShape(s) && s[10] == 'T' && DigitsAt(s, 11, 2) && s[13] == ':' && DigitsAt(s, 14, 2)
  }

  /** "YYYY-MM-DDTHH:MM:SS.sssZ", the `toISOString` shape; seconds are dropped. */
  predicate IsoShape(s: string) {
    |s| == 24 && MinuteShape(s) && s[16] == ':' && DigitsAt(s, 17, 2) && NumAt(s, 17, 2) < 60
    && s[19] == '.' && DigitsAt(s, 20, 3) && s[23] == 'Z'
  }

  /** The date-time a string denotes, by its shape; before validation. */
  function Shaped(s: string): Option<DateTime> {
    if |s| == 4 && DigitsAt(s, 0, 4) then
      Some(DateTime(NumAt(s, 0, 4), 1, 1, 0, 0))
    else if |s| == 7 && DigitsAt(s, 0, 4) && s[4] == '-' && DigitsAt(s, 5, 2) then
      Some(DateTime(NumAt(s, 0, 4), NumAt(s, 5, 2), 1, 0, 0))
    else if |s| == 10 && DateShape(s) then
      Some(DateTime(NumAt(s, 0, 4), NumAt(s, 5, 2), NumAt(s, 8, 2), 0, 0))
    else if (|s| == 16 && MinuteShape(s)) || IsoShape(s) then
      Some(DateTime(NumAt(s, 0, 4), NumAt(s, 5, 2), NumAt(s, 8, 2), NumAt(s, 11, 2), NumAt(s, 14, 2)))
    else None
  }

  /** `new Date(s)`, with `None` for "Invalid Date": the shaped reading when it
      names a real calendar instant. */
  function Parse(s: string): (r: Option<DateTime>)
    ensures r.Some? ==> Valid(r.value)
  {
    var c := Shaped(s);
    if c.Some? && Valid(c.value) then c else None
  }

  /** `date.toISOString()` for an instant whose seconds are zero. */
  function ToIso(dt: DateTime): string
    requires Valid(dt)
  {
    FixedDigits(dt.year, 4) + "-" + FixedDigits(dt.month, 2) + "-" + FixedDigits(dt.day, 2)
    + "T" + FixedDigits(dt.hour, 2) + ":" + FixedDigits(dt.minute, 2) + ":00.000Z"
  }

  lemma FieldsFit(dt: DateTime)
    requires Valid(dt)
    ensures dt.year < Pow10(4) && dt.month < Pow10(2) && dt.day < Pow10(2)
    ensures dt.hour < Pow10(2) && dt.minute < Pow10(2) && 0 < Pow10(3)
  {
    Pow10Values();
  }

  /** Where each field of `ToIso(dt)` sits. */
  lemma IsoLayout(dt: DateTime)
    requires Valid(dt)
    ensures var s := ToIso(dt);
      && |s| == 24
      && s[0..4] == FixedDigits(dt.year, 4) && s[4] == '-'
      && s[5..7] == FixedDigits(dt.month, 2) && s[7] == '-'
      && s[8..10] == FixedDigits(dt.day, 2) && s[10] == 'T'
      && s[11..13] == FixedDigits(dt.hour, 2) && s[13] == ':'
      && s[14..16] == FixedDigits(dt.minute, 2) && s[16] == ':'
      && s[17..19] == "00" && s[19] == '.' && s[20..23] == "000" && s[23] == 'Z'
  {
    var y, mo, d, h, mi := FixedDigits(dt.year, 4), FixedDigits(dt.month, 2), FixedDigits(dt.day, 2),
                           FixedDigits(dt.hour, 2), FixedDigits(dt.minute, 2);
    var tail := ":00.000Z";
    var t5 := mi + tail;
    var t4 := h + ":" + t5;
    var t3 := d + "T" + t4;
    var t2 := mo + "-" + t3;
    var s := y + "-" + t2;
    assert ToIso(dt) == s;
    assert s[0..4] == y && s[5..] == t2;
    assert t2[0..2] == mo && t2[3..] == t3;
    assert t3[0..2] == d && t3[3..] == t4;
    assert t4[0..2] == h && t4[3..] == t5;
    assert t5[0..2] == mi && t5[2..] == tail;
  }

  /** A well-shaped ISO string parses to the instant its fields spell. */
  lemma ParseIsoShape(s: string)
    requires IsoShape(s)
    requires Valid(DateTime(NumAt(s, 0, 4), NumAt(s, 5, 2), NumAt(s, 8, 2), NumAt(s, 11, 2), NumAt(s, 14, 2)))
    ensures Parse(s) == Some(DateTime(NumAt(s, 0, 4), NumAt(s, 5, 2), NumAt(s, 8, 2), NumAt(s, 11, 2), NumAt(s, 14, 2)))
  {
  }

  /** Parsing what `toISOString` printed gives back the same instant. */
  lemma ParseToIso(dt: DateTime)
    requires Valid(dt)
    ensures Parse(ToIso(dt)) == Some(dt)
  {
    var s := ToIso(dt);
    IsoLayout(dt);
    FieldsFit(dt);
    FixedDigitsValue(dt.year, 4);
    FixedDigitsValue(dt.month, 2);
    FixedDigitsValue(dt.day, 2);
    FixedDigitsValue(dt.hour, 2);
    FixedDigitsValue(dt.minute, 2);
    assert DigitsValue("00") == 0 by {
      assert "00"[..1] == "0";
    }
    assert IsoShape(s);
    ParseIsoShape(s);
  }

  /** A well-shaped "YYYY-MM-DD" string parses to midnight of the day it spells. */
  lemma ParseDateShape(s: string)
    requires |s| == 10 && DateShape(s)
    requires Valid(DateTime(NumAt(s, 0, 4), NumAt(s, 5, 2), NumAt(s, 8, 2), 0, 0))
    ensures Parse(s) == Some(DateTime(NumAt(s, 0, 4), NumAt(s, 5, 2), NumAt(s, 8, 2), 0, 0))
  {
  }

  lemma DigitsValueOne()
    ensures AllDigits("01") && DigitsValue("01") == 1
  {
    assert "01"[..1] == "0";
  }

  /** No string of another length than four, completed to `"<s>-01-01"`, has a
      shape `Parse` accepts. */
  lemma YearInputRejected(input: string)
    requires !(|input| == 4 && AllDigits(input))
    ensures Parse(input + "-01-01").None?
  {
    var s := input + "-01-01";
    assert s[|s| - 6..] == "-01-01";
    if |input| == 4 {
      var k :| 0 <= k < 4 && !IsDigit(input[k]);
      assert s[0..4] == input;
      assert !DigitsAt(s, 0, 4) by {
        assert s[0..4][k] == input[k];
      }
    } else if |s| == 7 {
      assert s[1] == '-';
      assert !DigitsAt(s, 0, 4) by {
        assert s[0..4][1] == '-';
      }
    } else if |s| == 16 {
      assert s[10] == '-';
    } else if |s| == 24 {
      assert s[23] == '1';
    }
  }

  lemma YearInputAccepted(input: string)
    requires |input| == 4 && AllDigits(input)
    ensures Parse(input + "-01-01") == Some(DateTime(DigitsValue(input), 1, 1, 0, 0))
  {
    var s := input + "-01-01";
    assert s[0..4] == input && s[4] == '-' && s[5..7] == "01" && s[7] == '-' && s[8..10] == "01";
    DigitsValueOne();
    DigitsValueBound(input);
    Pow10Values();
    ParseDateShape(s);
  }

  /** A four-digit year typed into the year input, completed to `"<year>-01-01"`,
      parses to midnight on January 1 of that year; no other input parses. */
  lemma YearInputParse(input: string)
    ensures Parse(input + "-01-01").Some? <==> |input| == 4 && AllDigits(input)
    ensures |input| == 4 && AllDigits(input) ==>
              Parse(input + "-01-01") == Some(DateTime(DigitsValue(input), 1, 1, 0, 0))
  {
    if |input| == 4 && AllDigits(input) {
      YearInputAccepted(input);
    } else {
      YearInputRejected(input);
    }
  }

  /** A "YYYY-MM" month input, completed to `"<month>-01"`, parses to midnight on
      day 1 of that month. */
  lemma MonthInputParse(input: string)
    requires |input| == 7 && DigitsAt(input, 0, 4) && input[4] == '-' && DigitsAt(input, 5, 2)
    requires 1 <= NumAt(input, 5, 2) <= 12
    ensures Parse(input + "-01") == Some(DateTime(NumAt(input, 0, 4), NumAt(input, 5, 2), 1, 0, 0))
  {
    var s := input + "-01";
    assert s[0..4] == input[0..4] && s[4] == '-' && s[5..7] == input[5..7] && s[7] == '-' && s[8..10] == "01";
    DigitsValueOne();
    DigitsValueBound(input[0..4]);
    Pow10Values();
    ParseDateShape(s);
  }
}

=== FILE: entry_api.dfy ===
/** The browser-side `TimelineEntry` entity: how each static method turns its
    arguments into a request on `/api/entries`, and how it settles the reply. */
module EntryApi {
  import opened Common
  import Dates
  import Http

  const EntriesPath: string := "/api/entries"

  /** `TimelineEntryType` as the server sends it back. `createdAt` is held as
      the time value of the server's timestamp. */
  datatype EntryRecord = EntryRecord(id: int, title: string, description: string, date: string,
                                     precision: Dates.Precision, createdAt: int, timetableId: int, tags: seq<string>)

  /** The argument of `create`, and one row of `bulkCreate`:
      `Omit<TimelineEntryType, 'id' | 'createdAt'> & { tags?: string[] }`.
      `timetableId` is optional because the admin form sends none. */
  datatype EntryData = EntryData(title: string, description: string, date: string, precision: Dates.Precision,
                                 timetableId: Option<int>, tags: Option<seq<string>>)

  /** The JSON bodies the entity sends. */
  datatype Body =
    | EntryBody(title: string, description: string, date: string, precision: Dates.Precision,
                timetableId: Option<int>, tags: seq<string>)
    | BulkBody(entries: seq<EntryData>, bulkTimetableId: int)

  type Request = Http.Request<Body>

  /** `String(timetableId)`: the decimal text of a number, "undefined" for a missing one. */
  function IdText(id: Option<int>): (s: string)
    ensures OptToNumber(Some(s)) == id
  {
    match id
    case None =>
      assert !AllDigits("undefined") by { assert !IsDigit("undefined"[0]); }
      "undefined"
    case Some(i) =>
      NumberOfString(i);
      IntToString(i)
  }

  /** `TimelineEntry.list(timetableId)`: a GET carrying exactly one query parameter. */
  function List(timetableId: Option<int>): (r: Request)
    ensures r.verb == Http.Get && r.url.path == EntriesPath && r.body.None? && r.headers == []
    ensures |r.url.query| == 1 && Http.ParamGet(r.url.query, "timetableId") == Some(IdText(timetableId))
  {
    Http.Request(Http.Get, Http.Url(EntriesPath, [("timetableId", IdText(timetableId))]), [], None)
  }

  /** The destructured argument of `search`; `query` defaults to `''`. */
  datatype SearchArgs = SearchArgs(query: Option<string>, timetableId: Option<int>, startDate: Option<string>,
                                   endDate: Option<string>, tags: Option<seq<string>>)

  /** The parameter names `search` can send. */
  predicate SearchName(n: string) {
    n == "timetableId" || n == "q" || n == "startDate" || n == "endDate" || n == "tags"
  }

  /** `params.set(name, v)` when `v` is a non-empty string. */
  function SetIfTruthy(ps: Http.Params, name: string, v: Option<string>): (r: Http.Params)
    ensures Http.ParamGet(r, name) == (if Truthy(v) then v else Http.ParamGet(ps, name))
    ensures forall n :: n != name ==> Http.ParamGet(r, n) == Http.ParamGet(ps, n)
    ensures forall p :: p in r ==> p in ps || p.0 == name
  {
    if Truthy(v) then Http.ParamSet(ps, name, v.value) else ps
  }

  /** The tag list `search` sends: `tags.join(',')` for a non-empty array. */
  function TagsText(tags: Option<seq<string>>): Option<string> {
    if tags.Some? && |tags.value| > 0 then Some(Join(tags.value, ',')) else None
  }

  /** `new URLSearchParams({ timetableId })`, then `q` when the query is non-empty. */
  function QueryParams(a: SearchArgs): (ps: Http.Params)
    ensures Http.ParamGet(ps, "timetableId") == Some(IdText(a.timetableId))
    ensures Http.ParamGet(ps, "q") == (if Truthy(a.query) then a.query else None)
    ensures Http.ParamGet(ps, "startDate").None? && Http.ParamGet(ps, "endDate").None? && Http.ParamGet(ps, "tags").None?
    ensures forall p :: p in ps ==> SearchName(p.0)
  {
    var ps0: Http.Params := [("timetableId", IdText(a.timetableId))];
    assert Http.ParamGet(ps0, "q").None? && Http.ParamGet(ps0, "startDate").None?;
    assert Http.ParamGet(ps0, "endDate").None? && Http.ParamGet(ps0, "tags").None?;
    SetIfTruthy(ps0, "q", a.query)
  }

  /** Then `startDate` and `endDate`, each when non-empty. */
  function RangeParams(a: SearchArgs): (ps: Http.Params)
    ensures Http.ParamGet(ps, "timetableId") == Some(IdText(a.timetableId))
    ensures Http.ParamGet(ps, "q") == (if Truthy(a.query) then a.query else None)
    ensures Http.ParamGet(ps, "startDate") == (if Truthy(a.startDate) then a.startDate else None)
    ensures Http.ParamGet(ps, "endDate") == (if Truthy(a.endDate) then a.endDate else None)
    ensures Http.ParamGet(ps, "tags").None?
    ensures forall p :: p in ps ==> SearchName(p.0)
  {
    var ps1 := SetIfTruthy(QueryParams(a), "startDate", a.startDate);
    SetIfTruthy(ps1, "endDate", a.endDate)
  }

  /** Adds `tags` when the tag list is non-empty, leaving every other name alone. */
  function WithTags(ps: Http.Params, tags: Option<seq<string>>): (r: Http.Params)
    requires Http.ParamGet(ps, "tags").None?
    ensures Http.ParamGet(r, "tags") == TagsText(tags)
    ensures forall n :: n != "tags" ==> Http.ParamGet(r, n) == Http.ParamGet(ps, n)
    ensures forall p :: p in r ==> p in ps || p.0 == "tags"
  {
    if tags.Some? && |tags.value| > 0 then Http.ParamSet(ps, "tags", Join(tags.value, ',')) else ps
  }

  /** The query string of `search`: `timetableId` always, `q`, `startDate` and
      `endDate` only when non-empty, `tags` only for a non-empty array. */
  function SearchParams(a: SearchArgs): (ps: Http.Params)
    ensures Http.ParamGet(ps, "timetableId") == Some(IdText(a.timetableId))
    ensures Http.ParamGet(ps, "q") == (if Truthy(a.query) then a.query else None)
    ensures Http.ParamGet(ps, "startDate") == (if Truthy(a.startDate) then a.startDate else None)
    ensures Http.ParamGet(ps, "endDate") == (if Truthy(a.endDate) then a.endDate else None)
    ensures Http.ParamGet(ps, "tags") == TagsText(a.tags)
    ensures forall p :: p in ps ==> SearchName(p.0)
  {
    var range := RangeParams(a);
    var r := WithTags(range, a.tags);
    assert "timetableId" != "tags" && "q" != "tags" && "startDate" != "tags" && "endDate" != "tags";
    r
  }

  /** `TimelineEntry.search(args)`: a GET on `/api/entries/search`. */
  function Search(a: SearchArgs): (r: Request)
    ensures r.verb == Http.Get && r.url.path == EntriesPath + "/search" && r.body.None? && r.headers == []
    ensures r.url.query == SearchParams(a)
  {
    Http.Request(Http.Get, Http.Url(EntriesPath + "/search", SearchParams(a)), [], None)
  }

  /** Tags joined with ',' come back apart when no tag holds a comma. */
  lemma TagsRoundTrip(tags: seq<string>)
    requires |tags| > 0
    requires forall i :: 0 <= i < |tags| ==> ',' !in tags[i]
    ensures Split(TagsText(Some(tags)).value, ',') == tags
  {
    SplitJoin(tags, ',');
  }

  /** `{ ...data, tags: data.tags || [] }`. */
  function CreateBody(d: EntryData): (b: Body)
    ensures b.EntryBody?
    ensures DataOf(b) == d.(tags := Some(d.tags.GetOr([])))
  {
    EntryBody(d.title, d.description, d.date, d.precision, d.timetableId, d.tags.GetOr([]))
  }

  /** Reads a create body back as the argument it could have come from. */
  function DataOf(b: Body): EntryData
    requires b.EntryBody?
  {
    EntryData(b.title, b.description, b.date, b.precision, b.timetableId, Some(b.tags))
  }

  /** `create` forwards its argument unchanged when it already carries tags,
      and otherwise only adds an empty tag list. */
  lemma CreateBodyKeepsData(d: EntryData)
    ensures d.tags.Some? ==> DataOf(CreateBody(d)) == d
    ensures d.tags.None? ==> CreateBody(d).tags == []
  {
  }

  const JsonHeaders: Http.Headers := [("Content-Type", "application/json")]

  /** `TimelineEntry.create(data)`: a JSON POST on `/api/entries`. */
  function Create(d: EntryData): (r: Request)
    ensures r.verb == Http.Post && r.url == Http.Url(EntriesPath, []) && r.headers == JsonHeaders
    ensures r.body.Some? && r.body.value.EntryBody? && DataOf(r.body.value) == d.(tags := Some(d.tags.GetOr([])))
  {
    Http.Request(Http.Post, Http.Url(EntriesPath, []), JsonHeaders, Some(CreateBody(d)))
  }

  /** `TimelineEntry.bulkCreate(entries, timetableId)`: `{ entries, timetableId }`
      POSTed to `/api/entries/bulk`, the rows forwarded as given. */
  function BulkCreate(entries: seq<EntryData>, timetableId: int): (r: Request)
    ensures r.verb == Http.Post && r.url == Http.Url(EntriesPath + "/bulk", []) && r.headers == JsonHeaders
    ensures r.body == Some(BulkBody(entries, timetableId))
  {
    Http.Request(Http.Post, Http.Url(EntriesPath + "/bulk", []), JsonHeaders, Some(BulkBody(entries, timetableId)))
  }

  /** `TimelineEntry.delete(id)`: a DELETE on `/api/entries/<id>`. */
  function Delete(id: int): (r: Request)
    ensures r.verb == Http.Delete && r.body.None? && r.headers == [] && r.url.query == []
    ensures |r.url.path| > |EntriesPath| + 1 && r.url.path[..|EntriesPath| + 1] == EntriesPath + "/"
    ensures ToNumber(r.url.path[|EntriesPath| + 1..]) == Some(id)
  {
    var path := EntriesPath + "/" + IntToString(id);
    assert path[|EntriesPath| + 1..] == IntToString(id);
    NumberOfString(id);
    Http.Request(Http.Delete, Http.Url(path, []), [], None)
  }

  /** The methods of the entity, for their failure messages. */
  datatype Op = ListOp | SearchOp | CreateOp | BulkCreateOp | DeleteOp

  function FailureMessage(op: Op): string {
    match op
    case ListOp => "Failed to load entries"
    case SearchOp => "Failed to search entries"
    case CreateOp => "Failed to create entry"
    case BulkCreateOp => "Failed to import entries"
    case DeleteOp => "Failed to delete entry"
  }

  /** How a method settles: a non-ok reply throws that method's message;
      an ok reply resolves to the decoded body (nothing, for `delete`). */
  function Settle<T>(op: Op, res: Http.Response<T>): (r: Result<T>)
    ensures r.Failed? <==> !res.ok
    ensures r.Failed? ==> r.message == FailureMessage(op)
    ensures r.Ok? ==> r.value == res.payload
  {
    Http.Settle(res, FailureMessage(op))
  }

  /** Each method fails with its own message, so a rejection names the call. */
  lemma FailureMessagesDistinct(a: Op, b: Op)
    requires a != b
    ensures FailureMessage(a) != FailureMessage(b)
  {
  }
}

=== FILE: entry_card.dfy ===
/** The timeline card: the date-fns pattern `formatEntryDate` picks for an
    entry's precision and the reader's clock setting, how that pattern renders
    an instant (United States English month names, as date-fns does without a
    locale), and where the card sits. Every pattern the component writes is a
    date part followed by an optional time part, so a pattern is held as
    that pair and the calendar fields each precision can show follow from it. */
module EntryCard {
  import opened Common
  import Dates
  import Settings

  /** `yyyy`, `MMMM yyyy` or `MMMM d, yyyy`. */
  datatype DatePart = YearOnly | MonthYear | FullDate

  /** Nothing, the hour with a literal `00` for the minutes, or hour and minutes. */
  datatype TimePart = NoTime | WholeHour | HourMinute

  datatype Pattern = Pattern(date: DatePart, time: TimePart, clock: Settings.TimeFormat)

  /** The pattern `formatEntryDate` passes to `format` for `precision`; any
      precision name outside the five falls back to the day pattern. */
  function PatternFor(precision: string, tf: Settings.TimeFormat): (p: Pattern)
    ensures p.clock == tf
    ensures p.date == YearOnly <==> precision == "year"
    ensures p.date == MonthYear <==> precision == "month"
    ensures p.time == WholeHour <==> precision == "hour"
    ensures p.time == HourMinute <==> precision == "minute"
  {
    if precision == "year" then Pattern(YearOnly, NoTime, tf)
    else if precision == "month" then Pattern(MonthYear, NoTime, tf)
    else if precision == "hour" then Pattern(FullDate, WholeHour, tf)
    else if precision == "minute" then Pattern(FullDate, HourMinute, tf)
    else Pattern(FullDate, NoTime, tf)
  }

  /** The date-fns pattern text. */
  function Spell(p: Pattern): string {
    var date := match p.date
      case YearOnly => "yyyy"
      case MonthYear => "MMMM yyyy"
      case FullDate => "MMMM d, yyyy";
    var time := match p.time
      case NoTime => ""
      case WholeHour => if p.clock == Settings.H12 then " hh:00 a" else " HH:00"
      case HourMinute => if p.clock == Settings.H12 then " hh:mm a" else " HH:mm";
    date + time
  }

  /** The patterns are the strings `formatEntryDate` writes, case by case. */
  lemma PatternSpelling(precision: string, tf: Settings.TimeFormat)
    ensures precision == "year" ==> Spell(PatternFor(precision, tf)) == "yyyy"
    ensures precision == "month" ==> Spell(PatternFor(precision, tf)) == "MMMM yyyy"
    ensures precision == "hour" ==>
              Spell(PatternFor(precision, tf)) == if tf == Settings.H12 then "MMMM d, yyyy hh:00 a" else "MMMM d, yyyy HH:00"
    ensures precision == "minute" ==>
              Spell(PatternFor(precision, tf)) == if tf == Settings.H12 then "MMMM d, yyyy hh:mm a" else "MMMM d, yyyy HH:mm"
    ensures precision !in {"year", "month", "hour", "minute"} ==> Spell(PatternFor(precision, tf)) == "MMMM d, yyyy"
  {
  }

  // ---------------------------------------------------------------------------
  // Rendering

  const MonthNames: seq<string> := ["January", "February", "March", "April", "May", "June", "July",
                                    "August", "September", "October", "November", "December"]

  /** The hour on a 12-hour clock face: 12, 1, ..., 11. */
  function ClockHour(h: int): (c: int)
    requires 0 <= h < 24
    ensures 1 <= c <= 12
  {
    if h % 12 == 0 then 12 else h % 12
  }

  /** The 24-hour hour read back from the clock face and the AM/PM marker. */
  function FromClock(c: int, pm: bool): int {
    (if c == 12 then 0 else c) + (if pm then 12 else 0)
  }

  /** The clock face and the marker lose nothing: the hour comes back. */
  lemma ClockRoundTrip(h: int)
    requires 0 <= h < 24
    ensures FromClock(ClockHour(h), h >= 12) == h
  {
  }

  /** `a`: the period marker. */
  function Period(h: int): string {
    if h < 12 then "AM" else "PM"
  }

  /** `hh` or `HH`: the zero-padded hour on the chosen clock. */
  function HourText(tf: Settings.TimeFormat, h: int): (s: string)
    requires 0 <= h < 24
    ensures |s| == 2 && AllDigits(s)
  {
    if tf == Settings.H12 then FixedDigits(ClockHour(h), 2) else FixedDigits(h, 2)
  }

  /** ` a` after the time on the 12-hour clock, nothing on the 24-hour one. */
  function PeriodSuffix(tf: Settings.TimeFormat, h: int): string {
    if tf == Settings.H12 then " " + Period(h) else ""
  }

  /** The year date-fns' `yyyy` writes: the year of the era, so the
      astronomical year 0 (1 BC) is written as 1. */
  function EraYear(year: int): (y: nat)
    requires 0 <= year
    ensures year >= 1 ==> y == year
    ensures year == 0 ==> y == 1
  {
    if year > 0 then year else 1 - year
  }

  function DateText(d: DatePart, dt: Dates.DateTime): string
    requires Dates.Valid(dt)
  {
    var y := FixedDigits(EraYear(dt.year), 4);
    match d
    case YearOnly => y
    case MonthYear => MonthNames[dt.month - 1] + " " + y
    case FullDate => MonthNames[dt.month - 1] + " " + NatToString(dt.day) + ", " + y
  }

  /** `hh:mm a` or `HH:mm`. */
  function ClockText(tf: Settings.TimeFormat, h: int, m: int): (s: string)
    requires 0 <= h < 24 && 0 <= m < 60
    ensures |s| == if tf == Settings.H12 then 8 else 5
  {
    HourText(tf, h) + ":" + FixedDigits(m, 2) + PeriodSuffix(tf, h)
  }

  /** Reads an hour and minute back off a clock text. */
  function ReadClock(tf: Settings.TimeFormat, s: string): (int, int)
    requires |s| >= 5 && AllDigits(s[..2]) && AllDigits(s[3..5])
  {
    var face := DigitsValue(s[..2]);
    (if tf == Settings.H12 then FromClock(face, |s| >= 8 && s[6..] == "PM") else face, DigitsValue(s[3..5]))
  }

  /** The clock text loses nothing: the hour and minute read back. */
  lemma ClockTextReadsBack(tf: Settings.TimeFormat, h: int, m: int)
    requires 0 <= h < 24 && 0 <= m < 60
    ensures var s := ClockText(tf, h, m); |s| >= 5 && AllDigits(s[..2]) && AllDigits(s[3..5]) && ReadClock(tf, s) == (h, m)
  {
    var s := ClockText(tf, h, m);
    assert s[..2] == HourText(tf, h);
    assert s[3..5] == FixedDigits(m, 2);
    Pow10Values();
    FixedDigitsValue(m, 2);
    if tf == Settings.H12 {
      assert s[6..] == Period(h);
      FixedDigitsValue(ClockHour(h), 2);
      ClockRoundTrip(h);
    } else {
      FixedDigitsValue(h, 2);
    }
  }

  function TimeText(t: TimePart, tf: Settings.TimeFormat, dt: Dates.DateTime): string
    requires Dates.Valid(dt)
  {
    match t
    case NoTime => ""
    case WholeHour => " " + HourText(tf, dt.hour) + ":00" + PeriodSuffix(tf, dt.hour)
    case HourMinute => " " + ClockText(tf, dt.hour, dt.minute)
  }

  /** `format(date, pattern)`. */
  function Render(p: Pattern, dt: Dates.DateTime): string
    requires Dates.Valid(dt)
  {
    DateText(p.date, dt) + TimeText(p.time, p.clock, dt)
  }

  /** `formatEntryDate(dateStr, precision)`: `parseISO`, then `format`; `None`
      where `format` throws on an Invalid Date. */
  function FormatEntryDate(dateStr: string, precision: string, tf: Settings.TimeFormat): (r: Option<string>)
    ensures r.Some? <==> Dates.Parse(dateStr).Some?
    ensures r.Some? ==> r.value == Render(PatternFor(precision, tf), Dates.Parse(dateStr).value)
  {
    match Dates.Parse(dateStr)
    case None => None
    case Some(dt) => Some(Render(PatternFor(precision, tf), dt))
  }

  // ---------------------------------------------------------------------------
  // Which fields a pattern shows

  datatype Field = YearField | MonthField | DayField | HourField | MinuteField

  /** The calendar fields a pattern reads. */
  function Fields(p: Pattern): set<Field> {
    var date := match p.date
      case YearOnly => {YearField}
      case MonthYear => {MonthField, YearField}
      case FullDate => {MonthField, DayField, YearField};
    var time := match p.time
      case NoTime => {}
      case WholeHour => {HourField}
      case HourMinute => {HourField, MinuteField};
    date + time
  }

  function FieldOf(dt: Dates.DateTime, f: Field): int {
    match f
    case YearField => dt.year
    case MonthField => dt.month
    case DayField => dt.day
    case HourField => dt.hour
    case MinuteField => dt.minute
  }

  /** `a` and `b` agree on every field in `fs`. */
  predicate Agree(a: Dates.DateTime, b: Dates.DateTime, fs: set<Field>) {
    forall f :: f in fs ==> FieldOf(a, f) == FieldOf(b, f)
  }

  /** A pattern's text depends on the fields it reads and on nothing else. */
  lemma RenderReadsOnlyFields(p: Pattern, a: Dates.DateTime, b: Dates.DateTime)
    requires Dates.Valid(a) && Dates.Valid(b)
    requires Agree(a, b, Fields(p))
    ensures Render(p, a) == Render(p, b)
  {
    assert FieldOf(a, YearField) == FieldOf(b, YearField);
    if p.date != YearOnly {
      assert FieldOf(a, MonthField) == FieldOf(b, MonthField);
    }
    if p.date == FullDate {
      assert FieldOf(a, DayField) == FieldOf(b, DayField);
    }
    if p.time != NoTime {
      assert FieldOf(a, HourField) == FieldOf(b, HourField);
    }
    if p.time == HourMinute {
      assert FieldOf(a, MinuteField) == FieldOf(b, MinuteField);
    }
  }

  /** A year card shows the year and nothing finer: instants in the same
      year render alike. */
  lemma YearShowsOnlyYear(a: Dates.DateTime, b: Dates.DateTime, tf: Settings.TimeFormat)
    requires Dates.Valid(a) && Dates.Valid(b) && a.year == b.year
    ensures Render(PatternFor("year", tf), a) == Render(PatternFor("year", tf), b)
  {
    RenderReadsOnlyFields(PatternFor("year", tf), a, b);
  }

  /** A month card shows month and year only. */
  lemma MonthShowsOnlyMonth(a: Dates.DateTime, b: Dates.DateTime, tf: Settings.TimeFormat)
    requires Dates.Valid(a) && Dates.Valid(b) && a.year == b.year && a.month == b.month
    ensures Render(PatternFor("month", tf), a) == Render(PatternFor("month", tf), b)
  {
    RenderReadsOnlyFields(PatternFor("month", tf), a, b);
  }

  /** An hour card prints its minutes as a literal `00`: instants in the same
      hour render alike, whatever the clock setting. */
  lemma HourIgnoresMinutes(a: Dates.DateTime, b: Dates.DateTime, tf: Settings.TimeFormat)
    requires Dates.Valid(a) && Dates.Valid(b)
    requires a.(minute := b.minute) == b
    ensures Render(PatternFor("hour", tf), a) == Render(PatternFor("hour", tf), b)
  {
    RenderReadsOnlyFields(PatternFor("hour", tf), a, b);
  }

  /** The clock setting changes only the hour and minute patterns. */
  lemma TimeFormatOnlyAffectsTime(precision: string)
    requires precision != "hour" && precision != "minute"
    ensures Spell(PatternFor(precision, Settings.H12)) == Spell(PatternFor(precision, Settings.H24))
  {
  }

  /** An unrecognised precision renders exactly like "day". */
  lemma UnknownPrecisionIsDay(precision: string, tf: Settings.TimeFormat)
    requires precision !in {"year", "month", "day", "hour", "minute"}
    ensures PatternFor(precision, tf) == PatternFor("day", tf)
  {
  }

  /** A year card's text is four digits reading back as the year of the era:
      the year itself from year 1 on, and "0001" for year 0. */
  lemma YearTextReadsBack(dt: Dates.DateTime, tf: Settings.TimeFormat)
    requires Dates.Valid(dt)
    ensures var s := Render(PatternFor("year", tf), dt);
      && |s| == 4 && AllDigits(s)
      && (dt.year >= 1 ==> DigitsValue(s) == dt.year)
      && (dt.year == 0 ==> s == "0001")
  {
    var p := PatternFor("year", tf);
    assert p.date == YearOnly && p.time == NoTime;
    var y := FixedDigits(EraYear(dt.year), 4);
    assert y + "" == y;
    assert Render(p, dt) == y;
    if dt.year == 0 {
      YearOneText();
    } else {
      Pow10Values();
      FixedDigitsValue(dt.year, 4);
    }
  }

  /** Year 1 of the era is written "0001". */
  lemma YearOneText()
    ensures FixedDigits(1, 4) == "0001"
  {
    assert FixedDigits(0, 3) == "000";
  }

  /** A minute card ends in its clock text. */
  lemma MinuteTextEndsWithClock(dt: Dates.DateTime, tf: Settings.TimeFormat)
    requires Dates.Valid(dt)
    ensures var s := Render(PatternFor("minute", tf), dt); var c := ClockText(tf, dt.hour, dt.minute);
      |s| >= |c| && s[|s| - |c|..] == c
  {
    var c := ClockText(tf, dt.hour, dt.minute);
    var front := DateText(FullDate, dt) + " ";
    assert Render(PatternFor("minute", tf), dt) == front + c;
    assert (front + c)[|front|..] == c;
  }

  /** The hour and minute a minute card shows can be read back off its end,
      on either clock: the 24-hour text ends "HH:mm", the 12-hour one
      "hh:mm AM" or "hh:mm PM". */
  lemma MinuteTextDeterminesTime(a: Dates.DateTime, b: Dates.DateTime, tf: Settings.TimeFormat)
    requires Dates.Valid(a) && Dates.Valid(b)
    requires Render(PatternFor("minute", tf), a) == Render(PatternFor("minute", tf), b)
    ensures a.hour == b.hour && a.minute == b.minute
  {
    MinuteTextEndsWithClock(a, tf);
    MinuteTextEndsWithClock(b, tf);
    ClockTextReadsBack(tf, a.hour, a.minute);
    ClockTextReadsBack(tf, b.hour, b.minute);
  }

  // ---------------------------------------------------------------------------
  // Placement

  datatype Side = LeftHalf | RightHalf

  /** The card's `top` offset in pixels, the half it sits in, and the
      horizontal offset it slides in from. */
  datatype Placement = Placement(top: int, side: Side, slideFrom: int)

  function Place(position: nat, isLeft: bool): (p: Placement)
    ensures p.top == position * 180 + 60
    ensures p.side == LeftHalf <==> isLeft
    ensures p.side == LeftHalf <==> p.slideFrom < 0
  {
    Placement(position * 180 + 60, if isLeft then LeftHalf else RightHalf, if isLeft then -50 else 50)
  }

  /** Cards are laid 180 pixels apart in position order, the first 60 pixels down,
      and each slides in from its own side. */
  lemma PlacesAreSpaced(i: nat, j: nat, isLeft: bool, isLeft': bool)
    requires i < j
    ensures Place(j, isLeft').top - Place(i, isLeft).top == 180 * (j - i)
    ensures Place(i, isLeft).top >= 60
  {
  }
}

=== FILE: entry_form.dfy ===
/** The admin entry form: its state, the date normalisation `handleSubmit`
    applies per precision, and the date input's `type` and `step`. */
module EntryForm {
  import opened Common
  import Dates

  /** The form state `{ title, description, date, precision }`. */
  datatype FormData = FormData(title: string, description: string, date: string, precision: Dates.Precision)

  /** The state the form starts in and returns to after a submit. */
  const EmptyForm: FormData := FormData("", "", "", Dates.Day)

  /** The string handed to `new Date(...)`: a year input gets "-01-01"
      appended, a month input "-01", any other input is used as typed. */
  function DateSource(date: string, p: Dates.Precision): (s: string)
    ensures p == Dates.Year ==> s == date + "-01-01"
    ensures p == Dates.Month ==> s == date + "-01"
    ensures p != Dates.Year && p != Dates.Month ==> s == date
  {
    match p
    case Year => date + "-01-01"
    case Month => date + "-01"
    case _ => date
  }

  /** `new Date(source).toISOString()`, `None` where `toISOString` throws on an
      Invalid Date. The ISO text denotes exactly the instant parsed. */
  function NormalizeDate(date: string, p: Dates.Precision): (iso: Option<string>)
    ensures iso.Some? <==> Dates.Parse(DateSource(date, p)).Some?
    ensures iso.Some? ==> Dates.Parse(iso.value) == Dates.Parse(DateSource(date, p))
  {
    match Dates.Parse(DateSource(date, p))
    case None => None
    case Some(dt) =>
      Dates.ParseToIso(dt);
      Some(Dates.ToIso(dt))
  }

  /** What a submit does: the record passed to `onSubmit` (none when the date
      parse threw) and the form state afterwards. */
  datatype Submission = Submission(submitted: Option<FormData>, form: FormData)

  /** `handleSubmit`: the form data with only `date` replaced by its ISO text,
      then a reset; when the date cannot be read, neither happens. */
  function HandleSubmit(f: FormData): (r: Submission)
    ensures r.submitted.Some? <==> Dates.Parse(DateSource(f.date, f.precision)).Some?
    ensures r.submitted.Some? ==>
              && r.submitted.value.(date := f.date) == f
              && Dates.Parse(r.submitted.value.date) == Dates.Parse(DateSource(f.date, f.precision))
              && r.form == EmptyForm
    ensures r.submitted.None? ==> r.form == f
  {
    match NormalizeDate(f.date, f.precision)
    case None => Submission(None, f)
    case Some(iso) => Submission(Some(f.(date := iso)), EmptyForm)
  }

  /** Year precision submits midnight on January 1 of the four-digit year typed;
      any other year text submits nothing. */
  lemma YearSubmitsJanuaryFirst(f: FormData)
    requires f.precision == Dates.Year
    ensures HandleSubmit(f).submitted.Some? <==> |f.date| == 4 && AllDigits(f.date)
    ensures HandleSubmit(f).submitted.Some? ==>
              Dates.Parse(HandleSubmit(f).submitted.value.date) == Some(Dates.DateTime(DigitsValue(f.date), 1, 1, 0, 0))
  {
    Dates.YearInputParse(f.date);
  }

  /** Month precision submits midnight on day 1 of the month typed. */
  lemma MonthSubmitsFirstDay(f: FormData)
    requires f.precision == Dates.Month
    requires |f.date| == 7 && Dates.DigitsAt(f.date, 0, 4) && f.date[4] == '-' && Dates.DigitsAt(f.date, 5, 2)
    requires 1 <= Dates.NumAt(f.date, 5, 2) <= 12
    ensures HandleSubmit(f).submitted.Some?
    ensures Dates.Parse(HandleSubmit(f).submitted.value.date) ==
              Some(Dates.DateTime(Dates.NumAt(f.date, 0, 4), Dates.NumAt(f.date, 5, 2), 1, 0, 0))
  {
    Dates.MonthInputParse(f.date);
  }

  /** Day, hour and minute precision read the input exactly as typed. */
  lemma FinePrecisionReadsInput(f: FormData)
    requires f.precision in {Dates.Day, Dates.Hour, Dates.Minute}
    ensures HandleSubmit(f).submitted.Some? <==> Dates.Parse(f.date).Some?
    ensures HandleSubmit(f).submitted.Some? ==> Dates.Parse(HandleSubmit(f).submitted.value.date) == Dates.Parse(f.date)
  {
  }

  /** The `type` of the date input for each precision. */
  function InputType(p: Dates.Precision): (t: string)
    ensures t == "datetime-local" <==> p == Dates.Hour || p == Dates.Minute
    ensures t == "date" <==> p == Dates.Day
    ensures t == "month" <==> p == Dates.Month
    ensures t == "number" <==> p == Dates.Year
  {
    assert |"datetime-local"| == 14 && |"date"| == 4 && |"month"| == 5 && |"number"| == 6;
    match p
    case Hour => "datetime-local"
    case Minute => "datetime-local"
    case Day => "date"
    case Month => "month"
    case Year => "number"
  }

  /** The `step` of the date input, in seconds: a whole hour or a whole minute
      for the two time precisions, none otherwise. */
  function Step(p: Dates.Precision): (step: Option<nat>)
    ensures step.Some? <==> p == Dates.Hour || p == Dates.Minute
    ensures p == Dates.Hour ==> step == Some(60 * 60)
    ensures p == Dates.Minute ==> step == Some(60)
  {
    if p == Dates.Hour then Some(3600) else if p == Dates.Minute then Some(60) else None
  }

  /** The text a browser input of type `t` yields when filled in. The number
      input sets no `min`, `max` or `pattern`, so it may yield any text
      ("999", "12345", "2024.5" and so on). */
  predicate InputShape(t: string, s: string) {
    if t == "number" then true
    else if t == "month" then |s| == 7 && Dates.DigitsAt(s, 0, 4) && s[4] == '-' && Dates.DigitsAt(s, 5, 2)
    else if t == "date" then |s| == 10 && Dates.DateShape(s)
    else |s| == 16 && Dates.MinuteShape(s)
  }

  /** What each input type yields against what its precision can read: a
      year input submits exactly when it holds four digits, a month input
      exactly for months 1-12, and the finer inputs exactly when the shape
      they produce names a real date. */
  lemma InputTypeFitsPrecision(p: Dates.Precision, s: string)
    requires InputShape(InputType(p), s)
    ensures p == Dates.Year ==> (HandleSubmit(FormData("", "", s, p)).submitted.Some? <==> |s| == 4 && AllDigits(s))
    ensures p == Dates.Month ==> (HandleSubmit(FormData("", "", s, p)).submitted.Some? <==> 1 <= Dates.NumAt(s, 5, 2) <= 12)
    ensures p != Dates.Year && p != Dates.Month ==>
              (HandleSubmit(FormData("", "", s, p)).submitted.Some? <==> Dates.Valid(Dates.Shaped(s).value))
  {
    if p == Dates.Year {
      Dates.YearInputParse(s);
    } else if p == Dates.Month {
      if 1 <= Dates.NumAt(s, 5, 2) <= 12 {
        Dates.MonthInputParse(s);
      } else {
        var src := s + "-01";
        assert src[5..7] == s[5..7] && |src| == 10;
        assert Dates.Shaped(src).value.month == Dates.NumAt(s, 5, 2);
      }
    }
  }
}

=== FILE: http.dfy ===
/** The request shapes the browser code hands to `fetch`: a method, a path on
    the API origin with `URLSearchParams`, headers, and a JSON body, plus the
    `if (!res.ok) throw new Error(...)` settlement every entity method uses.
    Percent-encoding of query strings is not modelled: parameters stay a list
    of (name, value) pairs end to end. */
module Http {
  import opened Common

  datatype Method = Get | Post | Delete

  /** `URLSearchParams`: (name, value) pairs in insertion order. */
  type Params = seq<(string, string)>

  /** `params.get(name)`: the first value under `name`. */
  function ParamGet(ps: Params, name: string): (r: Option<string>)
    ensures r.Some? <==> exists i :: 0 <= i < |ps| && ps[i].0 == name
  {
    if |ps| == 0 then None
    else if ps[0].0 == name then Some(ps[0].1)
    else
      var r := ParamGet(ps[1..], name);
      assert forall i :: 1 <= i < |ps| ==> ps[i] == ps[1..][i - 1];
      r
  }

  /** `ps` without any pair named `name`. */
  function ParamDrop(ps: Params, name: string): (r: Params)
    ensures forall i :: 0 <= i < |r| ==> r[i].0 != name
    ensures forall p :: p in r <==> p in ps && p.0 != name
  {
    if |ps| == 0 then []
    else if ps[0].0 == name then ParamDrop(ps[1..], name)
    else [ps[0]] + ParamDrop(ps[1..], name)
  }

  /** `params.set(name, value)`: overwrites the first pair named `name` and drops
      the others, or appends one when there is none. */
  function ParamSet(ps: Params, name: string, value: string): (r: Params)
    ensures ParamGet(r, name) == Some(value)
    ensures forall n :: n != name ==> ParamGet(r, n) == ParamGet(ps, n)
    ensures forall p :: p in r ==> p in ps || p == (name, value)
  {
    if |ps| == 0 then [(name, value)]
    else if ps[0].0 == name then
      var rest := ParamDrop(ps[1..], name);
      assert forall n :: n != name ==> ParamGet(rest, n) == ParamGet(ps[1..], n) by {
        forall n | n != name
          ensures ParamGet(rest, n) == ParamGet(ps[1..], n)
        {
          DropKeepsOthers(ps[1..], name, n);
        }
      }
      [(name, value)] + rest
    else
      [ps[0]] + ParamSet(ps[1..], name, value)
  }

  lemma {:induction false} DropKeepsOthers(ps: Params, name: string, n: string)
    requires n != name
    ensures ParamGet(ParamDrop(ps, name), n) == ParamGet(ps, n)
  {
    if |ps| > 0 {
      DropKeepsOthers(ps[1..], name, n);
    }
  }

  type Headers = seq<(string, string)>

  /** `headers[name]`: the first header under `name`. */
  function HeaderGet(hs: Headers, name: string): Option<string> {
    if |hs| == 0 then None
    else if hs[0].0 == name then Some(hs[0].1)
    else HeaderGet(hs[1..], name)
  }

  /** A URL on the API origin `http://localhost:3001`. */
  datatype Url = Url(path: string, query: Params)

  datatype Request<B> = Request(verb: Method, url: Url, headers: Headers, body: Option<B>)

  /** What `fetch` resolved to: `res.ok` and the decoded JSON. */
  datatype Response<T> = Response(ok: bool, payload: T)

  /** `if (!res.ok) throw new Error(message); return res.json();` */
  function Settle<T>(res: Response<T>, message: string): (r: Result<T>)
    ensures r.Ok? <==> res.ok
    ensures r.Ok? ==> r.value == res.payload
    ensures r.Failed? ==> r.message == message
  {
    if res.ok then Ok(res.payload) else Failed(message)
  }
}

=== FILE: i18n.dfy ===
/** Translation lookup: `t(key)` splits a dotted key and descends the
    language's table one segment at a time, falling back to the key itself
    when a segment is missing. The language is a parameter here; the
    settings context the hook reads it from holds no language. Lookups see
    a table's own keys only, not properties every JavaScript object or
    string inherits. */
module I18n {
  import opened Common

  /** `'en' | 'fr'` */
  datatype Lang = En | Fr

  /** A translation table: a string, or an object of named sub-tables. */
  datatype Node = Leaf(text: string) | Branch(children: seq<(string, Node)>)

  /** The position of `name` among an object's keys. */
  function FindKey(kids: seq<(string, Node)>, name: string): (i: Option<nat>)
    ensures i.None? <==> forall j :: 0 <= j < |kids| ==> kids[j].0 != name
    ensures i.Some? ==> i.value < |kids| && kids[i.value].0 == name
    ensures i.Some? ==> forall j :: 0 <= j < i.value ==> kids[j].0 != name
  {
    if |kids| == 0 then None
    else if kids[0].0 == name then Some(0)
    else match FindKey(kids[1..], name)
      case None => None
      case Some(j) => Some(j + 1)
  }

  /** `node[name]` for one of the table's own keys; a string has none. */
  function Child(n: Node, name: string): (c: Option<Node>)
    ensures c.Some? <==> n.Branch? && exists j :: 0 <= j < |n.children| && n.children[j].0 == name
  {
    match n
    case Leaf(_) => None
    case Branch(kids) =>
      match FindKey(kids, name)
      case None => None
      case Some(j) => Some(kids[j].1)
  }

  /** The loop `for (const p of parts) result = result?.[p]`: once the result
      is `undefined` it stays so. */
  function Walk(result: Option<Node>, parts: seq<string>): Option<Node>
    decreases |parts|
  {
    if |parts| == 0 then result
    else Walk(if result.None? then None else Child(result.value, parts[0]), parts[1..])
  }

  /** The node a path names, described head first: the path's first segment
      picks a child, the rest of the path is looked up in it. */
  function Lookup(n: Node, path: seq<string>): Option<Node>
    decreases |path|
  {
    if |path| == 0 then Some(n)
    else match Child(n, path[0])
      case None => None
      case Some(c) => Lookup(c, path[1..])
  }

  /** An `undefined` result stays `undefined` through the rest of the loop. */
  lemma {:induction false} WalkFromNothing(parts: seq<string>)
    ensures Walk(None, parts) == None
    decreases |parts|
  {
    if |parts| > 0 {
      WalkFromNothing(parts[1..]);
    }
  }

  /** The loop finds exactly the node the path names. */
  lemma {:induction false} WalkIsLookup(n: Node, parts: seq<string>)
    ensures Walk(Some(n), parts) == Lookup(n, parts)
    decreases |parts|
  {
    if |parts| > 0 {
      match Child(n, parts[0])
      case None => WalkFromNothing(parts[1..]);
      case Some(c) => WalkIsLookup(c, parts[1..]);
    }
  }

  function Table(lang: Lang): Node {
    match lang
    case En => EnTable
    case Fr => FrTable
  }

  /** `t(key)` over one table: the string or sub-table the dotted key names,
      and the key itself when some segment is missing (`result ?? key`). */
  function TranslateIn(table: Node, key: string): (r: Node)
    ensures Lookup(table, Split(key, '.')).Some? ==> r == Lookup(table, Split(key, '.')).value
    ensures Lookup(table, Split(key, '.')).None? ==> r == Leaf(key)
  {
    WalkIsLookup(table, Split(key, '.'));
    Walk(Some(table), Split(key, '.')).GetOr(Leaf(key))
  }

  /** `t(key)` in the given language. */
  function Translate(lang: Lang, key: string): Node {
    TranslateIn(Table(lang), key)
  }

  /** A key written as segments joined by '.' descends one level per segment:
      it names whatever the segments name, and is echoed back when they name nothing. */
  lemma TranslatePath(table: Node, path: seq<string>)
    requires |path| >= 1
    requires forall i :: 0 <= i < |path| ==> '.' !in path[i]
    ensures Lookup(table, path).Some? ==> TranslateIn(table, Join(path, '.')) == Lookup(table, path).value
    ensures Lookup(table, path).None? ==> TranslateIn(table, Join(path, '.')) == Leaf(Join(path, '.'))
  {
    SplitJoin(path, '.');
  }

  /** `??` falls back only for `undefined`: a key that stops at a sub-table
      returns the sub-table, not the key. */
  lemma InnerKeyGivesSubtree(table: Node, key: string)
    requires Lookup(table, Split(key, '.')).Some? && Lookup(table, Split(key, '.')).value.Branch?
    ensures TranslateIn(table, key).Branch? && TranslateIn(table, key) != Leaf(key)
  {
  }

  /** With no language, as the settings context provides none, the loop starts
      from `undefined` and every key comes back unchanged. */
  function TranslateWithoutLanguage(key: string): (r: Node)
    ensures r == Leaf(key)
  {
    WalkFromNothing(Split(key, '.'));
    Walk(None, Split(key, '.')).GetOr(Leaf(key))
  }

  // ---------------------------------------------------------------------------
  // The two tables have the same shape

  /** `a` and `b` have the same keys in the same order at every level, and
      strings in the same places. */
  predicate SameShape(a: Node, b: Node)
    decreases a, 1
  {
    match a
    case Leaf(_) => b.Leaf?
    case Branch(ka) => b.Branch? && |ka| == |b.children| && SameKidsFrom(a, b, 0)
  }

  /** The children of `a` and `b` from index `i` on agree in key and shape. */
  predicate SameKidsFrom(a: Node, b: Node, i: nat)
    requires a.Branch? && b.Branch? && |a.children| == |b.children| && i <= |a.children|
    decreases a, 0, |a.children| - i
  {
    || i == |a.children|
    || (&& a.children[i].0 == b.children[i].0
        && SameShape(a.children[i].1, b.children[i].1)
        && SameKidsFrom(a, b, i + 1))
  }

  lemma {:induction false} SameKidsEach(a: Node, b: Node, i: nat)
    requires a.Branch? && b.Branch? && |a.children| == |b.children| && i <= |a.children|
    requires SameKidsFrom(a, b, i)
    ensures forall j :: i <= j < |a.children| ==>
              a.children[j].0 == b.children[j].0 && SameShape(a.children[j].1, b.children[j].1)
    decreases |a.children| - i
  {
    if i < |a.children| {
      SameKidsEach(a, b, i + 1);
    }
  }

  /** Where a key is found depends on the keys alone. */
  lemma {:induction false} FindKeyByKeys(ka: seq<(string, Node)>, kb: seq<(string, Node)>, name: string)
    requires |ka| == |kb| && forall j :: 0 <= j < |ka| ==> ka[j].0 == kb[j].0
    ensures FindKey(ka, name) == FindKey(kb, name)
  {
    if |ka| > 0 && ka[0].0 != name {
      FindKeyByKeys(ka[1..], kb[1..], name);
    }
  }

  /** Tables of the same shape name the same paths, with strings at the same paths. */
  lemma {:induction false} SameShapeSamePaths(a: Node, b: Node, path: seq<string>)
    requires SameShape(a, b)
    ensures Lookup(a, path).Some? <==> Lookup(b, path).Some?
    ensures Lookup(a, path).Some? ==> SameShape(Lookup(a, path).value, Lookup(b, path).value)
    decreases |path|
  {
    if |path| > 0 && a.Branch? {
      SameKidsEach(a, b, 0);
      FindKeyByKeys(a.children, b.children, path[0]);
      if Child(a, path[0]).Some? {
        SameShapeSamePaths(Child(a, path[0]).value, Child(b, path[0]).value, path[1..]);
      }
    }
  }

  /** The English and French tables have the same shape. */
  lemma SettingsSameShape()
    ensures SameShape(EnSettings, FrSettings)
  {
  }

  lemma ScheduleSameShape()
    ensures SameShape(EnSchedule, FrSchedule)
  {
  }

  lemma AdminSameShape()
    ensures SameShape(EnAdmin, FrAdmin)
  {
  }

  lemma EntryFormSameShape()
    ensures SameShape(EnEntryForm, FrEntryForm)
  {
  }

  lemma ImportEntriesSameShape()
    ensures SameShape(EnImportEntries, FrImportEntries)
  {
  }

  lemma TimetableManagerSameShape()
    ensures SameShape(EnTimetableManager, FrTimetableManager)
  {
  }

  lemma CalendarEditorSameShape()
    ensures SameShape(EnCalendarEditor, FrCalendarEditor)
  {
  }

  lemma NavSameShape()
    ensures SameShape(EnNav, FrNav)
  {
  }

  /** The English and French tables have the same shape. */
  lemma TablesSameShape()
    ensures SameShape(EnTable, FrTable)
  {
    SettingsSameShape();
    ScheduleSameShape();
    AdminSameShape();
    EntryFormSameShape();
    ImportEntriesSameShape();
    TimetableManagerSameShape();
    CalendarEditorSameShape();
    NavSameShape();
    assert SameKidsFrom(EnTable, FrTable, 8);
    assert SameKidsFrom(EnTable, FrTable, 7);
    assert SameKidsFrom(EnTable, FrTable, 6);
    assert SameKidsFrom(EnTable, FrTable, 5);
    assert SameKidsFrom(EnTable, FrTable, 4);
    assert SameKidsFrom(EnTable, FrTable, 3);
    assert SameKidsFrom(EnTable, FrTable, 2);
    assert SameKidsFrom(EnTable, FrTable, 1);
    assert SameKidsFrom(EnTable, FrTable, 0);
  }

  /** Every key that names a string in one language names a string in the other. */
  lemma LanguagesShareKeys(key: string)
    ensures Lookup(EnTable, Split(key, '.')).Some? <==> Lookup(FrTable, Split(key, '.')).Some?
    ensures Lookup(EnTable, Split(key, '.')).Some? ==>
              (Lookup(EnTable, Split(key, '.')).value.Leaf? <==> Lookup(FrTable, Split(key, '.')).value.Leaf?)
  {
    TablesSameShape();
    SameShapeSamePaths(EnTable, FrTable, Split(key, '.'));
  }

  /** `settings.title` is "Settings" in English and "Param\U{00E8}tres" in French. */
  lemma SettingsTitle()
    ensures Translate(En, "settings.title") == Leaf("Settings")
    ensures Translate(Fr, "settings.title") == Leaf("Param\U{00E8}tres")
  {
    var path := ["settings", "title"];
    assert Join(path, '.') == "settings.title" by {
      assert path[1..] == ["title"];
    }
    LookupSettingsTitle(EnTable, EnSettings, "Settings");
    LookupSettingsTitle(FrTable, FrSettings, "Param\U{00E8}tres");
    TranslatePath(EnTable, path);
    TranslatePath(FrTable, path);
  }

  /** The two-step descent to `settings.title` in a table laid out like both languages'. */
  lemma LookupSettingsTitle(table: Node, settings: Node, title: string)
    requires table.Branch? && |table.children| > 0 && table.children[0] == ("settings", settings)
    requires settings.Branch? && |settings.children| > 0 && settings.children[0] == ("title", Leaf(title))
    ensures Lookup(table, ["settings", "title"]) == Some(Leaf(title))
  {
    assert Child(table, "settings") == Some(settings);
    assert Child(settings, "title") == Some(Leaf(title));
    assert ["settings", "title"][1..] == ["title"];
    assert ["title"][1..] == [];
  }

  // ---------------------------------------------------------------------------
  // Date locales

  datatype DateLocale = EnUS | French

  /** `dateLocales[language]`. */
  function LocaleOf(lang: Lang): (l: DateLocale)
    ensures l == EnUS <==> lang == En
  {
    match lang
    case En => EnUS
    case Fr => French
  }

  // ---------------------------------------------------------------------------
  // The tables

  const EnSettings: Node := Branch([
    ("title", Leaf("Settings")),
    ("darkMode", Leaf("Dark mode")),
    ("timeFormat", Leaf("Time format")),
    ("timeFormat24", Leaf("24-hour")),
    ("timeFormat12", Leaf("12-hour")),
    ("language", Leaf("Language")),
    ("english", Leaf("English")),
    ("french", Leaf("French"))
  ])

  const EnSchedule: Node := Branch([
    ("loading", Leaf("Loading your schedule...")),
    ("tag", Leaf("Daily Schedule")),
    ("title", Leaf("Your Day Plan")),
    ("description", Leaf("Plan your week and view each day with an intuitive schedule and clear visualizations")),
    ("entriesCountLabel", Leaf("Schedule Entries")),
    ("searchPlaceholder", Leaf("Search activities...")),
    ("searchButton", Leaf("Search")),
    ("startDatePlaceholder", Leaf("Start date")),
    ("endDatePlaceholder", Leaf("End date")),
    ("tagsPlaceholder", Leaf("Tags (comma separated)")),
    ("emptyTitle", Leaf("Your Schedule Awaits")),
    ("emptyDescription", Leaf("Use the selector above to create a timetable, then add your first entry in the Admin Panel."))
  ])

  const EnAdmin: Node := Branch([
    ("tag", Leaf("Admin Panel")),
    ("title", Leaf("Schedule Control")),
    ("description", Leaf("Add new items to your daily schedule. Each item will automatically position itself based on date.")),
    ("success", Leaf("Schedule item added successfully!")),
    ("recentEntries", Leaf("Recent Entries")),
    ("noEntries", Leaf("No entries yet")),
    ("featureTitle", Leaf("Intelligent Positioning")),
    ("featureDesc", Leaf("Your schedule automatically sorts and positions entries by date, creating an easy-to-follow plan."))
  ])

  const EnEntryForm: Node := Branch([
    ("title", Leaf("Add Schedule Item")),
    ("fields", Branch([
      ("title", Leaf("Title")),
      ("titlePlaceholder", Leaf("Enter event title...")),
      ("date", Leaf("Date")),
      ("precision", Leaf("Precision")),
      ("description", Leaf("Description")),
      ("descriptionPlaceholder", Leaf("Describe this scheduled activity..."))
    ])),
    ("precision", Branch([
      ("year", Leaf("Year")),
      ("month", Leaf("Month")),
      ("day", Leaf("Day")),
      ("hour", Leaf("Hour")),
      ("minute", Leaf("Minute"))
    ])),
    ("submitting", Leaf("Adding to Schedule...")),
    ("submit", Leaf("Add to Schedule")),
    ("update", Leaf("Update Entry"))
  ])

  const EnImportEntries: Node := Branch([
    ("title", Leaf("Import JSON")),
    ("import", Leaf("Import")),
    ("importing", Leaf("Importing..."))
  ])

  const EnTimetableManager: Node := Branch([
    ("selectPlaceholder", Leaf("Select timetable")),
    ("newPlaceholder", Leaf("New timetable")),
    ("create", Leaf("Create")),
    ("renamePlaceholder", Leaf("Rename timetable")),
    ("rename", Leaf("Rename")),
    ("delete", Leaf("Delete")),
    ("deleteAll", Leaf("Delete All")),
    ("deletingIn", Leaf("Deleting in")),
    ("confirmNow", Leaf("Confirm now")),
    ("cancel", Leaf("Cancel"))
  ])

  const EnCalendarEditor: Node := Branch([
    ("eventPrompt", Leaf("Event title")),
    ("deleteConfirm", Leaf("Delete this event?"))
  ])

  const EnNav: Node := Branch([
    ("schedule", Leaf("Schedule")),
    ("admin", Leaf("Admin Panel")),
    ("settings", Leaf("Settings")),
    ("navigation", Leaf("Navigation"))
  ])

  /** The `en` table. */
  const EnTable: Node := Branch([
    ("settings", EnSettings),
    ("schedule", EnSchedule),
    ("admin", EnAdmin),
    ("entryForm", EnEntryForm),
    ("importEntries", EnImportEntries),
    ("timetableManager", EnTimetableManager),
    ("calendarEditor", EnCalendarEditor),
    ("nav", EnNav)
  ])

  const FrSettings: Node := Branch([
    ("title", Leaf("Param\U{00E8}tres")),
    ("darkMode", Leaf("Mode sombre")),
    ("timeFormat", Leaf("Format de l'heure")),
    ("timeFormat24", Leaf("24 heures")),
    ("timeFormat12", Leaf("12 heures")),
    ("language", Leaf("Langue")),
    ("english", Leaf("Anglais")),
    ("french", Leaf("Fran\U{00E7}ais"))
  ])

  const FrSchedule: Node := Branch([
    ("loading", Leaf("Chargement de votre emploi du temps...")),
    ("tag", Leaf("Agenda quotidien")),
    ("title", Leaf("Planifier votre journ\U{00E9}e")),
    ("description", Leaf("Planifiez votre semaine et visualisez chaque jour avec un emploi du temps intuitif et des visualisations claires")),
    ("entriesCountLabel", Leaf("Entr\U{00E9}es d'emploi du temps")),
    ("searchPlaceholder", Leaf("Rechercher des activit\U{00E9}s...")),
    ("searchButton", Leaf("Rechercher")),
    ("startDatePlaceholder", Leaf("Date de d\U{00E9}but")),
    ("endDatePlaceholder", Leaf("Date de fin")),
    ("tagsPlaceholder", Leaf("\U{00C9}tiquettes (s\U{00E9}par\U{00E9}es par des virgules)")),
    ("emptyTitle", Leaf("Votre emploi du temps vous attend")),
    ("emptyDescription", Leaf("Utilisez le s\U{00E9}lecteur ci-dessus pour cr\U{00E9}er un emploi du temps, puis ajoutez votre premi\U{00E8}re entr\U{00E9}e dans le panneau d\U{2019}administration."))
  ])

  const FrAdmin: Node := Branch([
    ("tag", Leaf("Panneau d'administration")),
    ("title", Leaf("Contr\U{00F4}le du programme")),
    ("description", Leaf("Ajoutez de nouveaux \U{00E9}l\U{00E9}ments \U{00E0} votre emploi du temps quotidien. Chaque \U{00E9}l\U{00E9}ment se positionne automatiquement en fonction de la date.")),
    ("success", Leaf("\U{00C9}l\U{00E9}ment ajout\U{00E9} avec succ\U{00E8}s !")),
    ("recentEntries", Leaf("Entr\U{00E9}es r\U{00E9}centes")),
    ("noEntries", Leaf("Aucune entr\U{00E9}e pour l'instant")),
    ("featureTitle", Leaf("Positionnement intelligent")),
    ("featureDesc", Leaf("Votre emploi du temps trie et positionne automatiquement les entr\U{00E9}es par date, pour un plan facile \U{00E0} suivre."))
  ])

  const FrEntryForm: Node := Branch([
    ("title", Leaf("Ajouter un \U{00E9}l\U{00E9}ment")),
    ("fields", Branch([
      ("title", Leaf("Titre")),
      ("titlePlaceholder", Leaf("Entrez le titre de l'\U{00E9}v\U{00E9}nement...")),
      ("date", Leaf("Date")),
      ("precision", Leaf("Pr\U{00E9}cision")),
      ("description", Leaf("Description")),
      ("descriptionPlaceholder", Leaf("D\U{00E9}crivez cette activit\U{00E9}..."))
    ])),
    ("precision", Branch([
      ("year", Leaf("Ann\U{00E9}e")),
      ("month", Leaf("Mois")),
      ("day", Leaf("Jour")),
      ("hour", Leaf("Heure")),
      ("minute", Leaf("Minute"))
    ])),
    ("submitting", Leaf("Ajout en cours...")),
    ("submit", Leaf("Ajouter au programme")),
    ("update", Leaf("Mettre \U{00E0} jour"))
  ])

  const FrImportEntries: Node := Branch([
    ("title", Leaf("Importer JSON")),
    ("import", Leaf("Importer")),
    ("importing", Leaf("Importation en cours..."))
  ])

  const FrTimetableManager: Node := Branch([
    ("selectPlaceholder", Leaf("S\U{00E9}lectionner un emploi du temps")),
    ("newPlaceholder", Leaf("Nouvel emploi du temps")),
    ("create", Leaf("Cr\U{00E9}er")),
    ("renamePlaceholder", Leaf("Renommer l'emploi du temps")),
    ("rename", Leaf("Renommer")),
    ("delete", Leaf("Supprimer")),
    ("deleteAll", Leaf("Tout supprimer")),
    ("deletingIn", Leaf("Suppression dans")),
    ("confirmNow", Leaf("Confirmer maintenant")),
    ("cancel", Leaf("Annuler"))
  ])

  const FrCalendarEditor: Node := Branch([
    ("eventPrompt", Leaf("Titre de l'\U{00E9}v\U{00E9}nement")),
    ("deleteConfirm", Leaf("Supprimer cet \U{00E9}v\U{00E9}nement ?"))
  ])

  const FrNav: Node := Branch([
    ("schedule", Leaf("Agenda")),
    ("admin", Leaf("Panneau d'administration")),
    ("settings", Leaf("Param\U{00E8}tres")),
    ("navigation", Leaf("Navigation"))
  ])

  /** The `fr` table. */
  const FrTable: Node := Branch([
    ("settings", FrSettings),
    ("schedule", FrSchedule),
    ("admin", FrAdmin),
    ("entryForm", FrEntryForm),
    ("importEntries", FrImportEntries),
    ("timetableManager", FrTimetableManager),
    ("calendarEditor", FrCalendarEditor),
    ("nav", FrNav)
  ])
}

=== FILE: import_entries.dfy ===
/** The JSON import card: `handleImport` reads the chosen file, checks its
    shape, resolves the timetable (an explicit id, else one created by name),
    and hands the rows to `bulkCreate`. Reading the file, parsing it and the
    two replies are passed in; the result records the calls made, in order. */
module ImportEntries {
  import opened Common
  import EntryApi
  import TimetableApi

  /** `json.entries`: an array of rows, or anything else. */
  datatype EntriesValue = NotAnArray | Rows(rows: seq<EntryApi.EntryData>)

  /** The parts of the parsed document the handler reads: `entries`,
      `timetableId` and `timetable?.name`. */
  datatype ImportDoc = ImportDoc(entries: EntriesValue, timetableId: Option<int>, timetableName: Option<string>)

  /** The entity calls the handler can make. */
  datatype Call =
    | CreateTimetable(name: string)
    | BulkCreate(entries: seq<EntryApi.EntryData>, timetableId: int)

  /** The card after an import attempt: the calls made, the file still held
      (if any), the loading flag, and whether `onImported` ran. */
  datatype Outcome = Outcome(calls: seq<Call>, fileKept: bool, isLoading: bool, imported: bool)

  /** The timetable the rows go to once any create has run: the document's id
      when truthy, else the created timetable's id. */
  function ResolvedId(doc: ImportDoc, created: Result<TimetableApi.TimetableRecord>): Option<int> {
    if NumTruthy(doc.timetableId) then doc.timetableId
    else if Truthy(doc.timetableName) then
      match created
      case Ok(t) => Some(t.id)
      case Failed(_) => None
    else doc.timetableId
  }

  /** `handleImport`. `parsed` is `None` where reading or `JSON.parse` throws;
      `created` and `bulk` are the replies of `Timetable.create` and
      `TimelineEntry.bulkCreate`. Every failure is caught and logged. */
  function HandleImport(hasFile: bool, isLoading: bool, parsed: Option<ImportDoc>,
                        created: Result<TimetableApi.TimetableRecord>, bulk: Result<seq<EntryApi.EntryRecord>>): (o: Outcome)
    ensures !hasFile ==> o == Outcome([], false, isLoading, false)
    ensures hasFile ==> !o.isLoading
    ensures o.imported <==> !o.fileKept && hasFile
    ensures hasFile ==>
              (o.imported <==> && parsed.Some? && parsed.value.entries.Rows?
                               && NumTruthy(ResolvedId(parsed.value, created)) && bulk.Ok?)
  {
    if !hasFile then Outcome([], false, isLoading, false)
    else if parsed.None? || parsed.value.entries.NotAnArray? then Outcome([], true, false, false)
    else
      var doc := parsed.value;
      var createCalls := if !NumTruthy(doc.timetableId) && Truthy(doc.timetableName)
                         then [CreateTimetable(doc.timetableName.value)] else [];
      var id := ResolvedId(doc, created);
      if !NumTruthy(id) then Outcome(createCalls, true, false, false)
      else
        var calls := createCalls + [BulkCreate(doc.entries.rows, id.value)];
        if bulk.Ok? then Outcome(calls, false, false, true) else Outcome(calls, true, false, false)
  }

  /** A document whose `entries` is not an array fails before any call. */
  lemma NotAnArrayMakesNoCall(isLoading: bool, doc: ImportDoc, created: Result<TimetableApi.TimetableRecord>,
                              bulk: Result<seq<EntryApi.EntryRecord>>)
    requires doc.entries.NotAnArray?
    ensures var o := HandleImport(true, isLoading, Some(doc), created, bulk); o.calls == [] && o.fileKept && !o.imported
  {
  }

  /** A truthy `timetableId` wins: no timetable is created, and the rows go,
      unchanged, to that id. */
  lemma ExplicitIdWins(isLoading: bool, doc: ImportDoc, created: Result<TimetableApi.TimetableRecord>,
                       bulk: Result<seq<EntryApi.EntryRecord>>)
    requires doc.entries.Rows? && NumTruthy(doc.timetableId)
    ensures HandleImport(true, isLoading, Some(doc), created, bulk).calls == [BulkCreate(doc.entries.rows, doc.timetableId.value)]
  {
  }

  /** A timetable is created only when the id is falsy, under the document's
      name; the rows then go to the created id, and the timetable stays
      created whether or not the import succeeds. */
  lemma NameUsedOnlyWithoutId(isLoading: bool, doc: ImportDoc, created: Result<TimetableApi.TimetableRecord>,
                              bulk: Result<seq<EntryApi.EntryRecord>>, c: Call)
    requires doc.entries.Rows?
    requires c in HandleImport(true, isLoading, Some(doc), created, bulk).calls && c.CreateTimetable?
    ensures !NumTruthy(doc.timetableId) && Truthy(doc.timetableName) && c.name == doc.timetableName.value
    ensures HandleImport(true, isLoading, Some(doc), created, bulk).calls[0] == c
    ensures created.Ok? && created.value.id != 0 ==>
              HandleImport(true, isLoading, Some(doc), created, bulk).calls ==
              [c, BulkCreate(doc.entries.rows, created.value.id)]
  {
  }

  /** With neither a truthy id nor a name, the import fails and `bulkCreate`
      is never called. */
  lemma NeitherIdNorNameFails(isLoading: bool, doc: ImportDoc, created: Result<TimetableApi.TimetableRecord>,
                              bulk: Result<seq<EntryApi.EntryRecord>>)
    requires doc.entries.Rows? && !NumTruthy(doc.timetableId) && !Truthy(doc.timetableName)
    ensures var o := HandleImport(true, isLoading, Some(doc), created, bulk); o.calls == [] && o.fileKept && !o.imported
  {
  }

  /** Whenever rows are sent, they are the document's rows, sent once, last,
      to a truthy id. */
  lemma BulkForwardsRows(isLoading: bool, doc: ImportDoc, created: Result<TimetableApi.TimetableRecord>,
                         bulk: Result<seq<EntryApi.EntryRecord>>, i: nat)
    requires i < |HandleImport(true, isLoading, Some(doc), created, bulk).calls|
    requires HandleImport(true, isLoading, Some(doc), created, bulk).calls[i].BulkCreate?
    ensures var calls := HandleImport(true, isLoading, Some(doc), created, bulk).calls;
      && i == |calls| - 1
      && doc.entries.Rows? && calls[i].entries == doc.entries.rows
      && calls[i].timetableId != 0 && Some(calls[i].timetableId) == ResolvedId(doc, created)
  {
  }
}

=== FILE: schedule.dfy ===
/** The schedule page: the height of the timeline, the window of rows it
    mounts around the scroll position, where each mounted card sits, and
    which request the search button and a timetable change issue. Scroll
    offsets and heights are whole pixels; a request's reply is passed in. */
module Schedule {
  import opened Common
  import EntryApi
  import Http
  import EntryCard

  /** Vertical space each row takes, in pixels. */
  const RowHeight: nat := 180

  /** Rows mounted above and below the viewport. */
  const Buffer: nat := 5

  /** `scheduleHeight`. */
  function ScheduleHeight(n: nat): (h: nat)
    ensures n == 0 ==> h == 400
    ensures n > 0 ==> h == n * RowHeight + 120
  {
    if n > 0 then n * RowHeight + 120 else 400
  }

  /** The timeline is tall enough for every card: row `i`'s band, which starts
      at its card's top, ends inside the timeline. */
  lemma HeightHoldsEveryCard(n: nat, i: nat, isLeft: bool)
    requires i < n
    ensures EntryCard.Place(i, isLeft).top + RowHeight <= ScheduleHeight(n)
  {
  }

  /** `startIndex`: the first mounted row. It starts at or above the viewport,
      and it is row 0 or a row a whole buffer above the one at the top. */
  function StartIndex(scrollTop: nat): (s: nat)
    ensures s * RowHeight <= scrollTop
    ensures s == 0 || (s + Buffer) * RowHeight <= scrollTop < (s + Buffer + 1) * RowHeight
  {
    if scrollTop / RowHeight >= Buffer then scrollTop / RowHeight - Buffer else 0
  }

  /** `Math.ceil(x / RowHeight)` for whole pixels. */
  function CeilRows(x: nat): (r: nat)
    ensures r * RowHeight >= x
    ensures r == 0 || (r - 1) * RowHeight < x
  {
    (x + RowHeight - 1) / RowHeight
  }

  /** `endIndex`: one past the last mounted row. It never passes the list, and
      short of the list's end it reaches a whole buffer below the viewport. */
  function EndIndex(n: nat, scrollTop: nat, height: nat): (e: nat)
    ensures e <= n
    ensures e == n || e * RowHeight >= scrollTop + height + Buffer * RowHeight
  {
    var c := CeilRows(scrollTop + height) + Buffer;
    if c < n then c else n
  }

  /** `Array.prototype.slice(start, end)` for non-negative bounds: both are
      clamped to the length, and a start at or past the end gives nothing. */
  function Slice<T>(s: seq<T>, start: nat, end: nat): (r: seq<T>)
    ensures start >= end ==> r == []
    ensures start < end && end <= |s| ==> r == s[start..end]
    ensures forall k :: 0 <= k < |r| ==> start + k < |s| && r[k] == s[start + k]
  {
    var e := if end <= |s| then end else |s|;
    if start >= e then [] else s[start..e]
  }

  /** `visibleEntries`. */
  function Visible<T>(entries: seq<T>, scrollTop: nat, height: nat): seq<T> {
    Slice(entries, StartIndex(scrollTop), EndIndex(|entries|, scrollTop, height))
  }

  /** Row `i`'s band `[i*180, (i+1)*180)` meets the viewport `[scrollTop, scrollTop+height)`. */
  predicate OnScreen(i: nat, scrollTop: nat, height: nat) {
    i * RowHeight < scrollTop + height && scrollTop < (i + 1) * RowHeight
  }

  /** Every row that shows in the viewport is mounted, at its own index. */
  lemma {:induction false} VisibleCoversViewport<T>(entries: seq<T>, scrollTop: nat, height: nat, i: nat)
    requires i < |entries| && OnScreen(i, scrollTop, height)
    ensures StartIndex(scrollTop) <= i < EndIndex(|entries|, scrollTop, height)
    ensures Visible(entries, scrollTop, height)[i - StartIndex(scrollTop)] == entries[i]
  {
    var s, e := StartIndex(scrollTop), EndIndex(|entries|, scrollTop, height);
    assert s * RowHeight < (i + 1) * RowHeight;
    assert e == |entries| || i * RowHeight < e * RowHeight;
  }

  /** One mounted card: the entry, its `position` and its side. */
  datatype Item<T> = Item(entry: T, position: nat, isLeft: bool)

  /** `visibleEntries.map((entry, index) => ...)`: the `k`-th mounted card is
      drawn at absolute position `startIndex + k`, on the left for even positions. */
  function Items<T>(entries: seq<T>, scrollTop: nat, height: nat): (items: seq<Item<T>>)
    ensures |items| == |Visible(entries, scrollTop, height)|
    ensures forall k :: 0 <= k < |items| ==>
              && items[k].position == StartIndex(scrollTop) + k
              && items[k].position < |entries|
              && items[k].entry == entries[items[k].position]
              && (items[k].isLeft <==> items[k].position % 2 == 0)
  {
    var start := StartIndex(scrollTop);
    var vis := Visible(entries, scrollTop, height);
    seq(|vis|, k requires 0 <= k < |vis| => Item(vis[k], start + k, (start + k) % 2 == 0))
  }

  /** Scrolling never moves a card: wherever the window is, row `i` is drawn
      at position `i`, on the same side, at the same offset. */
  lemma PlacementIgnoresScroll<T>(entries: seq<T>, top1: nat, h1: nat, k1: nat, top2: nat, h2: nat, k2: nat)
    requires k1 < |Items(entries, top1, h1)| && k2 < |Items(entries, top2, h2)|
    requires Items(entries, top1, h1)[k1].position == Items(entries, top2, h2)[k2].position
    ensures Items(entries, top1, h1)[k1] == Items(entries, top2, h2)[k2]
    ensures var it := Items(entries, top1, h1)[k1];
      EntryCard.Place(it.position, it.isLeft) == EntryCard.Place(it.position, it.position % 2 == 0)
  {
  }

  // ---------------------------------------------------------------------------
  // Loading and searching

  /** The page's list and its loading flag. */
  datatype Page = Page(entries: seq<EntryApi.EntryRecord>, isLoading: bool)

  /** The arguments `searchEntries` hands to `search`, as the entity declares
      them: the trimmed query and the selected timetable. */
  function SearchArgsFor(query: string, timetableId: Option<int>): (a: EntryApi.SearchArgs)
    ensures a.query == Some(query) && a.timetableId == timetableId
    ensures a.startDate.None? && a.endDate.None? && a.tags.None?
  {
    EntryApi.SearchArgs(Some(query), timetableId, None, None, None)
  }

  /** The arguments `search(query, timetableId)` receives when called with two
      positional values: its one destructured parameter is the query string,
      which has no `query` or `timetableId` property, so the query falls back
      to `''` and the timetable is `undefined`. */
  function PositionalSearchArgs(query: string, timetableId: Option<int>): (a: EntryApi.SearchArgs)
    ensures a.query.None? && a.timetableId.None?
  {
    EntryApi.SearchArgs(None, None, None, None, None)
  }

  /** The request the corrected `handleSearch` issues, with `search` called as
      `search({ query, timetableId })`: none without a timetable; the plain
      list for a blank query; otherwise a search for the trimmed query. */
  function SearchRequest(search: string, timetableId: Option<int>): (r: Option<EntryApi.Request>)
    ensures r.Some? <==> NumTruthy(timetableId)
    ensures r.Some? && AllSpace(search) ==> r.value == EntryApi.List(timetableId)
    ensures r.Some? && !AllSpace(search) ==>
              && r.value.url.path == EntryApi.EntriesPath + "/search"
              && Http.ParamGet(r.value.url.query, "q") == Some(Trim(search))
              && Http.ParamGet(r.value.url.query, "timetableId") == Some(EntryApi.IdText(timetableId))
  {
    TrimEmptyIffAllSpace(search);
    if !NumTruthy(timetableId) then None
    else if Trim(search) == "" then Some(EntryApi.List(timetableId))
    else Some(EntryApi.Search(SearchArgsFor(Trim(search), timetableId)))
  }

  /** `handleSearch` as written, with the positional call: a search request
      that names no query and the timetable `undefined`. */
  function SearchRequestAsWritten(search: string, timetableId: Option<int>): (r: Option<EntryApi.Request>)
    ensures r.Some? <==> NumTruthy(timetableId)
  {
    if !NumTruthy(timetableId) then None
    else if Trim(search) == "" then Some(EntryApi.List(timetableId))
    else Some(EntryApi.Search(PositionalSearchArgs(Trim(search), timetableId)))
  }

  /** Whatever is typed, the positional call drops the query and sends the
      timetable as "undefined". */
  lemma PositionalSearchLosesArguments(search: string, timetableId: Option<int>)
    requires NumTruthy(timetableId) && !AllSpace(search)
    ensures var r := SearchRequestAsWritten(search, timetableId).value;
      && Http.ParamGet(r.url.query, "q").None?
      && Http.ParamGet(r.url.query, "timetableId") == Some("undefined")
      && Http.ParamGet(SearchRequest(search, timetableId).value.url.query, "q") == Some(Trim(search))
  {
    TrimEmptyIffAllSpace(search);
  }

  /** The page after a fetch settles: the reply's rows on success, the old
      rows on failure, and not loading either way. */
  function Settled(p: Page, reply: Result<seq<EntryApi.EntryRecord>>): (p': Page)
    ensures !p'.isLoading
    ensures reply.Ok? ==> p'.entries == reply.value
    ensures reply.Failed? ==> p'.entries == p.entries
  {
    match reply
    case Ok(rows) => Page(rows, false)
    case Failed(_) => Page(p.entries, false)
  }

  /** The outcome of a user action: the request issued, if any, and the page
      once its reply (given) has settled. */
  datatype Step = Step(request: Option<EntryApi.Request>, page: Page)

  /** The corrected `handleSearch`, through `loadEntries` or `searchEntries`
      with the named-argument call. Without a timetable both return at once:
      nothing is sent and the page is untouched. */
  function HandleSearch(p: Page, search: string, timetableId: Option<int>,
                        reply: Result<seq<EntryApi.EntryRecord>>): (s: Step)
    ensures s.request == SearchRequest(search, timetableId)
    ensures s.request.None? ==> s.page == p
    ensures s.request.Some? ==> s.page == Settled(p, reply)
  {
    var req := SearchRequest(search, timetableId);
    if req.None? then Step(None, p) else Step(req, Settled(p, reply))
  }
  /** `handleSearch` as written: the same steps, but a non-blank search goes
      out with the positional call. */
  function HandleSearchAsWritten(p: Page, search: string, timetableId: Option<int>,
                                 reply: Result<seq<EntryApi.EntryRecord>>): (s: Step)
    ensures s.request == SearchRequestAsWritten(search, timetableId)
    ensures s.request.None? ==> s.page == p
    ensures s.request.Some? ==> s.page == Settled(p, reply)
  {
    var req := SearchRequestAsWritten(search, timetableId);
    if req.None? then Step(None, p) else Step(req, Settled(p, reply))
  }

  /** The page as written and the corrected page differ only in a non-blank
      search: a blank one reloads the list in both. */
  lemma {:induction false} AsWrittenDiffersOnlyInSearch(p: Page, search: string, timetableId: Option<int>,
                                                         reply: Result<seq<EntryApi.EntryRecord>>)
    ensures AllSpace(search) ==>
              HandleSearchAsWritten(p, search, timetableId, reply) == HandleSearch(p, search, timetableId, reply)
    ensures !AllSpace(search) && NumTruthy(timetableId) ==>
              HandleSearchAsWritten(p, search, timetableId, reply).request != HandleSearch(p, search, timetableId, reply).request
  {
    TrimEmptyIffAllSpace(search);
    if !AllSpace(search) && NumTruthy(timetableId) {
      PositionalSearchLosesArguments(search, timetableId);
    }
  }


  /** The effect on `[timetableId]`: with a timetable, `loadEntries`; without
      one, an empty list, loading off, and nothing sent. */
  function SelectTimetable(p: Page, timetableId: Option<int>, reply: Result<seq<EntryApi.EntryRecord>>): (s: Step)
    ensures !s.page.isLoading
    ensures s.request.Some? <==> NumTruthy(timetableId)
    ensures s.request.Some? ==> s.request.value == EntryApi.List(timetableId) && s.page == Settled(p, reply)
    ensures s.request.None? ==> s.page.entries == []
  {
    if NumTruthy(timetableId) then Step(Some(EntryApi.List(timetableId)), Settled(p, reply))
    else Step(None, Page([], false))
  }

  /** A blank search is exactly a reload: it sends what selecting the same
      timetable sends, and settles the same way. */
  lemma BlankSearchIsReload(p: Page, search: string, timetableId: Option<int>,
                            reply: Result<seq<EntryApi.EntryRecord>>)
    requires AllSpace(search) && NumTruthy(timetableId)
    ensures HandleSearch(p, search, timetableId, reply) == SelectTimetable(p, timetableId, reply)
  {
  }
}

=== FILE: seqs.dfy ===
/** Sequence facts the database model leans on: a key that strictly increases
    along a table (autoincrement ids), a key no two rows share (unique
    columns), and filtering, which keeps both. */
module Seqs {

  /** `key` strictly increases along `s`. */
  predicate IncreasingBy<T>(s: seq<T>, key: T -> int) {
    forall i, j :: 0 <= i < j < |s| ==> key(s[i]) < key(s[j])
  }

  /** No two elements of `s` share a key. */
  predicate DistinctBy<T, K(==)>(s: seq<T>, key: T -> K) {
    forall i, j :: 0 <= i < j < |s| ==> key(s[i]) != key(s[j])
  }

  /** The elements of `s` that satisfy `keep`, in their original order. */
  function Filter<T(!new)>(s: seq<T>, keep: T -> bool): (r: seq<T>)
    ensures forall x :: x in r <==> x in s && keep(x)
    ensures |r| <= |s|
  {
    if |s| == 0 then []
    else if keep(s[0]) then [s[0]] + Filter(s[1..], keep)
    else Filter(s[1..], keep)
  }

  /** Filtering keeps a strictly increasing key strictly increasing. */
  lemma {:induction false} FilterIncreasing<T(!new)>(s: seq<T>, keep: T -> bool, key: T -> int)
    requires IncreasingBy(s, key)
    ensures IncreasingBy(Filter(s, keep), key)
  {
    if |s| > 0 {
      var tail := s[1..];
      assert IncreasingBy(tail, key) by {
        forall i, j | 0 <= i < j < |tail|
          ensures key(tail[i]) < key(tail[j])
        {
          assert tail[i] == s[i + 1] && tail[j] == s[j + 1];
        }
      }
      FilterIncreasing(tail, keep, key);
      if keep(s[0]) {
        var rest := Filter(tail, keep);
        forall j | 0 <= j < |rest|
          ensures key(s[0]) < key(rest[j])
        {
          assert rest[j] in tail;
          var k :| 0 <= k < |tail| && tail[k] == rest[j];
          assert s[k + 1] == rest[j];
        }
        var r := [s[0]] + rest;
        forall i, j | 0 <= i < j < |r|
          ensures key(r[i]) < key(r[j])
        {
          if i == 0 {
            assert r[j] == rest[j - 1];
          } else {
            assert r[i] == rest[i - 1] && r[j] == rest[j - 1];
          }
        }
      }
    }
  }

  /** Filtering keeps keys distinct. */
  lemma {:induction false} FilterDistinct<T(!new), K>(s: seq<T>, keep: T -> bool, key: T -> K)
    requires DistinctBy(s, key)
    ensures DistinctBy(Filter(s, keep), key)
  {
    if |s| > 0 {
      var tail := s[1..];
      assert DistinctBy(tail, key) by {
        forall i, j | 0 <= i < j < |tail|
          ensures key(tail[i]) != key(tail[j])
        {
          assert tail[i] == s[i + 1] && tail[j] == s[j + 1];
        }
      }
      FilterDistinct(tail, keep, key);
      if keep(s[0]) {
        var rest := Filter(tail, keep);
        forall j | 0 <= j < |rest|
          ensures key(s[0]) != key(rest[j])
        {
          assert rest[j] in tail;
          var k :| 0 <= k < |tail| && tail[k] == rest[j];
          assert s[k + 1] == rest[j];
        }
        var r := [s[0]] + rest;
        forall i, j | 0 <= i < j < |r|
          ensures key(r[i]) != key(r[j])
        {
          if i == 0 {
            assert r[j] == rest[j - 1];
          } else {
            assert r[i] == rest[i - 1] && r[j] == rest[j - 1];
          }
        }
      }
    }
  }

  /** Appending an element whose key exceeds every key keeps the key increasing. */
  lemma AppendIncreasing<T>(s: seq<T>, x: T, key: T -> int)
    requires IncreasingBy(s, key)
    requires forall y :: y in s ==> key(y) < key(x)
    ensures IncreasingBy(s + [x], key)
  {
    var r := s + [x];
    forall i, j | 0 <= i < j < |r|
      ensures key(r[i]) < key(r[j])
    {
      assert r[i] == s[i];
      if j < |s| {
        assert r[j] == s[j];
      } else {
        assert s[i] in s;
      }
    }
  }

  /** Appending an element with a key no element has keeps keys distinct. */
  lemma AppendDistinct<T, K>(s: seq<T>, x: T, key: T -> K)
    requires DistinctBy(s, key)
    requires forall y :: y in s ==> key(y) != key(x)
    ensures DistinctBy(s + [x], key)
  {
    var r := s + [x];
    forall i, j | 0 <= i < j < |r|
      ensures key(r[i]) != key(r[j])
    {
      assert r[i] == s[i];
      if j < |s| {
        assert r[j] == s[j];
      } else {
        assert s[i] in s;
      }
    }
  }
}

=== FILE: server.dfy ===
/** The Express API: the login route, the `/api` bearer-token gate, and the
    timetable and entry handlers, each a pure transition over an abstract
    store. Prisma calls are read declaratively (filter, order by date, upsert
    by name, delete). A Prisma call that would throw (a failed foreign key,
    deleting a missing row, an Invalid Date, a NaN filter) makes the async
    handler reject: no reply is sent, and whatever the handler already wrote
    stays written. bcrypt, JWT signing and JWT verification are oracles. */
module Server {
  import opened Common
  import Dates
  import Sorting
  import Http

  import Seqs

  datatype Timetable = Timetable(id: int, name: string)

  /** A stored `timelineEntry` row. `description` is `None` when the create
      request carried none (the handler passes it through unchecked). */
  datatype Entry = Entry(id: int, title: string, description: Option<string>, date: Dates.DateTime,
                         precision: string, timetableId: int, createdAt: int)

  /** The database: both tables, and the next autoincrement id of each. */
  datatype Store = Store(timetables: seq<Timetable>, entries: seq<Entry>, nextTimetableId: int, nextEntryId: int)

  function TimetableId(t: Timetable): int { t.id }
  function TimetableName(t: Timetable): string { t.name }
  function EntryId(e: Entry): int { e.id }

  predicate HasTimetable(ts: seq<Timetable>, id: int) {
    exists t :: t in ts && t.id == id
  }

  /** Timetable names are unique (the `name` column is the upsert key). */
  predicate NamesUnique(ts: seq<Timetable>) {
    Seqs.DistinctBy(ts, TimetableName)
  }

  /** The database invariants: unique names, autoincrement ids that increase
      along each table and stay below the next id to hand out, and every entry
      pointing at an existing timetable (the foreign key). */
  predicate Good(st: Store) {
    && NamesUnique(st.timetables)
    && Seqs.IncreasingBy(st.timetables, TimetableId)
    && Seqs.IncreasingBy(st.entries, EntryId)
    && (forall t :: t in st.timetables ==> t.id < st.nextTimetableId)
    && (forall e :: e in st.entries ==> e.id < st.nextEntryId)
    && (forall e :: e in st.entries ==> HasTimetable(st.timetables, e.timetableId))
  }

  /** A fresh database satisfies the invariants, and they pin ids down: no two
      rows of a table share an id. */
  lemma GoodIdsAreKeys(st: Store)
    requires Good(st)
    ensures Good(Store([], [], 1, 1))
    ensures forall i, j :: 0 <= i < j < |st.entries| ==> st.entries[i].id != st.entries[j].id
    ensures forall i, j :: 0 <= i < j < |st.timetables| ==> st.timetables[i].id != st.timetables[j].id
  {
    forall i, j | 0 <= i < j < |st.entries|
      ensures st.entries[i].id != st.entries[j].id
    {
      assert EntryId(st.entries[i]) < EntryId(st.entries[j]);
    }
    forall i, j | 0 <= i < j < |st.timetables|
      ensures st.timetables[i].id != st.timetables[j].id
    {
      assert TimetableId(st.timetables[i]) < TimetableId(st.timetables[j]);
    }
  }

  // ---------------------------------------------------------------------------
  // Requests and replies

  datatype LoginBody = LoginBody(username: Option<string>, password: Option<string>)

  /** The fields a create request's body, or one bulk row, may carry. */
  datatype EntryFields = EntryFields(title: Option<string>, description: Option<string>, date: Option<string>,
                                     precision: Option<string>, timetableId: Option<int>)

  /** `req.body.entries`: an array of rows, or anything else (absent included). */
  datatype EntriesField = NotAnArray | Rows(rows: seq<EntryFields>)

  datatype BulkBody = BulkBody(entries: EntriesField, timetableId: Option<int>)

  /** The routes the server declares, and any other path under `/api`. */
  datatype Route =
    | Login(login: LoginBody)
    | ListTimetables
    | CreateTimetable(name: Option<string>)
    | DeleteTimetable(idParam: string)
    | DeleteAllTimetables
    | SearchEntries(searchQuery: Http.Params)
    | ListEntries(listQuery: Http.Params)
    | CreateEntry(fields: EntryFields)
    | BulkCreate(bulk: BulkBody)
    | DeleteEntry(entryIdParam: string)
    | Unrouted(path: string)

  datatype Payload =
    | ErrorMessage(error: string)
    | TokenPayload(token: string)
    | TimetablePayload(timetable: Timetable)
    | TimetablesPayload(timetables: seq<Timetable>)
    | EntryPayload(entry: Entry)
    | EntriesPayload(entries: seq<Entry>)
    | SuccessPayload
    | NotFoundPage

  /** A JSON reply with its status, or a rejected handler that never replies. */
  datatype Response = Reply(status: int, payload: Payload) | Rejected

  datatype Outcome = Outcome(response: Response, store: Store)

  datatype User = User(id: int, username: string, passwordHash: string)

  /** What the server cannot compute itself: the user table, `bcrypt.compare`,
      `jwt.sign` and `jwt.verify`. */
  datatype Oracles = Oracles(users: map<string, User>, passwordMatches: (string, string) -> bool,
                             sign: (int, string) -> string, tokenValid: string -> bool)

  // ---------------------------------------------------------------------------
  // Login and the /api gate

  /** `POST /api/login`: 400 for a missing field, one 401 message for both an
      unknown user and a wrong password, otherwise a signed token. */
  function HandleLogin(b: LoginBody, o: Oracles): (r: Response)
    ensures !Truthy(b.username) || !Truthy(b.password) ==> r == Reply(400, ErrorMessage("Missing fields"))
    ensures Truthy(b.username) && Truthy(b.password) && b.username.value !in o.users ==>
              r == Reply(401, ErrorMessage("Invalid credentials"))
    ensures r.Reply? && r.status in {200, 400, 401}
    ensures Truthy(b.username) && Truthy(b.password) && r.status != 200 ==>
              r == Reply(401, ErrorMessage("Invalid credentials"))
    ensures r.status == 200 <==>
              && Truthy(b.username) && Truthy(b.password) && b.username.value in o.users
              && o.passwordMatches(b.password.value, o.users[b.username.value].passwordHash)
    ensures r.status == 200 ==>
              var u := o.users[b.username.value]; r.payload == TokenPayload(o.sign(u.id, u.username))
  {
    if !Truthy(b.username) || !Truthy(b.password) then Reply(400, ErrorMessage("Missing fields"))
    else if b.username.value !in o.users then Reply(401, ErrorMessage("Invalid credentials"))
    else
      var u := o.users[b.username.value];
      if !o.passwordMatches(b.password.value, u.passwordHash) then Reply(401, ErrorMessage("Invalid credentials"))
      else Reply(200, TokenPayload(o.sign(u.id, u.username)))
  }

  datatype GateDecision = Pass | Deny(message: string)

  /** `authHeader.split(' ')[1]`: the second space-separated piece, if any. */
  function BearerToken(header: string): Option<string> {
    var parts := Split(header, ' ');
    if |parts| >= 2 then Some(parts[1]) else None
  }

  /** The `/api` middleware: `/login` passes, a missing or empty Authorization
      header is "Unauthorized", a token that does not verify is "Invalid token". */
  function Gate(path: string, authorization: Option<string>, tokenValid: string -> bool): (d: GateDecision)
    ensures path != "/login" && !Truthy(authorization) ==> d == Deny("Unauthorized")
    ensures d.Pass? <==>
              path == "/login"
              || (Truthy(authorization) && BearerToken(authorization.value).Some?
                  && tokenValid(BearerToken(authorization.value).value))
  {
    if path == "/login" then Pass
    else if !Truthy(authorization) then Deny("Unauthorized")
    else
      var token := BearerToken(authorization.value);
      if token.Some? && tokenValid(token.value) then Pass else Deny("Invalid token")
  }

  /** `"Bearer " + token` yields `token` back when the token holds no space. */
  lemma BearerTokenOfHeader(token: string)
    requires ' ' !in token
    ensures BearerToken("Bearer " + token) == Some(token)
  {
    var parts := ["Bearer", token];
    assert Join(parts, ' ') == "Bearer " + token;
    SplitJoin(parts, ' ');
  }

  /** The path the middleware sees (`req.path` under the `/api` mount). */
  function RoutePath(r: Route): string {
    match r
    case Login(_) => "/login"
    case ListTimetables => "/timetables"
    case CreateTimetable(_) => "/timetables"
    case DeleteTimetable(id) => "/timetables/" + id
    case DeleteAllTimetables => "/timetables"
    case SearchEntries(_) => "/entries/search"
    case ListEntries(_) => "/entries"
    case CreateEntry(_) => "/entries"
    case BulkCreate(_) => "/entries/bulk"
    case DeleteEntry(id) => "/entries/" + id
    case Unrouted(p) => p
  }

  // ---------------------------------------------------------------------------
  // Timetables

  /** The position of the timetable called `name` (Prisma's `where: { name }`). */
  function IndexOfName(ts: seq<Timetable>, name: string): (r: Option<nat>)
    ensures r.Some? ==> r.value < |ts| && ts[r.value].name == name
    ensures r.None? <==> forall t :: t in ts ==> t.name != name
  {
    if |ts| == 0 then None
    else if ts[0].name == name then Some(0)
    else
      var r := IndexOfName(ts[1..], name);
      assert ts == [ts[0]] + ts[1..];
      if r.Some? then Some(r.value + 1) else None
  }

  /** `GET /api/timetables`: every timetable, in storage order. */
  function ListTimetablesReply(st: Store): (o: Outcome)
    ensures o.store == st
    ensures o.response.Reply? && o.response.status == 200 && o.response.payload.TimetablesPayload?
    ensures forall t :: t in o.response.payload.timetables <==> t in st.timetables
  {
    Outcome(Reply(200, TimetablesPayload(st.timetables)), st)
  }

  /** `POST /api/timetables`: 400 without a name; otherwise `upsert` by name,
      answering the existing row unchanged or a newly appended one. */
  function CreateTimetableReply(st: Store, name: Option<string>): (o: Outcome)
    ensures !Truthy(name) ==> o == Outcome(Reply(400, ErrorMessage("Name required")), st)
    ensures Truthy(name) ==>
              && o.response.Reply? && o.response.status == 200 && o.response.payload.TimetablePayload?
              && o.response.payload.timetable.name == name.value
              && o.response.payload.timetable in o.store.timetables
              && o.store.entries == st.entries
    ensures Truthy(name) && (exists t :: t in st.timetables && t.name == name.value) ==>
              o.store == st && o.response.payload.timetable in st.timetables
    ensures Truthy(name) && (forall t :: t in st.timetables ==> t.name != name.value) ==>
              o.store.timetables == st.timetables + [o.response.payload.timetable]
    ensures Good(st) ==> Good(o.store)
  {
    if !Truthy(name) then Outcome(Reply(400, ErrorMessage("Name required")), st)
    else
      match IndexOfName(st.timetables, name.value)
      case Some(i) => Outcome(Reply(200, TimetablePayload(st.timetables[i])), st)
      case None =>
        var t := Timetable(st.nextTimetableId, name.value);
        var st' := st.(timetables := st.timetables + [t], nextTimetableId := st.nextTimetableId + 1);
        assert Good(st) ==> Good(st') by {
          if Good(st) {
            Seqs.AppendDistinct(st.timetables, t, TimetableName);
            Seqs.AppendIncreasing(st.timetables, t, TimetableId);
            forall e | e in st'.entries
              ensures HasTimetable(st'.timetables, e.timetableId)
            {
              var u :| u in st.timetables && u.id == e.timetableId;
              assert u in st'.timetables;
            }
          }
        }
        Outcome(Reply(200, TimetablePayload(t)), st')
  }

  /** Creating a timetable a second time under the same name changes nothing
      and answers the same row. */
  lemma CreateTwiceIsIdempotent(st: Store, name: string)
    requires name != ""
    ensures var once := CreateTimetableReply(st, Some(name));
            CreateTimetableReply(once.store, Some(name)) == once
  {
    var once := CreateTimetableReply(st, Some(name));
    var ts := st.timetables;
    if IndexOfName(ts, name).None? {
      var ts2 := once.store.timetables;
      assert ts2[|ts|] == once.response.payload.timetable && ts2[|ts|] in ts2;
      assert forall k :: 0 <= k < |ts| ==> ts2[k] == ts[k] && ts[k] in ts;
    }
  }

  /** `timelineEntry.deleteMany({ where: { timetableId } })`: the entries of
      other timetables, in their order. */
  function EntriesNotOf(es: seq<Entry>, id: int): (r: seq<Entry>)
    ensures forall e :: e in r <==> e in es && e.timetableId != id
    ensures Seqs.IncreasingBy(es, EntryId) ==> Seqs.IncreasingBy(r, EntryId)
  {
    var keep := (e: Entry) => e.timetableId != id;
    if Seqs.IncreasingBy(es, EntryId) then
      Seqs.FilterIncreasing(es, keep, EntryId);
      Seqs.Filter(es, keep)
    else
      Seqs.Filter(es, keep)
  }

  /** `timetable.delete({ where: { id } })` on a table holding that id: the other rows, in order. */
  function TimetablesWithout(ts: seq<Timetable>, id: int): (r: seq<Timetable>)
    ensures forall t :: t in r <==> t in ts && t.id != id
    ensures NamesUnique(ts) ==> NamesUnique(r)
    ensures Seqs.IncreasingBy(ts, TimetableId) ==> Seqs.IncreasingBy(r, TimetableId)
  {
    var keep := (t: Timetable) => t.id != id;
    assert NamesUnique(ts) ==> NamesUnique(Seqs.Filter(ts, keep)) by {
      if NamesUnique(ts) {
        Seqs.FilterDistinct(ts, keep, TimetableName);
      }
    }
    assert Seqs.IncreasingBy(ts, TimetableId) ==> Seqs.IncreasingBy(Seqs.Filter(ts, keep), TimetableId) by {
      if Seqs.IncreasingBy(ts, TimetableId) {
        Seqs.FilterIncreasing(ts, keep, TimetableId);
      }
    }
    Seqs.Filter(ts, keep)
  }

  /** `DELETE /api/timetables/:id`: deletes the timetable's entries, then the
      timetable itself. A NaN id rejects before anything is written; an id
      naming no timetable rejects after the (then empty) entry delete. */
  function DeleteTimetableReply(st: Store, idParam: string): (o: Outcome)
    ensures ToNumber(idParam).None? ==> o == Outcome(Rejected, st)
    ensures ToNumber(idParam).Some? ==>
              var id := ToNumber(idParam).value;
              && (forall e :: e in o.store.entries <==> e in st.entries && e.timetableId != id)
              && (forall t :: t in o.store.timetables <==> t in st.timetables && t.id != id)
              && (o.response.Reply? <==> HasTimetable(st.timetables, id))
              && (o.response.Reply? ==> o.response == Reply(200, SuccessPayload))
    ensures Good(st) ==> Good(o.store)
  {
    match ToNumber(idParam)
    case None => Outcome(Rejected, st)
    case Some(id) =>
      var kept := EntriesNotOf(st.entries, id);
      if !HasTimetable(st.timetables, id) then
        Outcome(Rejected, st.(entries := kept))
      else
        var ts := TimetablesWithout(st.timetables, id);
        var st' := st.(entries := kept, timetables := ts);
        assert Good(st) ==> Good(st') by {
          if Good(st) {
            forall e | e in kept
              ensures HasTimetable(ts, e.timetableId)
            {
              var u :| u in st.timetables && u.id == e.timetableId;
              assert u in ts;
            }
          }
        }
        Outcome(Reply(200, SuccessPayload), st')
  }

  /** `DELETE /api/timetables`: both tables emptied. */
  function DeleteAllReply(st: Store): (o: Outcome)
    ensures o.response == Reply(200, SuccessPayload)
    ensures o.store.entries == [] && o.store.timetables == []
    ensures Good(st) ==> Good(o.store)
  {
    Outcome(Reply(200, SuccessPayload), st.(entries := [], timetables := []))
  }

  // ---------------------------------------------------------------------------
  // Listing and searching entries

  /** `where: { timetableId }` */
  function EntriesOf(es: seq<Entry>, id: int): (r: seq<Entry>)
    ensures forall e :: e in r <==> e in es && e.timetableId == id
    ensures multiset(r) <= multiset(es)
  {
    if |es| == 0 then []
    else
      assert es == [es[0]] + es[1..];
      if es[0].timetableId == id then [es[0]] + EntriesOf(es[1..], id) else EntriesOf(es[1..], id)
  }

  /** `where: { timetableId, OR: [{ title: { contains: q } }, { description: { contains: q } }] }`;
      a null description never matches. */
  predicate Matches(e: Entry, q: string) {
    Contains(e.title, q) || (e.description.Some? && Contains(e.description.value, q))
  }

  function MatchingEntries(es: seq<Entry>, id: int, q: string): (r: seq<Entry>)
    ensures forall e :: e in r <==> e in es && e.timetableId == id && Matches(e, q)
    ensures multiset(r) <= multiset(es)
  {
    if |es| == 0 then []
    else
      assert es == [es[0]] + es[1..];
      if es[0].timetableId == id && Matches(es[0], q) then [es[0]] + MatchingEntries(es[1..], id, q)
      else MatchingEntries(es[1..], id, q)
  }

  /** Each matching entry is kept as often as it is stored, and no other one. */
  lemma {:induction false} MatchingCounts(es: seq<Entry>, id: int, q: string)
    ensures forall e :: multiset(MatchingEntries(es, id, q))[e]
                     == if e.timetableId == id && Matches(e, q) then multiset(es)[e] else 0
  {
    if |es| > 0 {
      MatchingCounts(es[1..], id, q);
      assert es == [es[0]] + es[1..];
    }
  }

  /** The sort key of `orderBy: { date: 'asc' }`. */
  function DateKey(e: Entry): int {
    Dates.Rank(e.date)
  }

  /** `Number(req.query.timetableId)`, NaN (`None`) when absent or not a number. */
  function QueryTimetable(query: Http.Params): Option<int> {
    OptToNumber(Http.ParamGet(query, "timetableId"))
  }

  /** `req.query.q || ''` */
  function QueryText(query: Http.Params): string {
    var q := Http.ParamGet(query, "q");
    if Truthy(q) then q.value else ""
  }

  /** `GET /api/entries`: the timetable's entries, oldest date first. */
  function ListEntriesReply(st: Store, query: Http.Params): (o: Outcome)
    ensures o.store == st
    ensures QueryTimetable(query).None? ==> o.response == Rejected
    ensures QueryTimetable(query).Some? ==>
              && o.response.Reply? && o.response.status == 200 && o.response.payload.EntriesPayload?
              && var r := o.response.payload.entries;
              && Sorting.SortedBy(r, DateKey)
              && multiset(r) == multiset(EntriesOf(st.entries, QueryTimetable(query).value))
              && (forall e :: e in r <==> e in st.entries && e.timetableId == QueryTimetable(query).value)
  {
    match QueryTimetable(query)
    case None => Outcome(Rejected, st)
    case Some(id) =>
      var r := Sorting.SortBy(EntriesOf(st.entries, id), DateKey);
      assert forall e :: e in r <==> e in multiset(r);
      Outcome(Reply(200, EntriesPayload(r)), st)
  }

  /** `GET /api/entries/search`: the timetable's entries whose title or
      description contains `q`, oldest date first. Only `q` and `timetableId`
      are read; `startDate`, `endDate` and `tags` are ignored. */
  function SearchEntriesReply(st: Store, query: Http.Params): (o: Outcome)
    ensures o.store == st
    ensures QueryTimetable(query).None? ==> o.response == Rejected
    ensures QueryTimetable(query).Some? ==>
              && o.response.Reply? && o.response.status == 200 && o.response.payload.EntriesPayload?
              && var r := o.response.payload.entries;
              && Sorting.SortedBy(r, DateKey)
              && multiset(r) == multiset(MatchingEntries(st.entries, QueryTimetable(query).value, QueryText(query)))
              && (forall e :: e in r <==>
                    e in st.entries && e.timetableId == QueryTimetable(query).value && Matches(e, QueryText(query)))
  {
    match QueryTimetable(query)
    case None => Outcome(Rejected, st)
    case Some(id) =>
      var r := Sorting.SortBy(MatchingEntries(st.entries, id, QueryText(query)), DateKey);
      assert forall e :: e in r <==> e in multiset(r);
      Outcome(Reply(200, EntriesPayload(r)), st)
  }

  lemma {:induction false} MatchingEmptyIsEntriesOf(es: seq<Entry>, id: int)
    ensures MatchingEntries(es, id, "") == EntriesOf(es, id)
  {
    if |es| > 0 {
      ContainsEmpty(es[0].title);
      MatchingEmptyIsEntriesOf(es[1..], id);
    }
  }

  /** A search with no `q`, or an empty one, answers exactly what the list route answers. */
  lemma EmptySearchIsList(st: Store, query: Http.Params)
    requires !Truthy(Http.ParamGet(query, "q"))
    ensures SearchEntriesReply(st, query) == ListEntriesReply(st, query)
  {
    if QueryTimetable(query).Some? {
      MatchingEmptyIsEntriesOf(st.entries, QueryTimetable(query).value);
    }
  }


  // ---------------------------------------------------------------------------
  // Creating and deleting entries

  /** The three fields every stored row needs: `title`, `date`, `precision`. */
  predicate Complete(f: EntryFields) {
    Truthy(f.title) && Truthy(f.date) && Truthy(f.precision)
  }

  /** Stores `e` under the next entry id. */
  function AppendEntry(st: Store, e: Entry): (st': Store)
    requires e.id == st.nextEntryId
    ensures st'.entries == st.entries + [e] && st'.timetables == st.timetables
    ensures st'.nextEntryId == st.nextEntryId + 1 && st'.nextTimetableId == st.nextTimetableId
    ensures Good(st) && HasTimetable(st.timetables, e.timetableId) ==> Good(st')
  {
    if Good(st) then
      Seqs.AppendIncreasing(st.entries, e, EntryId);
      st.(entries := st.entries + [e], nextEntryId := st.nextEntryId + 1)
    else
      st.(entries := st.entries + [e], nextEntryId := st.nextEntryId + 1)
  }

  /** `POST /api/entries`: 400 when title, date, precision or timetableId is
      missing; otherwise exactly one new row carrying those fields, provided
      the date parses and the timetable exists. */
  function CreateEntryReply(st: Store, f: EntryFields, now: int): (o: Outcome)
    ensures !Complete(f) || !NumTruthy(f.timetableId) ==> o == Outcome(Reply(400, ErrorMessage("Missing fields")), st)
    ensures o.response.Rejected? ==> o.store == st
    ensures o.response.Reply? && o.response.status == 200 ==>
              && Complete(f) && NumTruthy(f.timetableId)
              && o.response.payload.EntryPayload?
              && var e := o.response.payload.entry;
              && o.store.entries == st.entries + [e]
              && o.store.timetables == st.timetables
              && e.id == st.nextEntryId
              && e.title == f.title.value && e.description == f.description
              && Dates.Parse(f.date.value) == Some(e.date)
              && e.precision == f.precision.value && e.timetableId == f.timetableId.value
              && e.createdAt == now
    ensures Complete(f) && NumTruthy(f.timetableId) ==>
              (o.response.Reply? <==>
                 Dates.Parse(f.date.value).Some? && HasTimetable(st.timetables, f.timetableId.value))
    ensures o.response.Reply? ==> o.response.status in {200, 400}
    ensures Complete(f) && NumTruthy(f.timetableId) && o.response.Reply? ==> o.response.status == 200
    ensures Good(st) ==> Good(o.store)
  {
    if !Complete(f) || !NumTruthy(f.timetableId) then Outcome(Reply(400, ErrorMessage("Missing fields")), st)
    else
      match Dates.Parse(f.date.value)
      case None => Outcome(Rejected, st)
      case Some(d) =>
        if !HasTimetable(st.timetables, f.timetableId.value) then Outcome(Rejected, st)
        else
          var e := Entry(st.nextEntryId, f.title.value, f.description, d, f.precision.value, f.timetableId.value, now);
          Outcome(Reply(200, EntryPayload(e)), AppendEntry(st, e))
  }

  /** `DELETE /api/entries/:id`: deletes that row; a NaN id or a missing row rejects. */
  function DeleteEntryReply(st: Store, idParam: string): (o: Outcome)
    ensures o.response.Rejected? ==> o.store == st
    ensures o.response.Reply? ==>
              && o.response == Reply(200, SuccessPayload)
              && ToNumber(idParam).Some?
              && o.store.timetables == st.timetables
              && (forall e :: e in o.store.entries <==> e in st.entries && e.id != ToNumber(idParam).value)
    ensures o.response.Reply? <==>
              ToNumber(idParam).Some? && exists e :: e in st.entries && e.id == ToNumber(idParam).value
    ensures Good(st) ==> Good(o.store)
  {
    match ToNumber(idParam)
    case None => Outcome(Rejected, st)
    case Some(id) =>
      if !exists e :: e in st.entries && e.id == id then Outcome(Rejected, st)
      else
        var keep := (e: Entry) => e.id != id;
        assert Good(st) ==> Good(st.(entries := Seqs.Filter(st.entries, keep))) by {
          if Good(st) {
            Seqs.FilterIncreasing(st.entries, keep, EntryId);
          }
        }
        Outcome(Reply(200, SuccessPayload), st.(entries := Seqs.Filter(st.entries, keep)))
  }

  // ---------------------------------------------------------------------------
  // Bulk import

  /** The complete rows, in input order: those the loop does not `continue` past. */
  function CompleteRows(rows: seq<EntryFields>): (r: seq<EntryFields>)
    ensures forall f :: f in r <==> f in rows && Complete(f)
    ensures |r| <= |rows|
  {
    if |rows| == 0 then []
    else
      assert rows == [rows[0]] + rows[1..];
      if Complete(rows[0]) then [rows[0]] + CompleteRows(rows[1..]) else CompleteRows(rows[1..])
  }

  /** When every row is complete, the loop skips none of them. */
  lemma {:induction false} AllCompleteKept(rows: seq<EntryFields>)
    requires forall k :: 0 <= k < |rows| ==> Complete(rows[k])
    ensures CompleteRows(rows) == rows
  {
    if |rows| > 0 {
      AllCompleteKept(rows[1..]);
      assert rows == [rows[0]] + rows[1..];
    }
  }

  /** The row `e` that one complete import row `f` becomes in timetable `tid`:
      `description` defaults to `''`, and the body's `timetableId` wins over
      any the row carries. */
  predicate Materializes(f: EntryFields, e: Entry, tid: int, now: int) {
    && Complete(f)
    && e.title == f.title.value
    && e.description == Some(if Truthy(f.description) then f.description.value else "")
    && Dates.Parse(f.date.value) == Some(e.date)
    && e.precision == f.precision.value
    && e.timetableId == tid
    && e.createdAt == now
  }

  /** Some complete row carries a date `new Date` cannot read. */
  predicate HasBadDate(rows: seq<EntryFields>) {
    exists f :: f in rows && Complete(f) && Dates.Parse(f.date.value).None?
  }

  /** A bad date is in the first row or in the rest. */
  lemma HasBadDateCons(rows: seq<EntryFields>)
    requires |rows| > 0
    ensures HasBadDate(rows) <==> (Complete(rows[0]) && Dates.Parse(rows[0].date.value).None?) || HasBadDate(rows[1..])
  {
    assert rows == [rows[0]] + rows[1..];
  }

  /** `created` is, position by position, what a prefix of `rows` becomes. */
  predicate MaterializedPrefix(rows: seq<EntryFields>, created: seq<Entry>, tid: int, now: int) {
    |created| <= |rows| && forall k :: 0 <= k < |created| ==> Materializes(rows[k], created[k], tid, now)
  }

  /** Prepending one materialized row to a materialized prefix. */
  lemma MaterializesCons(f: EntryFields, e: Entry, rest: seq<EntryFields>, created: seq<Entry>, tid: int, now: int)
    requires Materializes(f, e, tid, now) && MaterializedPrefix(rest, created, tid, now)
    ensures MaterializedPrefix([f] + rest, [e] + created, tid, now)
  {
    forall k | 0 <= k < |[e] + created|
      ensures Materializes(([f] + rest)[k], ([e] + created)[k], tid, now)
    {
      if k > 0 {
        assert ([f] + rest)[k] == rest[k - 1] && ([e] + created)[k] == created[k - 1];
      }
    }
  }

  datatype BulkRun = BulkRun(store: Store, created: seq<Entry>, failed: bool)

  /** The `for (const e of entries)` loop: skips incomplete rows, creates the
      others one at a time, and stops at the first create Prisma rejects.
      Rows created before that point stay created. */
  function InsertRows(st: Store, rows: seq<EntryFields>, tid: int, now: int): (run: BulkRun)
    ensures run.store.entries == st.entries + run.created
    ensures run.store.timetables == st.timetables
    ensures run.store.nextTimetableId == st.nextTimetableId
    ensures |run.created| <= |CompleteRows(rows)|
    ensures !run.failed ==> |run.created| == |CompleteRows(rows)|
    ensures run.failed <==> CompleteRows(rows) != [] && (!HasTimetable(st.timetables, tid) || HasBadDate(rows))
    ensures Good(st) ==> Good(run.store)
    decreases |rows|
  {
    if |rows| == 0 then BulkRun(st, [], false)
    else
      var f := rows[0];
      assert rows == [f] + rows[1..];
      HasBadDateCons(rows);
      if !Complete(f) then
        assert CompleteRows(rows) == CompleteRows(rows[1..]);
        InsertRows(st, rows[1..], tid, now)
      else
        assert CompleteRows(rows) == [f] + CompleteRows(rows[1..]);
        match Dates.Parse(f.date.value)
        case None => BulkRun(st, [], true)
        case Some(d) =>
          if !HasTimetable(st.timetables, tid) then BulkRun(st, [], true)
          else
            var desc := if Truthy(f.description) then f.description.value else "";
            var e := Entry(st.nextEntryId, f.title.value, Some(desc), d, f.precision.value, tid, now);
            var rest := InsertRows(AppendEntry(st, e), rows[1..], tid, now);
            BulkRun(rest.store, [e] + rest.created, rest.failed)
  }

  /** The rows the loop creates are, in order, what the complete input rows
      become: title, date and precision as given, the description defaulted
      to `''`, and the body's timetable. */
  lemma {:induction false} InsertRowsMaterializes(st: Store, rows: seq<EntryFields>, tid: int, now: int)
    ensures MaterializedPrefix(CompleteRows(rows), InsertRows(st, rows, tid, now).created, tid, now)
    decreases |rows|
  {
    if |rows| > 0 {
      var f := rows[0];
      assert rows == [f] + rows[1..];
      if !Complete(f) {
        InsertRowsMaterializes(st, rows[1..], tid, now);
      } else if Dates.Parse(f.date.value).Some? && HasTimetable(st.timetables, tid) {
        var d := Dates.Parse(f.date.value).value;
        var desc := if Truthy(f.description) then f.description.value else "";
        var e := Entry(st.nextEntryId, f.title.value, Some(desc), d, f.precision.value, tid, now);
        InsertRowsMaterializes(AppendEntry(st, e), rows[1..], tid, now);
        MaterializesCons(f, e, CompleteRows(rows[1..]), InsertRows(AppendEntry(st, e), rows[1..], tid, now).created, tid, now);
      }
    }
  }

  /** `POST /api/entries/bulk`: 400 for a non-array `entries` or a missing
      `timetableId`; otherwise every complete row created in order, or a
      rejection part-way that keeps the rows already created. */
  function BulkCreateReply(st: Store, b: BulkBody, now: int): (o: Outcome)
    ensures b.entries.NotAnArray? || !NumTruthy(b.timetableId) ==>
              o == Outcome(Reply(400, ErrorMessage("Entries array or timetableId missing")), st)
    ensures o.response.Reply? && o.response.status == 200 ==>
              && b.entries.Rows? && NumTruthy(b.timetableId)
              && o.response.payload.EntriesPayload?
              && var created := o.response.payload.entries;
              && var rows := CompleteRows(b.entries.rows);
              && |created| == |rows|
              && (forall k :: 0 <= k < |created| ==> Materializes(rows[k], created[k], b.timetableId.value, now))
              && o.store.entries == st.entries + created
              && o.store.timetables == st.timetables
    ensures b.entries.Rows? && NumTruthy(b.timetableId) ==>
              (o.response.Rejected? <==>
                 CompleteRows(b.entries.rows) != []
                 && (!HasTimetable(st.timetables, b.timetableId.value) || HasBadDate(b.entries.rows)))
    ensures b.entries.Rows? && NumTruthy(b.timetableId) && !o.response.Rejected? ==>
              o.response.Reply? && o.response.status == 200
    ensures exists created :: o.store.entries == st.entries + created
    ensures Good(st) ==> Good(o.store)
  {
    if b.entries.NotAnArray? || !NumTruthy(b.timetableId) then
      var o := Outcome(Reply(400, ErrorMessage("Entries array or timetableId missing")), st);
      assert o.store.entries == st.entries + [];
      o
    else
      var run := InsertRows(st, b.entries.rows, b.timetableId.value, now);
      InsertRowsMaterializes(st, b.entries.rows, b.timetableId.value, now);
      Outcome(if run.failed then Rejected else Reply(200, EntriesPayload(run.created)), run.store)
  }

  /** A bulk import into an existing timetable whose rows are all complete
      and readable creates every row, in order. */
  lemma BulkCreatesAllRows(st: Store, rows: seq<EntryFields>, tid: int, now: int)
    requires tid != 0 && HasTimetable(st.timetables, tid)
    requires forall k :: 0 <= k < |rows| ==> Complete(rows[k]) && Dates.Parse(rows[k].date.value).Some?
    ensures var o := BulkCreateReply(st, BulkBody(Rows(rows), Some(tid)), now);
      && o.response.Reply? && o.response.status == 200 && o.response.payload.EntriesPayload?
      && |o.response.payload.entries| == |rows|
      && MaterializedPrefix(rows, o.response.payload.entries, tid, now)
      && o.store.entries == st.entries + o.response.payload.entries
  {
    AllCompleteKept(rows);
    assert !HasBadDate(rows) by {
      forall f | f in rows && Complete(f) ensures Dates.Parse(f.date.value).Some? {
        var k :| 0 <= k < |rows| && rows[k] == f;
      }
    }
  }

  // ---------------------------------------------------------------------------
  // The whole server

  /** One request: `/api/login` is routed before the gate; every other path
      under `/api` must pass the gate before its handler (or Express's 404) runs. */
  function Dispatch(st: Store, route: Route, authorization: Option<string>, o: Oracles, now: int): (out: Outcome)
    ensures route.Login? ==> out == Outcome(HandleLogin(route.login, o), st)
    ensures !route.Login? && Gate(RoutePath(route), authorization, o.tokenValid).Deny? ==>
              out == Outcome(Reply(401, ErrorMessage(Gate(RoutePath(route), authorization, o.tokenValid).message)), st)
    ensures Good(st) ==> Good(out.store)
  {
    if route.Login? then Outcome(HandleLogin(route.login, o), st)
    else
      match Gate(RoutePath(route), authorization, o.tokenValid)
      case Deny(m) => Outcome(Reply(401, ErrorMessage(m)), st)
      case Pass =>
        match route
        case ListTimetables => ListTimetablesReply(st)
        case CreateTimetable(name) => CreateTimetableReply(st, name)
        case DeleteTimetable(id) => DeleteTimetableReply(st, id)
        case DeleteAllTimetables => DeleteAllReply(st)
        case SearchEntries(q) => SearchEntriesReply(st, q)
        case ListEntries(q) => ListEntriesReply(st, q)
        case CreateEntry(f) => CreateEntryReply(st, f, now)
        case BulkCreate(b) => BulkCreateReply(st, b, now)
        case DeleteEntry(id) => DeleteEntryReply(st, id)
        case Unrouted(_) => Outcome(Reply(404, NotFoundPage), st)
  }

  /** Without an Authorization header, every path but `/login` is refused with
      401 "Unauthorized" and the store is untouched. */
  lemma NoHeaderNoAccess(st: Store, route: Route, o: Oracles, now: int)
    requires RoutePath(route) != "/login"
    ensures Dispatch(st, route, None, o, now) == Outcome(Reply(401, ErrorMessage("Unauthorized")), st)
  {
  }

  /** The store after serving `routes` in order, each with its Authorization header. */
  function Run(st: Store, routes: seq<Route>, auths: seq<Option<string>>, o: Oracles, now: int): (st': Store)
    requires |auths| == |routes|
    ensures Good(st) ==> Good(st')
    decreases |routes|
  {
    if |routes| == 0 then st
    else Run(Dispatch(st, routes[0], auths[0], o, now).store, routes[1..], auths[1..], o, now)
  }
}

=== FILE: settings.dfy ===
/** The settings context: dark mode and the 12/24-hour clock, decoded from
    `localStorage` when the provider mounts, written back after every change,
    and handed out by `useSettings` only inside a provider. The storage is a
    string map passed in and returned; the `dark` class on the document root
    is not modelled. */
module Settings {
  import opened Common

  /** `'24h' | '12h'` */
  datatype TimeFormat = H24 | H12

  function TimeFormatName(tf: TimeFormat): string {
    match tf
    case H24 => "24h"
    case H12 => "12h"
  }

  /** `stored ? stored === 'true' : false`: absent and empty both mean off. */
  function DecodeDarkMode(stored: Option<string>): (on: bool)
    ensures on <==> stored == Some("true")
    ensures !Truthy(stored) ==> !on
  {
    if Truthy(stored) then stored.value == "true" else false
  }

  /** `String(darkMode)` */
  function EncodeDarkMode(on: bool): (s: string)
    ensures s != ""
  {
    if on then "true" else "false"
  }

  /** Writing dark mode with `String(...)` and reading it back gives the same flag. */
  lemma DarkModeRoundTrip(on: bool)
    ensures DecodeDarkMode(Some(EncodeDarkMode(on))) == on
  {
  }

  /** `stored === '12h' ? '12h' : '24h'`: anything else, absent included, is 24-hour. */
  function DecodeTimeFormat(stored: Option<string>): (tf: TimeFormat)
    ensures tf == H12 <==> stored == Some("12h")
  {
    if stored == Some("12h") then H12 else H24
  }

  /** Storing a time format and reading it back gives the same format. */
  lemma TimeFormatRoundTrip(tf: TimeFormat)
    ensures DecodeTimeFormat(Some(TimeFormatName(tf))) == tf
  {
  }

  type Storage = map<string, string>

  function Lookup(storage: Storage, key: string): Option<string> {
    if key in storage then Some(storage[key]) else None
  }

  datatype Settings = Settings(darkMode: bool, timeFormat: TimeFormat)

  const Defaults: Settings := Settings(false, H24)

  /** The two `useState` initialisers: the defaults without `window`,
      otherwise the decoded stored values. */
  function Initial(hasWindow: bool, storage: Storage): (s: Settings)
    ensures !hasWindow ==> s == Defaults
    ensures hasWindow ==> s.darkMode == (Lookup(storage, "darkMode") == Some("true"))
    ensures hasWindow ==> (s.timeFormat == H12 <==> Lookup(storage, "timeFormat") == Some("12h"))
  {
    if !hasWindow then Defaults
    else Settings(DecodeDarkMode(Lookup(storage, "darkMode")), DecodeTimeFormat(Lookup(storage, "timeFormat")))
  }

  /** The two effects: each writes its own key and leaves every other key alone. */
  function Persist(s: Settings, storage: Storage): (storage': Storage)
    ensures Lookup(storage', "darkMode") == Some(EncodeDarkMode(s.darkMode))
    ensures Lookup(storage', "timeFormat") == Some(TimeFormatName(s.timeFormat))
    ensures forall k :: k != "darkMode" && k != "timeFormat" ==> Lookup(storage', k) == Lookup(storage, k)
  {
    storage["darkMode" := EncodeDarkMode(s.darkMode)]["timeFormat" := TimeFormatName(s.timeFormat)]
  }

  /** What a provider persisted is what the next provider starts with. */
  lemma ReloadRoundTrip(s: Settings, storage: Storage)
    ensures Initial(true, Persist(s, storage)) == s
  {
    DarkModeRoundTrip(s.darkMode);
    TimeFormatRoundTrip(s.timeFormat);
  }

  /** `setDarkMode(value)`: only dark mode changes. */
  function SetDarkMode(s: Settings, on: bool): (s': Settings)
    ensures s'.darkMode == on && s'.timeFormat == s.timeFormat
  {
    s.(darkMode := on)
  }

  /** `setTimeFormat(format)`: only the time format changes. */
  function SetTimeFormat(s: Settings, tf: TimeFormat): (s': Settings)
    ensures s'.timeFormat == tf && s'.darkMode == s.darkMode
  {
    s.(timeFormat := tf)
  }

  /** The setters commute: they touch disjoint fields. */
  lemma SettersCommute(s: Settings, on: bool, tf: TimeFormat)
    ensures SetTimeFormat(SetDarkMode(s, on), tf) == SetDarkMode(SetTimeFormat(s, tf), on)
  {
  }

  const OutsideProvider: string := "useSettings must be used within SettingsProvider"

  /** `useSettings()`: the context value inside a provider; outside one it throws. */
  function UseSettings(ctx: Option<Settings>): (r: Result<Settings>)
    ensures r.Ok? <==> ctx.Some?
    ensures r.Ok? ==> r.value == ctx.value
    ensures r.Failed? ==> r.message == OutsideProvider
  {
    if ctx.None? then Failed(OutsideProvider) else Ok(ctx.value)
  }
}

=== FILE: sorting.dfy ===
/** A stable sort by an integer key. The server's `orderBy: { date: 'asc' }`
    and the admin page's `sort((a, b) => b.createdAt - a.createdAt)` are both
    this sort, with the key chosen accordingly. */
module Sorting {
  import Seqs

  /** Keys never decrease along `s`. */
  predicate SortedBy<T>(s: seq<T>, key: T -> int) {
    forall i, j :: 0 <= i < j < |s| ==> key(s[i]) <= key(s[j])
  }

  /** An element no larger than anything in a sorted list can go in front. */
  lemma SortedCons<T>(h: T, t: seq<T>, key: T -> int)
    requires SortedBy(t, key)
    requires forall y :: y in t ==> key(h) <= key(y)
    ensures SortedBy([h] + t, key)
  {
    forall i, j | 0 <= i < j < |[h] + t|
      ensures key(([h] + t)[i]) <= key(([h] + t)[j])
    {
      assert ([h] + t)[j] == t[j - 1];
      if i > 0 {
        assert ([h] + t)[i] == t[i - 1];
      }
    }
  }

  /** Puts `x` into sorted `s` after every element whose key is not larger. */
  function Insert<T>(x: T, s: seq<T>, key: T -> int): (r: seq<T>)
    requires SortedBy(s, key)
    ensures SortedBy(r, key)
    ensures forall y :: y in r ==> y in s || y == x
  {
    if |s| == 0 then [x]
    else if key(x) < key(s[0]) then
      assert forall y :: y in s ==> key(x) <= key(y) by {
        forall y | y in s
          ensures key(x) <= key(y)
        {
          var j :| 0 <= j < |s| && s[j] == y;
          assert key(s[0]) <= key(s[j]);
        }
      }
      SortedCons(x, s, key);
      [x] + s
    else
      var rest := Insert(x, s[1..], key);
      assert forall y :: y in rest ==> key(s[0]) <= key(y) by {
        forall y | y in rest
          ensures key(s[0]) <= key(y)
        {
          if y != x {
            var j :| 0 <= j < |s[1..]| && s[1..][j] == y;
            assert s[1 + j] == y;
          }
        }
      }
      assert SortedBy(s[1..], key);
      SortedCons(s[0], rest, key);
      [s[0]] + rest
  }

  /** Insertion adds exactly `x` to the elements. */
  lemma {:induction false} InsertAddsOne<T>(x: T, s: seq<T>, key: T -> int)
    requires SortedBy(s, key)
    ensures multiset(Insert(x, s, key)) == multiset(s) + multiset{x}
  {
    if |s| > 0 && key(x) >= key(s[0]) {
      assert SortedBy(s[1..], key);
      InsertAddsOne(x, s[1..], key);
      assert s == [s[0]] + s[1..];
    }
  }

  /** Insertion sort: a permutation of `s` whose keys never decrease. */
  function SortBy<T>(s: seq<T>, key: T -> int): (r: seq<T>)
    ensures SortedBy(r, key)
    ensures multiset(r) == multiset(s)
  {
    if |s| == 0 then []
    else
      assert s == s[..|s| - 1] + [s[|s| - 1]];
      InsertAddsOne(s[|s| - 1], SortBy(s[..|s| - 1], key), key);
      Insert(s[|s| - 1], SortBy(s[..|s| - 1], key), key)
  }

  /** Selects the elements whose key is `k`. */
  function KeyIs<T>(key: T -> int, k: int): T -> bool {
    x => key(x) == k
  }

  /** Filtering distributes over concatenation. */
  lemma {:induction false} FilterAppend<T(!new)>(a: seq<T>, b: seq<T>, keep: T -> bool)
    ensures Seqs.Filter(a + b, keep) == Seqs.Filter(a, keep) + Seqs.Filter(b, keep)
  {
    if |a| > 0 {
      assert (a + b)[1..] == a[1..] + b;
      FilterAppend(a[1..], b, keep);
    } else {
      assert a + b == b;
    }
  }

  /** Nothing survives a filter that no element passes. */
  lemma FilterNone<T(!new)>(s: seq<T>, keep: T -> bool)
    requires forall y :: y in s ==> !keep(y)
    ensures Seqs.Filter(s, keep) == []
  {
  }

  /** Inserting `x` puts it after every element of its own key. */
  lemma {:induction false} InsertKeepsTies<T(!new)>(x: T, t: seq<T>, key: T -> int, k: int)
    requires SortedBy(t, key)
    ensures Seqs.Filter(Insert(x, t, key), KeyIs(key, k))
         == Seqs.Filter(t, KeyIs(key, k)) + (if key(x) == k then [x] else [])
  {
    var p := KeyIs(key, k);
    if |t| == 0 {
    } else if key(x) < key(t[0]) {
      if key(x) == k {
        NoTieBelowFront(t, key, k);
      }
      assert ([x] + t)[1..] == t;
    } else {
      var rest := Insert(x, t[1..], key);
      assert SortedBy(t[1..], key);
      assert Insert(x, t, key) == [t[0]] + rest;
      InsertKeepsTies(x, t[1..], key, k);
      assert ([t[0]] + rest)[1..] == rest;
      assert Seqs.Filter([t[0]] + rest, p)
          == (if p(t[0]) then [t[0]] else []) + Seqs.Filter(rest, p);
    }
  }

  /** A key below the front of a sorted list has no element in it. */
  lemma NoTieBelowFront<T(!new)>(t: seq<T>, key: T -> int, k: int)
    requires SortedBy(t, key)
    requires |t| > 0 && k < key(t[0])
    ensures Seqs.Filter(t, KeyIs(key, k)) == []
  {
    forall y | y in t
      ensures !KeyIs(key, k)(y)
    {
      var j :| 0 <= j < |t| && t[j] == y;
      assert key(t[0]) <= key(t[j]);
    }
    FilterNone(t, KeyIs(key, k));
  }

  /** The sort is stable: the elements of any one key keep their input order. */
  lemma {:induction false} SortByStable<T(!new)>(s: seq<T>, key: T -> int, k: int)
    ensures Seqs.Filter(SortBy(s, key), KeyIs(key, k)) == Seqs.Filter(s, KeyIs(key, k))
  {
    if |s| > 0 {
      var init, last := s[..|s| - 1], s[|s| - 1];
      var p := KeyIs(key, k);
      assert SortBy(s, key) == Insert(last, SortBy(init, key), key);
      SortByStable(init, key, k);
      InsertKeepsTies(last, SortBy(init, key), key, k);
      assert s == init + [last];
      FilterAppend(init, [last], p);
      assert Seqs.Filter([last], p) == if key(last) == k then [last] else [];
    }
  }
}

=== FILE: timetable_api.dfy ===
/** The browser-side `Timetable` entity: each method reads the stored token,
    attaches it as a bearer header when there is one, and settles the reply. */
module TimetableApi {
  import opened Common
  import Http

  const TimetablesPath: string := "/api/timetables"

  /** `TimetableType` as the server sends it back. */
  datatype TimetableRecord = TimetableRecord(id: int, name: string)

  /** The only body this entity sends: `{ name }`. */
  datatype Body = NameBody(name: string)

  type Request = Http.Request<Body>

  /** `token ? { Authorization: `Bearer ${token}` } : undefined`, where `token`
      is `localStorage.getItem('token')` (`None` for null). */
  function AuthHeaders(token: Option<string>): (hs: Http.Headers)
    ensures Http.HeaderGet(hs, "Authorization").Some? <==> Truthy(token)
    ensures Truthy(token) ==> Http.HeaderGet(hs, "Authorization") == Some("Bearer " + token.value)
    ensures forall h :: h in hs ==> h.0 == "Authorization"
  {
    if Truthy(token) then [("Authorization", "Bearer " + token.value)] else []
  }

  /** `Timetable.list()`: a GET on the collection. */
  function List(token: Option<string>): (r: Request)
    ensures r.verb == Http.Get && r.url == Http.Url(TimetablesPath, []) && r.body.None?
    ensures Http.HeaderGet(r.headers, "Authorization").Some? <==> Truthy(token)
    ensures Http.HeaderGet(r.headers, "Authorization") == Http.HeaderGet(AuthHeaders(token), "Authorization")
  {
    Http.Request(Http.Get, Http.Url(TimetablesPath, []), AuthHeaders(token), None)
  }

  /** `Timetable.create(name)`: a JSON POST of exactly `{ name }`. */
  function Create(name: string, token: Option<string>): (r: Request)
    ensures r.verb == Http.Post && r.url == Http.Url(TimetablesPath, []) && r.body == Some(NameBody(name))
    ensures Http.HeaderGet(r.headers, "Content-Type") == Some("application/json")
    ensures Http.HeaderGet(r.headers, "Authorization") == Http.HeaderGet(AuthHeaders(token), "Authorization")
  {
    Http.Request(Http.Post, Http.Url(TimetablesPath, []), [("Content-Type", "application/json")] + AuthHeaders(token),
                 Some(NameBody(name)))
  }

  /** `id ? `${API_URL}/${id}` : API_URL`: a truthy id names one timetable,
      anything else (absent, or 0) the whole collection. */
  function DeletePath(id: Option<int>): (path: string)
    ensures !NumTruthy(id) <==> path == TimetablesPath
    ensures NumTruthy(id) ==>
              && |path| > |TimetablesPath| + 1 && path[..|TimetablesPath| + 1] == TimetablesPath + "/"
              && ToNumber(path[|TimetablesPath| + 1..]) == id
  {
    if NumTruthy(id) then
      var path := TimetablesPath + "/" + IntToString(id.value);
      assert path[|TimetablesPath| + 1..] == IntToString(id.value);
      NumberOfString(id.value);
      path
    else
      TimetablesPath
  }

  /** `Timetable.delete(id)`. */
  function Delete(id: Option<int>, token: Option<string>): (r: Request)
    ensures r.verb == Http.Delete && r.url == Http.Url(DeletePath(id), []) && r.body.None?
    ensures Http.HeaderGet(r.headers, "Authorization").Some? <==> Truthy(token)
    ensures Http.HeaderGet(r.headers, "Authorization") == Http.HeaderGet(AuthHeaders(token), "Authorization")
  {
    Http.Request(Http.Delete, Http.Url(DeletePath(id), []), AuthHeaders(token), None)
  }

  datatype Op = ListOp | CreateOp | DeleteOp

  function FailureMessage(op: Op): string {
    match op
    case ListOp => "Failed to load timetables"
    case CreateOp => "Failed to create timetable"
    case DeleteOp => "Failed to delete timetable"
  }

  /** A non-ok reply throws the method's message; an ok one resolves to the body. */
  function Settle<T>(op: Op, res: Http.Response<T>): (r: Result<T>)
    ensures r.Failed? <==> !res.ok
    ensures r.Failed? ==> r.message == FailureMessage(op)
    ensures r.Ok? ==> r.value == res.payload
  {
    Http.Settle(res, FailureMessage(op))
  }
}

=== FILE: timetable_manager.dfy ===
/** The timetable selector: loading the list (selecting the first timetable
    when none is chosen), creating one by name, deleting one or all, and the
    Delete button's state. The selection is the parent's `value`; `load`
    reads the value the handler started with. Replies are passed in, and a
    failed call ends the handler where it throws. */
module TimetableManager {
  import opened Common
  import TimetableApi

  /** The component's list and name input, and the parent's selection. */
  datatype Manager = Manager(timetables: seq<TimetableApi.TimetableRecord>, newName: string, selected: Option<int>)

  /** What a handler did: the requests sent, in order, and the state after. */
  datatype Step = Step(requests: seq<TimetableApi.Request>, state: Manager)

  /** `load()` with the selection `value` it closed over: store the list, and
      pick the first timetable when `value` is falsy and the list is not empty. */
  function Load(m: Manager, value: Option<int>, listed: Result<seq<TimetableApi.TimetableRecord>>): (m': Manager)
    ensures listed.Failed? ==> m' == m
    ensures listed.Ok? ==> m'.timetables == listed.value && m'.newName == m.newName
    ensures listed.Ok? && !NumTruthy(value) && |listed.value| > 0 ==> m'.selected == Some(listed.value[0].id)
    ensures listed.Ok? && (NumTruthy(value) || |listed.value| == 0) ==> m'.selected == m.selected
  {
    match listed
    case Failed(_) => m
    case Ok(data) =>
      if !NumTruthy(value) && |data| > 0 then Manager(data, m.newName, Some(data[0].id))
      else m.(timetables := data)
  }

  /** The mount effect: load with the current selection. */
  function Mount(m: Manager, token: Option<string>, listed: Result<seq<TimetableApi.TimetableRecord>>): (s: Step)
    ensures s.requests == [TimetableApi.List(token)]
    ensures s.state == Load(m, m.selected, listed)
  {
    Step([TimetableApi.List(token)], Load(m, m.selected, listed))
  }

  /** `handleCreate`: nothing for a blank name; otherwise create under the
      trimmed name, clear the input, reload, and select the new timetable. */
  function HandleCreate(m: Manager, token: Option<string>, created: Result<TimetableApi.TimetableRecord>,
                        listed: Result<seq<TimetableApi.TimetableRecord>>): (s: Step)
    ensures AllSpace(m.newName) ==> s == Step([], m)
    ensures !AllSpace(m.newName) ==> |s.requests| >= 1 && s.requests[0] == TimetableApi.Create(Trim(m.newName), token)
    ensures !AllSpace(m.newName) && created.Failed? ==> s.state == m && |s.requests| == 1
    ensures !AllSpace(m.newName) && created.Ok? ==>
              && s.requests == [TimetableApi.Create(Trim(m.newName), token), TimetableApi.List(token)]
              && s.state.newName == ""
    ensures !AllSpace(m.newName) && created.Ok? && listed.Ok? ==>
              s.state == Manager(listed.value, "", Some(created.value.id))
  {
    TrimEmptyIffAllSpace(m.newName);
    if Trim(m.newName) == "" then Step([], m)
    else
      var create := TimetableApi.Create(Trim(m.newName), token);
      match created
      case Failed(_) => Step([create], m)
      case Ok(t) =>
        var cleared := m.(newName := "");
        var loaded := Load(cleared, m.selected, listed);
        var after := if listed.Ok? then loaded.(selected := Some(t.id)) else loaded;
        Step([create, TimetableApi.List(token)], after)
  }

  /** `handleDelete(id)`: delete (one timetable for a truthy id, all of them
      otherwise), reload, and clear the selection when it was the deleted one. */
  function HandleDelete(m: Manager, id: Option<int>, token: Option<string>, deleted: Result<()>,
                        listed: Result<seq<TimetableApi.TimetableRecord>>): (s: Step)
    ensures |s.requests| >= 1 && s.requests[0] == TimetableApi.Delete(id, token)
    ensures deleted.Failed? ==> s == Step([TimetableApi.Delete(id, token)], m)
    ensures deleted.Ok? ==> s.requests == [TimetableApi.Delete(id, token), TimetableApi.List(token)]
    ensures deleted.Ok? && listed.Ok? ==> s.state.timetables == listed.value
    ensures deleted.Ok? && listed.Ok? && NumTruthy(id) && m.selected == id ==> s.state.selected.None?
    ensures deleted.Ok? && listed.Ok? && NumTruthy(m.selected) && m.selected != id ==> s.state.selected == m.selected
  {
    var del := TimetableApi.Delete(id, token);
    match deleted
    case Failed(_) => Step([del], m)
    case Ok(_) =>
      var loaded := Load(m, m.selected, listed);
      var after := if listed.Ok? && NumTruthy(id) && m.selected == id then loaded.(selected := None) else loaded;
      Step([del, TimetableApi.List(token)], after)
  }

  /** Delete all (no id) never changes a selection that was set, even though
      the selected timetable is gone. */
  lemma DeleteAllKeepsSelection(m: Manager, token: Option<string>, listed: Result<seq<TimetableApi.TimetableRecord>>)
    requires NumTruthy(m.selected)
    ensures HandleDelete(m, None, token, Ok(()), listed).state.selected == m.selected
    ensures HandleDelete(m, None, token, Ok(()), listed).requests[0].url.path == TimetableApi.TimetablesPath
  {
  }

  /** `disabled={!value}` */
  function DeleteDisabled(value: Option<int>): bool {
    !NumTruthy(value)
  }

  /** When the Delete button can be pressed it deletes exactly the selected
      timetable, never the whole collection. */
  lemma DeleteButtonTargetsSelection(m: Manager, token: Option<string>)
    requires !DeleteDisabled(m.selected)
    ensures var path := TimetableApi.Delete(m.selected, token).url.path;
      && path != TimetableApi.TimetablesPath
      && ToNumber(path[|TimetableApi.TimetablesPath| + 1..]) == m.selected
  {
  }
}

=== FILE: wire.dfy ===
/** The client entities talking to the server: which route each request the
    browser sends reaches, what the `/api` gate makes of its headers, and what
    the handler then answers. The entry entity sends no Authorization header,
    so as written every entry request stops at the gate; `WithAuth` is the
    request with the stored token attached, as the timetable entity does. */
module Wire {
  import opened Common
  import Dates
  import Http
  import EntryApi
  import TimetableApi
  import Schedule
  import EntryForm
  import Admin
  import Server

  /** The Authorization header the server reads from a request. */
  function Authorization<B>(r: Http.Request<B>): Option<string> {
    Http.HeaderGet(r.headers, "Authorization")
  }

  /** The id text after `prefix + "/"`, when the path has that shape. */
  function IdSegment(path: string, prefix: string): Option<string> {
    if |path| > |prefix| + 1 && path[..|prefix| + 1] == prefix + "/" then Some(path[|prefix| + 1..]) else None
  }

  /** The route Express matches for a timetable request. */
  function TimetableRoute(r: TimetableApi.Request): (route: Server.Route)
    ensures !route.Login?
    ensures r.url.path != "/login" ==> Server.RoutePath(route) != "/login"
  {
    match r.verb
    case Get => Server.ListTimetables
    case Post => Server.CreateTimetable(if r.body.Some? then Some(r.body.value.name) else None)
    case Delete =>
      if r.url.path == TimetableApi.TimetablesPath then Server.DeleteAllTimetables
      else match IdSegment(r.url.path, TimetableApi.TimetablesPath)
        case Some(id) => Server.DeleteTimetable(id)
        case None => Server.Unrouted(r.url.path)
  }

  /** A create body or bulk row as the server's handler reads it from JSON. */
  function FieldsOf(d: EntryApi.EntryData): (f: Server.EntryFields)
    ensures f.title == Some(d.title) && f.description == Some(d.description) && f.date == Some(d.date)
    ensures f.precision.Some? && Dates.ParsePrecision(f.precision.value) == Some(d.precision)
    ensures f.timetableId == d.timetableId
  {
    Dates.PrecisionRoundTrip(d.precision, "");
    Server.EntryFields(Some(d.title), Some(d.description), Some(d.date), Some(Dates.PrecisionName(d.precision)),
                       d.timetableId)
  }

  /** The fields `POST /api/entries` reads from `req.body`. `express.json()`
      leaves an absent body as `{}`, and a bulk body names only the timetable. */
  function CreateFieldsOf(body: Option<EntryApi.Body>): (f: Server.EntryFields)
    ensures body.None? ==> f == Server.EntryFields(None, None, None, None, None)
  {
    match body
    case None => Server.EntryFields(None, None, None, None, None)
    case Some(EntryBody(title, description, date, precision, tid, _)) =>
      FieldsOf(EntryApi.EntryData(title, description, date, precision, tid, None))
    case Some(BulkBody(_, tid)) => Server.EntryFields(None, None, None, None, Some(tid))
  }

  /** The body `POST /api/entries/bulk` reads: `entries` is an array only in a
      bulk body. */
  function BulkOf(body: Option<EntryApi.Body>): (b: Server.BulkBody)
    ensures b.entries.Rows? <==> body.Some? && body.value.BulkBody?
  {
    match body
    case None => Server.BulkBody(Server.NotAnArray, None)
    case Some(EntryBody(_, _, _, _, tid, _)) => Server.BulkBody(Server.NotAnArray, tid)
    case Some(BulkBody(rows, tid)) =>
      Server.BulkBody(Server.Rows(seq(|rows|, k requires 0 <= k < |rows| => FieldsOf(rows[k]))), Some(tid))
  }

  /** The route Express matches for an entry request: the verb and the path
      choose the handler, which then reads whatever body was sent. */
  function EntryRoute(r: EntryApi.Request): (route: Server.Route)
    ensures !route.Login?
    ensures route.Unrouted? ==> route.path == r.url.path
    ensures r.url.path != "/login" ==> Server.RoutePath(route) != "/login"
  {
    match r.verb
    case Get =>
      if r.url.path == EntryApi.EntriesPath + "/search" then Server.SearchEntries(r.url.query)
      else if r.url.path == EntryApi.EntriesPath then Server.ListEntries(r.url.query)
      else Server.Unrouted(r.url.path)
    case Post =>
      if r.url.path == EntryApi.EntriesPath then Server.CreateEntry(CreateFieldsOf(r.body))
      else if r.url.path == EntryApi.EntriesPath + "/bulk" then Server.BulkCreate(BulkOf(r.body))
      else Server.Unrouted(r.url.path)
    case Delete =>
      match IdSegment(r.url.path, EntryApi.EntriesPath)
      case Some(id) => Server.DeleteEntry(id)
      case None => Server.Unrouted(r.url.path)
  }

  /** A routed entry request reaches the handler declared for its own path
      under `/api`. */
  lemma EntryRouteKeepsPath(r: EntryApi.Request)
    ensures !EntryRoute(r).Unrouted? ==> "/api" + Server.RoutePath(EntryRoute(r)) == r.url.path
  {
    var route := EntryRoute(r);
    assert EntryApi.EntriesPath == "/api" + "/entries";
    if route.DeleteEntry? {
      var id := IdSegment(r.url.path, EntryApi.EntriesPath).value;
      IdSegmentJoins(r.url.path, EntryApi.EntriesPath);
      assert "/api" + ("/entries/" + id) == EntryApi.EntriesPath + "/" + id;
    } else if route.SearchEntries? || route.BulkCreate? {
      assert EntryApi.EntriesPath + "/search" == "/api" + "/entries/search";
      assert EntryApi.EntriesPath + "/bulk" == "/api" + "/entries/bulk";
    }
  }

  /** The id segment and its prefix make up the whole path. */
  lemma IdSegmentJoins(path: string, prefix: string)
    requires IdSegment(path, prefix).Some?
    ensures prefix + "/" + IdSegment(path, prefix).value == path
  {
    assert path == path[..|prefix| + 1] + path[|prefix| + 1..];
  }


  /** A token the server signed and that `split(' ')` hands back whole. */
  predicate Usable(token: Option<string>, tokenValid: string -> bool) {
    Truthy(token) && ' ' !in token.value && tokenValid(token.value)
  }

  /** The bearer header built from a usable token passes the gate on any path. */
  lemma UsableTokenPasses(token: Option<string>, path: string, tokenValid: string -> bool)
    requires Usable(token, tokenValid)
    ensures Server.Gate(path, Http.HeaderGet(TimetableApi.AuthHeaders(token), "Authorization"), tokenValid).Pass?
  {
    Server.BearerTokenOfHeader(token.value);
  }

  /** Past the gate, each route's handler answers. */
  lemma GatePassed(st: Server.Store, route: Server.Route, auth: Option<string>, o: Server.Oracles, now: int)
    requires !route.Login? && Server.Gate(Server.RoutePath(route), auth, o.tokenValid).Pass?
    ensures var out := Server.Dispatch(st, route, auth, o, now);
      && (route.ListTimetables? ==> out == Server.ListTimetablesReply(st))
      && (route.CreateTimetable? ==> out == Server.CreateTimetableReply(st, route.name))
      && (route.DeleteTimetable? ==> out == Server.DeleteTimetableReply(st, route.idParam))
      && (route.DeleteAllTimetables? ==> out == Server.DeleteAllReply(st))
      && (route.ListEntries? ==> out == Server.ListEntriesReply(st, route.listQuery))
      && (route.SearchEntries? ==> out == Server.SearchEntriesReply(st, route.searchQuery))
      && (route.CreateEntry? ==> out == Server.CreateEntryReply(st, route.fields, now))
      && (route.BulkCreate? ==> out == Server.BulkCreateReply(st, route.bulk, now))
      && (route.DeleteEntry? ==> out == Server.DeleteEntryReply(st, route.entryIdParam))
      && (route.Unrouted? ==> out == Server.Outcome(Server.Reply(404, Server.NotFoundPage), st))
  {
  }

  /** Every timetable request carries the stored token, and with a usable
      token reaches its handler: the list, the create under its name, and the
      delete of one timetable or of all of them. */
  lemma TimetableCallsReachHandlers(st: Server.Store, token: Option<string>, name: string, id: Option<int>,
                                    o: Server.Oracles, now: int)
    requires Usable(token, o.tokenValid)
    ensures var r := TimetableApi.List(token);
      Server.Dispatch(st, TimetableRoute(r), Authorization(r), o, now) == Server.ListTimetablesReply(st)
    ensures var r := TimetableApi.Create(name, token);
      Server.Dispatch(st, TimetableRoute(r), Authorization(r), o, now) == Server.CreateTimetableReply(st, Some(name))
    ensures var r := TimetableApi.Delete(id, token);
      && (!NumTruthy(id) ==> Server.Dispatch(st, TimetableRoute(r), Authorization(r), o, now) == Server.DeleteAllReply(st))
      && (NumTruthy(id) ==>
            && TimetableRoute(r).DeleteTimetable?
            && ToNumber(TimetableRoute(r).idParam) == id
            && Server.Dispatch(st, TimetableRoute(r), Authorization(r), o, now)
               == Server.DeleteTimetableReply(st, TimetableRoute(r).idParam))
  {
    var list, create, del := TimetableApi.List(token), TimetableApi.Create(name, token), TimetableApi.Delete(id, token);
    UsableTokenPasses(token, Server.RoutePath(TimetableRoute(list)), o.tokenValid);
    UsableTokenPasses(token, Server.RoutePath(TimetableRoute(create)), o.tokenValid);
    UsableTokenPasses(token, Server.RoutePath(TimetableRoute(del)), o.tokenValid);
    GatePassed(st, TimetableRoute(list), Authorization(list), o, now);
    GatePassed(st, TimetableRoute(create), Authorization(create), o, now);
    if NumTruthy(id) {
      assert IdSegment(del.url.path, TimetableApi.TimetablesPath).Some?;
    }
    GatePassed(st, TimetableRoute(del), Authorization(del), o, now);
  }

  /** Deleting with id 0 (or none) empties both tables rather than deleting
      one timetable; with a truthy id only that timetable and its entries go. */
  lemma DeleteZeroDeletesEverything(st: Server.Store, token: Option<string>, id: Option<int>,
                                    o: Server.Oracles, now: int)
    requires Usable(token, o.tokenValid)
    ensures var r := TimetableApi.Delete(id, token);
      var out := Server.Dispatch(st, TimetableRoute(r), Authorization(r), o, now);
      && (!NumTruthy(id) ==> out.store.timetables == [] && out.store.entries == [])
      && (NumTruthy(id) ==>
            && (forall t :: t in out.store.timetables <==> t in st.timetables && t.id != id.value)
            && (forall e :: e in out.store.entries <==> e in st.entries && e.timetableId != id.value))
  {
    TimetableCallsReachHandlers(st, token, "", id, o, now);
  }

  // ---------------------------------------------------------------------------
  // Entry requests

  /** The reply the gate gives a request without an Authorization header. */
  const Unauthorized: Server.Response := Server.Reply(401, Server.ErrorMessage("Unauthorized"))

  /** As written, no entry request carries a token: each one is refused with
      401 and leaves the store as it was. */
  lemma EntryCallsUnauthorized(st: Server.Store, tid: Option<int>, a: EntryApi.SearchArgs, d: EntryApi.EntryData,
                               rows: seq<EntryApi.EntryData>, bulkTid: int, id: int, o: Server.Oracles, now: int)
    ensures var r := EntryApi.List(tid); Server.Dispatch(st, EntryRoute(r), Authorization(r), o, now) == Server.Outcome(Unauthorized, st)
    ensures var r := EntryApi.Search(a); Server.Dispatch(st, EntryRoute(r), Authorization(r), o, now) == Server.Outcome(Unauthorized, st)
    ensures var r := EntryApi.Create(d); Server.Dispatch(st, EntryRoute(r), Authorization(r), o, now) == Server.Outcome(Unauthorized, st)
    ensures var r := EntryApi.BulkCreate(rows, bulkTid);
      Server.Dispatch(st, EntryRoute(r), Authorization(r), o, now) == Server.Outcome(Unauthorized, st)
    ensures var r := EntryApi.Delete(id); Server.Dispatch(st, EntryRoute(r), Authorization(r), o, now) == Server.Outcome(Unauthorized, st)
  {
    var list, search, create := EntryApi.List(tid), EntryApi.Search(a), EntryApi.Create(d);
    var bulk, del := EntryApi.BulkCreate(rows, bulkTid), EntryApi.Delete(id);
    assert Authorization(create).None? && Authorization(bulk).None?;
    Server.NoHeaderNoAccess(st, EntryRoute(list), o, now);
    Server.NoHeaderNoAccess(st, EntryRoute(search), o, now);
    Server.NoHeaderNoAccess(st, EntryRoute(create), o, now);
    Server.NoHeaderNoAccess(st, EntryRoute(bulk), o, now);
    Server.NoHeaderNoAccess(st, EntryRoute(del), o, now);
  }

  /** An entry request with the stored token attached, ahead of its own headers. */
  function WithAuth(r: EntryApi.Request, token: Option<string>): (r': EntryApi.Request)
    ensures r'.verb == r.verb && r'.url == r.url && r'.body == r.body
    ensures Truthy(token) ==> Authorization(r') == Some("Bearer " + token.value)
    ensures !Truthy(token) ==> r'.headers == r.headers
  {
    r.(headers := TimetableApi.AuthHeaders(token) + r.headers)
  }

  /** With the token attached, every entry request reaches its route's handler. */
  lemma AuthorizedEntryCallsPass(st: Server.Store, r: EntryApi.Request, token: Option<string>, o: Server.Oracles, now: int)
    requires Usable(token, o.tokenValid)
    ensures EntryRoute(WithAuth(r, token)) == EntryRoute(r)
    ensures Server.Gate(Server.RoutePath(EntryRoute(r)), Authorization(WithAuth(r, token)), o.tokenValid).Pass?
    ensures var out := Server.Dispatch(st, EntryRoute(r), Authorization(WithAuth(r, token)), o, now);
      && (EntryRoute(r).ListEntries? ==> out == Server.ListEntriesReply(st, r.url.query))
      && (EntryRoute(r).SearchEntries? ==> out == Server.SearchEntriesReply(st, r.url.query))
      && (EntryRoute(r).CreateEntry? ==> out == Server.CreateEntryReply(st, EntryRoute(r).fields, now))
      && (EntryRoute(r).BulkCreate? ==> out == Server.BulkCreateReply(st, EntryRoute(r).bulk, now))
      && (EntryRoute(r).DeleteEntry? ==> out == Server.DeleteEntryReply(st, EntryRoute(r).entryIdParam))
  {
    UsableTokenPasses(token, Server.RoutePath(EntryRoute(r)), o.tokenValid);
    assert Authorization(WithAuth(r, token)) == Http.HeaderGet(TimetableApi.AuthHeaders(token), "Authorization");
    GatePassed(st, EntryRoute(r), Authorization(WithAuth(r, token)), o, now);
  }

  /** The list request names its timetable so that the server reads the same
      id back; without one it sends "undefined", which the server reads as NaN. */
  lemma ListQueryRoundTrip(tid: Option<int>)
    ensures Server.QueryTimetable(EntryApi.List(tid).url.query) == tid
  {
  }

  /** An authorized list of a timetable answers exactly that timetable's
      entries, oldest first; the admin page's list of no timetable is never
      answered. */
  lemma AuthorizedListAnswers(st: Server.Store, tid: Option<int>, token: Option<string>, o: Server.Oracles, now: int)
    requires Usable(token, o.tokenValid)
    ensures var r := WithAuth(EntryApi.List(tid), token);
      var out := Server.Dispatch(st, EntryRoute(r), Authorization(r), o, now);
      && out.store == st
      && (tid.None? ==> out.response.Rejected?)
      && (tid.Some? ==>
            && out.response.Reply? && out.response.status == 200 && out.response.payload.EntriesPayload?
            && (forall e :: e in out.response.payload.entries <==> e in st.entries && e.timetableId == tid.value))
  {
    AuthorizedEntryCallsPass(st, EntryApi.List(tid), token, o, now);
    ListQueryRoundTrip(tid);
  }

  /** The schedule's search as written is never answered, whatever is typed:
      the server reads its timetable as NaN. */
  lemma PositionalSearchRejected(st: Server.Store, search: string, tid: Option<int>, token: Option<string>,
                                 o: Server.Oracles, now: int)
    requires NumTruthy(tid) && !AllSpace(search) && Usable(token, o.tokenValid)
    ensures var r := WithAuth(Schedule.SearchRequestAsWritten(search, tid).value, token);
      Server.Dispatch(st, EntryRoute(r), Authorization(r), o, now) == Server.Outcome(Server.Rejected, st)
  {
    var plain := Schedule.SearchRequestAsWritten(search, tid).value;
    TrimEmptyIffAllSpace(search);
    Schedule.PositionalSearchLosesArguments(search, tid);
    assert EntryRoute(plain).SearchEntries?;
    assert Server.QueryTimetable(plain.url.query).None?;
    AuthorizedEntryCallsPass(st, plain, token, o, now);
  }

  /** The corrected search is answered with the timetable's entries whose
      title or description contains the trimmed text. */
  lemma CorrectedSearchAnswers(st: Server.Store, search: string, tid: Option<int>, token: Option<string>,
                               o: Server.Oracles, now: int)
    requires NumTruthy(tid) && !AllSpace(search) && Usable(token, o.tokenValid)
    ensures var r := WithAuth(Schedule.SearchRequest(search, tid).value, token);
      var out := Server.Dispatch(st, EntryRoute(r), Authorization(r), o, now);
      && out.store == st
      && out.response.Reply? && out.response.status == 200 && out.response.payload.EntriesPayload?
      && (forall e :: multiset(out.response.payload.entries)[e]
            == if e.timetableId == tid.value && Server.Matches(e, Trim(search)) then multiset(st.entries)[e] else 0)
      && (forall e :: e in out.response.payload.entries <==>
            e in st.entries && e.timetableId == tid.value && Server.Matches(e, Trim(search)))
  {
    var plain := Schedule.SearchRequest(search, tid).value;
    TrimEmptyIffAllSpace(search);
    assert EntryRoute(plain).SearchEntries?;
    assert Server.QueryTimetable(plain.url.query) == tid;
    assert Server.QueryText(plain.url.query) == Trim(search);
    AuthorizedEntryCallsPass(st, plain, token, o, now);
    Server.MatchingCounts(st.entries, tid.value, Trim(search));
  }

  /** An authorized delete of an entry removes exactly that entry when it
      exists, and is never answered otherwise. */
  lemma AuthorizedDeleteRemovesEntry(st: Server.Store, id: int, token: Option<string>, o: Server.Oracles, now: int)
    requires Usable(token, o.tokenValid)
    ensures var r := WithAuth(EntryApi.Delete(id), token);
      var out := Server.Dispatch(st, EntryRoute(r), Authorization(r), o, now);
      && (out.response.Reply? <==> exists e :: e in st.entries && e.id == id)
      && (out.response.Reply? ==> forall e :: e in out.store.entries <==> e in st.entries && e.id != id)
      && (out.response.Rejected? ==> out.store == st)
  {
    var plain := EntryApi.Delete(id);
    assert IdSegment(plain.url.path, EntryApi.EntriesPath).Some?;
    assert EntryRoute(plain).DeleteEntry? && ToNumber(EntryRoute(plain).entryIdParam) == Some(id);
    AuthorizedEntryCallsPass(st, plain, token, o, now);
  }

  /** An authorized create: a record missing its title, date or timetable is
      refused with 400 and nothing written; a complete one with a readable
      date and an existing timetable is answered 200 with exactly one new row
      carrying its fields. */
  lemma AuthorizedCreateAddsEntry(st: Server.Store, d: EntryApi.EntryData, token: Option<string>,
                                  o: Server.Oracles, now: int)
    requires Usable(token, o.tokenValid)
    ensures var r := WithAuth(EntryApi.Create(d), token);
      var out := Server.Dispatch(st, EntryRoute(r), Authorization(r), o, now);
      && (d.title == "" || d.date == "" || !NumTruthy(d.timetableId) ==>
            out == Server.Outcome(Server.Reply(400, Server.ErrorMessage("Missing fields")), st))
      && (d.title != "" && d.date != "" && NumTruthy(d.timetableId) && Dates.Parse(d.date).Some?
          && Server.HasTimetable(st.timetables, d.timetableId.value) ==>
            && out.response.Reply? && out.response.status == 200 && out.response.payload.EntryPayload?
            && var e := out.response.payload.entry;
            && out.store.entries == st.entries + [e]
            && out.store.timetables == st.timetables
            && e.title == d.title && e.description == Some(d.description)
            && Dates.Parse(d.date) == Some(e.date)
            && Dates.ParsePrecision(e.precision) == Some(d.precision)
            && e.timetableId == d.timetableId.value)
  {
    var plain := EntryApi.Create(d);
    assert EntryRoute(plain).CreateEntry?;
    assert EntryRoute(plain).fields == FieldsOf(EntryApi.EntryData(d.title, d.description, d.date, d.precision, d.timetableId, None));
    AuthorizedEntryCallsPass(st, plain, token, o, now);
  }

  /** The admin page's submit names no timetable, so even with a token
      attached the server refuses it with 400 and stores nothing. */
  lemma AdminCreateRefused(st: Server.Store, f: EntryForm.FormData, token: Option<string>, o: Server.Oracles, now: int)
    requires Usable(token, o.tokenValid)
    ensures var r := WithAuth(EntryApi.Create(Admin.SubmittedData(f)), token);
      Server.Dispatch(st, EntryRoute(r), Authorization(r), o, now)
        == Server.Outcome(Server.Reply(400, Server.ErrorMessage("Missing fields")), st)
  {
    AuthorizedCreateAddsEntry(st, Admin.SubmittedData(f), token, o, now);
  }

  /** An authorized bulk import of rows that all carry a title and a readable
      date, into an existing timetable, is answered 200 with one new row per
      input row, in order, each in that timetable. */
  lemma AuthorizedBulkCreatesAll(st: Server.Store, rows: seq<EntryApi.EntryData>, tid: int, token: Option<string>,
                                 o: Server.Oracles, now: int)
    requires Usable(token, o.tokenValid) && tid != 0 && Server.HasTimetable(st.timetables, tid)
    requires forall k :: 0 <= k < |rows| ==> rows[k].title != "" && Dates.Parse(rows[k].date).Some?
    ensures var r := WithAuth(EntryApi.BulkCreate(rows, tid), token);
      var out := Server.Dispatch(st, EntryRoute(r), Authorization(r), o, now);
      && out.response.Reply? && out.response.status == 200 && out.response.payload.EntriesPayload?
      && var created := out.response.payload.entries;
      && |created| == |rows|
      && out.store.entries == st.entries + created
      && (forall k :: 0 <= k < |rows| ==>
            && created[k].title == rows[k].title
            && Dates.Parse(rows[k].date) == Some(created[k].date)
            && created[k].timetableId == tid)
  {
    var plain := EntryApi.BulkCreate(rows, tid);
    var fields := seq(|rows|, k requires 0 <= k < |rows| => FieldsOf(rows[k]));
    assert EntryRoute(plain) == Server.BulkCreate(Server.BulkBody(Server.Rows(fields), Some(tid)));
    Server.BulkCreatesAllRows(st, fields, tid, now);
    AuthorizedEntryCallsPass(st, plain, token, o, now);
  }
}
